=== FILE: README.md ===
# Digital credentials: a verified model

This project models the credential core of a small Python service that issues driver's
licenses and passports. The core is the credential classes and their status state machine,
and the code that turns a credential into other shapes and back: storage records, wire
DTOs, the assembler registry, the application services, and the table that maps exceptions
to HTTP answers. The repository holds three revisions of the credential base class side by
side, and the model keeps them apart:

- **Latest.** `LatestCredential` and `LatestVariants` model `app/domain/models/`. The
  object carries a key and a lower-cased issuing country. The transitions are guarded.
- **Guarded.** `GuardedCredential` models `app/domain/credential.py`. It has issuer and
  holder ids and the same guarded transitions.
- **Early.** `EarlyCredential` models `app/domain/Credential.py` together with
  `app/domain/drivers_license.py` and `app/domain/passport.py`. Its transitions carry no
  guards, and it has no check on the order of the two dates.

The guarded transitions, `suspend`, `reinstate`, `revoke` and `update_status`, are pure
functions over a `State` value in `Lifecycle`. Each credential revision is a Dafny `class`
whose methods change its three state fields. Every method is proved against the matching
function, and the object's fields are tied to a `Snapshot` value built by a pure
`Construct`. A subclass becomes a `Details` payload on the class, because the subtype
hierarchy becomes a sum type. A Python exception becomes the `Failure` of a `Result`, and
`Errors.Error` names the exception class and its message.

The translation layers are functions whose partners are round-trip lemmas:

- **Storage mappers.**
  - `PersistenceMappers` covers `app/infrastructure/persistence/mappers/`. It writes a
    record and reads it back with the setters.
  - `LegacyMappers` covers the older `app/infrastructure/*Mapper.py` and
    `mapper_factory.py`. It reads a record back with a single constructor call, so the
    stored status is lost.
- **Wire assemblers.** `RestAssemblers`, `InterfacesAssemblers` and `LegacyAssemblers`
  cover the three packages. The validation of a JSON body is modelled in `Wire` and `Dtos`.
- **Assembler registry.** `AssemblerRegistries` is the class-level string-keyed table.
- **Services.** `CredentialServices` covers the three-key service and
  `LegacyCredentialServices` the two-key one. Each works over a repository that logs
  every call.
- **Exception handlers.** `ExceptionHandlers` is the insertion-ordered exception table.
  `GetHandler` walks it with a loop that is proved against a first-match reference.

Supporting modules:

- `DateTimes` models an instant with an optional UTC offset, together with an `isoformat`
  text that `fromisoformat` parses back.
- `Text` models `str.lower()` on ASCII letters.
- `Uuids` models what `UUID(s)` accepts and how `str` prints it.
- `Enums` models the status and type enumerations.
- `Records` models a storage item and its typed lookups.

Where the repository disagrees with itself, the model follows the code that runs:

- The newer passport mapper keys an item by `CRED#{country}#{issuer}`
  (`app/infrastructure/persistence/mappers/passport_mapper.py:12`), and the mapper test
  expects `CRED#ca#…` for a driver's license too
  (`tests/app/infrastructure/persistence/mappers/test_drivers_license_mapper.py:27`). Both
  driver's-license mappers and the older passport mapper leave the country out. The
  as-written members do too; the corrected driver's-license mapper under "## Findings"
  puts it in.
- The earliest passport (`app/domain/passport.py`) stores its issuing country as given,
  where the latest base lower-cases it (`app/domain/models/credential.py:28`).

## Model

| member | source | states |
|---|---|---|
| Lifecycle.WindowError | app/domain/models/credential.py:16-25 | construction is refused exactly when a date is naive or `valid_until` is earlier than `valid_from`. It names which date is naive first; an equal pair of instants is accepted |
| Lifecycle.Suspend | app/domain/models/credential.py:50-57 | succeeds iff the reason is non-blank and the status is not REVOKED. The blank check comes first. On success the result is SUSPENDED with the given reason, and the revocation reason is kept |
| Lifecycle.Reinstate | app/domain/models/credential.py:59-65 | fails on REVOKED; otherwise the result is ACTIVE with no suspension reason, and the revocation reason is kept |
| Lifecycle.Revoke | app/domain/models/credential.py:67-71 | succeeds iff the reason is non-blank, from any status including REVOKED. The result is REVOKED with that reason, and the suspension reason is kept |
| Lifecycle.UpdateStatus | app/domain/models/credential.py:112-119 | SUSPENDED dispatches to suspend and REVOKED to revoke, each with the reason; ACTIVE dispatches to reinstate, and the reason is ignored |
| Lifecycle.UpdateStatusKeepsConsistent | app/domain/models/credential.py:112-119 | every `update_status`, successful or not, keeps the reason fields consistent with the status |
| Lifecycle.RunKeepsConsistent | app/domain/models/credential.py:50-71 | any series of transitions from a consistent state ends in a consistent state |
| Lifecycle.RevokedIsTerminal | app/domain/models/credential.py:50-71 | once REVOKED with a reason, no series of requests leaves REVOKED or blanks the revocation reason |
| Lifecycle.SuspendReinstateSuspend | app/domain/models/credential.py:50-65 | suspend, reinstate, suspend keeps only the second reason |
| Lifecycle.ReinstateActiveIsIdentity | app/domain/models/credential.py:59-65 | reinstating an ACTIVE credential that has no suspension reason changes nothing |
| Lifecycle.SuspendReinstateRevoke | app/domain/credential.py:122-129 | `update_status` with (SUSPENDED, r), then (ACTIVE, None), then (REVOKED, r2) ends REVOKED with reason r2 and no suspension reason |
| Enums.ParseStatus | app/domain/CredentialStatus.py:3-6 | `CredentialStatus(v)` succeeds exactly on the three values, and the member's value is `v` |
| Enums.ParseStatusValue | app/domain/CredentialStatus.py:3-6 | every member parses back from its own value |
| Enums.ParseCredentialType | app/infrastructure/persistence/repositories/dynamodb_credential_repository.py:35 | `CredentialType(v)` succeeds exactly on "drivers_license" and "passport" |
| DateTimes.AsUtc | app/domain/models/credential.py:21-22 | `astimezone(utc)` keeps the instant and sets offset zero |
| DateTimes.FromIsoFormatRoundTrip | app/infrastructure/persistence/mappers/passport_mapper.py:17-34 | `fromisoformat(isoformat(d)) == d` for naive and aware values |
| DateTimes.IsoFormatInjective | app/infrastructure/persistence/mappers/passport_mapper.py:17-18 | distinct datetimes get distinct texts |
| Text.Lower | app/domain/models/credential.py:28 | same length, and each character is lower-cased |
| Text.LowerIsLowerCase | app/domain/models/credential.py:28 | the result is lower-case, and a lower-case string is unchanged |
| Text.LowerIdempotent | app/domain/models/credential.py:28 | lower-casing twice equals lower-casing once |
| Uuids.Parse | app/infrastructure/DriversLicenseMapper.py:29 | `UUID(s)` succeeds iff the stripped text is 32 hex digits, and yields them in lower case. A stripped text of another length raises "badly formed hexadecimal UUID string"; a 32-character one that is not hex raises `int`'s "invalid literal for int() with base 16" with the text |
| Uuids.UuidText | app/infrastructure/DriversLicenseMapper.py:29 | `str(UUID(s))` exists iff `UUID(s)` parses |
| Uuids.ParseCanonical | app/infrastructure/DriversLicenseMapper.py:15-29 | parsing the printed form of a UUID gives back its digits |
| Uuids.UuidTextIdempotent | app/infrastructure/DriversLicenseMapper.py:15-29 | printing, parsing and printing again gives the same text |
| Errors.ParseIsoDate | app/infrastructure/persistence/mappers/passport_mapper.py:33-34 | `datetime.fromisoformat` succeeds iff the text is well formed; otherwise it raises ValueError with the text in the message |
| Errors.ParseIsoFormat | app/infrastructure/persistence/mappers/passport_mapper.py:17-34 | the text written by `isoformat` parses back to the same date |
| Records.Get | app/infrastructure/persistence/mappers/passport_mapper.py:30-40 | `item[k]` succeeds iff `k` is present; otherwise it raises KeyError(k) |
| Records.GetStr | app/infrastructure/persistence/mappers/passport_mapper.py:31-36 | a string attribute is read as stored; a missing one raises KeyError; a present value of another kind is refused (see "## Left out") |
| Records.GetStrList | app/infrastructure/persistence/mappers/drivers_license_mapper.py:34 | a list attribute is read as stored; a missing one raises KeyError; a present value of another kind is refused (see "## Left out") |
| Records.GetOptStr | app/infrastructure/persistence/mappers/passport_mapper.py:38-39 | a reason attribute is read as a string or null; a missing one raises KeyError; a present value of another kind is refused (see "## Left out") |
| Records.GetDate | app/infrastructure/persistence/mappers/passport_mapper.py:33-34 | `fromisoformat(item[k])` succeeds iff the attribute is a well-formed date text |
| Records.GetStatus | app/infrastructure/persistence/mappers/passport_mapper.py:40 | `CredentialStatus(item[k])` succeeds iff the attribute is one of the three values |
| Records.GetDateIsoFormat | app/infrastructure/persistence/mappers/passport_mapper.py:17-34 | a date stored as its `isoformat` reads back as that date |
| LatestCredential.CredentialKey.CredentialIdAttr | app/domain/models/credential.py:42-44 | `credential_id` exists iff the object was keyed by a credential id; otherwise it raises AttributeError |
| LatestCredential.CredentialKey.IssuerIdAttr | app/interfaces/rest/dto/drivers_license_assembler.py:19 | on the corrected subclasses: `issuer_id` exists only on an issuer/holder key; otherwise it raises AttributeError |
| LatestCredential.CredentialKey.HolderIdAttr | app/interfaces/rest/dto/drivers_license_assembler.py:20 | on the corrected subclasses: `holder_id` exists only on an issuer/holder key |
| LatestCredential.Construct | app/domain/models/credential.py:13-30 | succeeds iff both dates are aware and ordered after UTC conversion. Otherwise it gives the exact `__init__` error. On success: UTC dates, a lower-cased country, ACTIVE with no reasons, and the key and payload as given |
| LatestCredential.ConstructFromStored | app/domain/models/credential.py:13-30 | rebuilding from a constructed credential's own fields gives it back with a fresh ACTIVE state |
| LatestCredential.Credential.constructor | app/domain/models/credential.py:13-30 | the object's fields are those `Construct` computes |
| LatestCredential.Credential.SetSuspensionReason | app/domain/models/credential.py:83-84 | writes the suspension reason, bypassing every guard; nothing else changes |
| LatestCredential.Credential.SetRevocationReason | app/domain/models/credential.py:86-87 | writes the revocation reason only |
| LatestCredential.Credential.SetStatus | app/domain/models/credential.py:89-90 | writes the status only, with no transition check |
| LatestCredential.Credential.Suspend | app/domain/models/credential.py:50-57 | the new state is what `Lifecycle.Suspend` gives; on an error the state is unchanged and the error is returned |
| LatestCredential.Credential.Reinstate | app/domain/models/credential.py:59-65 | the new state is what `Lifecycle.Reinstate` gives, or is unchanged with the error |
| LatestCredential.Credential.Revoke | app/domain/models/credential.py:67-71 | the new state is what `Lifecycle.Revoke` gives, or is unchanged with the error |
| LatestCredential.Credential.UpdateStatus | app/domain/models/credential.py:112-119 | the new state is what `Lifecycle.UpdateStatus` gives, or is unchanged with the error |
| LatestCredential.Credential.IsValid | app/domain/models/credential.py:73-81 | raises Expired iff `now > valid_until`, whatever the status; otherwise true iff ACTIVE and `now >= valid_from` |
| LatestCredential.Create | app/domain/models/credential.py:13-30 | a fresh object with `Construct`'s fields, or `Construct`'s error |
| LatestVariants.NewDriversLicense | app/domain/models/drivers_license.py:10-20 | the corrected constructor. It applies the base checks; the type is DRIVERS_LICENSE; the classes (order kept) and the region are stored verbatim while the country is lower-cased; it starts ACTIVE |
| LatestVariants.NewPassport | app/domain/models/passport.py:9-18 | the corrected constructor. It applies the base checks; the type is PASSPORT; the nationality is verbatim and the country lower-cased; it starts ACTIVE |
| LatestVariants.DriversLicenseAsWrittenRefusesValidInput | app/domain/models/drivers_license.py:9-11 | on valid ordered aware dates, the class as written raises and the corrected constructor succeeds |
| LatestVariants.PassportAsWrittenRefusesValidInput | app/domain/models/passport.py:8-10 | on valid ordered aware dates, the class as written raises and the corrected constructor succeeds |
| LatestVariants.CreateDriversLicense | app/domain/models/drivers_license.py:10-13 | a fresh object holding `NewDriversLicense`'s fields, or its error |
| LatestVariants.CreatePassport | app/domain/models/passport.py:9-11 | a fresh object holding `NewPassport`'s fields, or its error |
| GuardedCredential.Construct | app/domain/credential.py:15-31 | succeeds iff both dates are aware and ordered. On success: the ids as given, UTC dates, ACTIVE with no reasons |
| GuardedCredential.Credential.constructor | app/domain/credential.py:15-31 | the object's fields are those `Construct` computes |
| GuardedCredential.Credential.SetSuspensionReason | app/domain/credential.py:97-98 | writes the suspension reason only |
| GuardedCredential.Credential.SetRevocationReason | app/domain/credential.py:100-101 | writes the revocation reason only |
| GuardedCredential.Credential.SetStatus | app/domain/credential.py:103-104 | writes the status only |
| GuardedCredential.Credential.Suspend | app/domain/credential.py:64-71 | the new state is what `Lifecycle.Suspend` gives, or is unchanged with the error |
| GuardedCredential.Credential.Reinstate | app/domain/credential.py:73-79 | the new state is what `Lifecycle.Reinstate` gives, or is unchanged with the error |
| GuardedCredential.Credential.Revoke | app/domain/credential.py:81-85 | the new state is what `Lifecycle.Revoke` gives, or is unchanged with the error |
| GuardedCredential.Credential.UpdateStatus | app/domain/credential.py:122-129 | the new state is what `Lifecycle.UpdateStatus` gives, or is unchanged with the error |
| GuardedCredential.Credential.IsValid | app/domain/credential.py:87-95 | raises Expired iff `now > valid_until`; otherwise true iff ACTIVE and `now >= valid_from` |
| GuardedCredential.Create | app/domain/credential.py:15-31 | a fresh object with `Construct`'s fields, or `Construct`'s error |
| GuardedCredential.SuspendReinstateRevoke | app/domain/credential.py:122-129 | on an object, the three `update_status` calls end REVOKED with reason r2 and no suspension reason |
| EarlyCredential.Details.CredentialType | app/domain/drivers_license.py:20-21 | DRIVERS_LICENSE exactly for a license payload, otherwise PASSPORT |
| EarlyCredential.Details.AuthorizedIssuers | app/domain/drivers_license.py:31-33 | one entry: PROVINCIAL for a license, FEDERAL for a passport |
| EarlyCredential.ConstructionError | app/domain/Credential.py:17-20 | the only checks are that both dates are aware, with `valid_from` checked first |
| EarlyCredential.Construct | app/domain/Credential.py:13-26 | succeeds iff both dates are aware. On success: the ids and payload as given, UTC dates, ACTIVE with no reasons |
| EarlyCredential.ReversedWindowAccepted | app/domain/Credential.py:13-26 | a window that ends before it starts is accepted here, where the later revisions refuse it |
| EarlyCredential.AfterSuspend | app/domain/Credential.py:59-62 | SUSPENDED with the given reason, from any state and for any reason; the revocation reason is kept |
| EarlyCredential.AfterReinstate | app/domain/Credential.py:64-67 | ACTIVE with no suspension reason; the revocation reason is kept |
| EarlyCredential.AfterRevoke | app/domain/Credential.py:69-72 | REVOKED with the given reason; the suspension reason is kept |
| EarlyCredential.RevokedCanBeReinstated | app/domain/Credential.py:64-67 | a revoked credential can be reinstated, becoming ACTIVE while it keeps its revocation reason |
| EarlyCredential.EmptySuspensionAccepted | app/domain/Credential.py:59-62 | a suspension with no reason succeeds and leaves an inconsistent state, where the guarded revision refuses it |
| EarlyCredential.Credential.constructor | app/domain/Credential.py:13-26 | the object's fields are those `Construct` computes, and both dates are aware |
| EarlyCredential.Credential.Suspend | app/domain/Credential.py:59-62 | the new state is `AfterSuspend` of the old |
| EarlyCredential.Credential.Reinstate | app/domain/Credential.py:64-67 | the new state is `AfterReinstate` of the old |
| EarlyCredential.Credential.Revoke | app/domain/Credential.py:69-72 | the new state is `AfterRevoke` of the old |
| EarlyCredential.Credential.IsValidAsWritten | app/domain/Credential.py:74-77 | false when the credential is not ACTIVE; when it is ACTIVE, the naive-to-aware comparison raises TypeError, so the answer is never true |
| EarlyCredential.Credential.IsValid | app/domain/Credential.py:74-77 | the intended answer: ACTIVE and `valid_from <= now <= valid_until` |
| EarlyCredential.IsValidDiscrepancy | app/domain/Credential.py:74-77 | on a new credential inside its window, the written check raises while the intended one answers true |
| EarlyCredential.CreateDriversLicense | app/domain/drivers_license.py:11-14 | the base checks apply; the classes and the province are stored verbatim |
| EarlyCredential.CreatePassport | app/domain/passport.py:11-14 | the base checks apply; the nationality and the country are stored verbatim, without lower-casing |
| EarlyCredential.Create | app/domain/Credential.py:13-26 | a fresh object with `Construct`'s fields, or its error |
| PersistenceMappers.PartitionKeyShape | app/infrastructure/persistence/mappers/passport_mapper.py:12 | the country sits right after `CRED#` and is closed by `#` |
| PersistenceMappers.PartitionKeyInjective | app/infrastructure/persistence/mappers/passport_mapper.py:12 | distinct (country, issuer) pairs give distinct partition keys when no country contains `#` |
| PersistenceMappers.PassportToDynamo | app/infrastructure/persistence/mappers/passport_mapper.py:10-27 | the item is written iff the key has an issuer id; otherwise it raises AttributeError("issuer_id") |
| PersistenceMappers.PassportItemShape | app/infrastructure/persistence/mappers/passport_mapper.py:10-27 | the item has PK `CRED#country#issuer` and SK `METADATA#passport`, with type "passport", the status value, both reasons as string or null, the payload and version 1 |
| PersistenceMappers.PassportToDomainSpec | app/infrastructure/persistence/mappers/passport_mapper.py:29-42 | over the corrected `Passport` constructor: succeeds only when every read attribute is present. The result carries the item's status and reasons verbatim, even where the state machine forbids them |
| PersistenceMappers.PassportToDomain | app/infrastructure/persistence/mappers/passport_mapper.py:29-42 | over the corrected `Passport` constructor: constructs the object and then applies the three setters; the resulting object is `PassportToDomainSpec`'s |
| PersistenceMappers.PassportIdentityLookups | app/infrastructure/persistence/mappers/passport_mapper.py:30-37 | the ids and payload read back from a written item are the ones written |
| PersistenceMappers.PassportDateLookups | app/infrastructure/persistence/mappers/passport_mapper.py:33-34 | the dates read back from a written item are the ones written |
| PersistenceMappers.PassportStateLookups | app/infrastructure/persistence/mappers/passport_mapper.py:38-40 | the status and reasons read back from a written item are the ones written |
| PersistenceMappers.PassportRoundTrip | app/infrastructure/persistence/mappers/passport_mapper.py:10-42 | over the corrected `Passport` constructor: `to_domain(to_dynamo(p)) == p`, status and reasons included |
| PersistenceMappers.DriversLicenseToDynamo | app/infrastructure/persistence/mappers/drivers_license_mapper.py:10-27 | corrected: the item is written iff the key has an issuer id, with the country in the key and `issuing_region` |
| PersistenceMappers.DriversLicenseItemShape | app/infrastructure/persistence/mappers/drivers_license_mapper.py:10-27 | the corrected item's keys, type, status value, both reasons as string or null, classes, region and version 1 |
| PersistenceMappers.DriversLicenseToDomainSpec | app/infrastructure/persistence/mappers/drivers_license_mapper.py:28-40 | corrected two-phase read: it succeeds only when every read attribute is present, and the status and reasons are taken verbatim |
| PersistenceMappers.DriversLicenseToDomain | app/infrastructure/persistence/mappers/drivers_license_mapper.py:28-40 | constructs and then applies the three setters; the resulting object is `DriversLicenseToDomainSpec`'s |
| PersistenceMappers.DriversLicenseIdentityLookups | app/infrastructure/persistence/mappers/drivers_license_mapper.py:29-35 | the ids and payload read back are the ones written |
| PersistenceMappers.DriversLicenseDateLookups | app/infrastructure/persistence/mappers/drivers_license_mapper.py:32-33 | the dates read back are the ones written |
| PersistenceMappers.DriversLicenseStateLookups | app/infrastructure/persistence/mappers/drivers_license_mapper.py:37-39 | the status and reasons read back are the ones written |
| PersistenceMappers.DriversLicenseRoundTrip | app/infrastructure/persistence/mappers/drivers_license_mapper.py:10-40 | corrected mapper: `to_domain(to_dynamo(c)) == c`, status and reasons included |
| PersistenceMappers.DriversLicenseToDynamoAsWritten | app/infrastructure/persistence/mappers/drivers_license_mapper.py:10-27 | as written, on the latest license, reading `issuing_province` raises AttributeError |
| PersistenceMappers.DriversLicenseToDomainAsWritten | app/infrastructure/persistence/mappers/drivers_license_mapper.py:28-35 | as written, every item is refused. A complete item fails with the abstract-class TypeError, raised before `__init__` could refuse the `issuing_province` keyword |
| PersistenceMappers.DriversLicenseKeyAsWrittenCollides | app/infrastructure/persistence/mappers/drivers_license_mapper.py:12 | the written key drops the country, so licenses from one issuer in two countries collide, where the corrected key separates them |
| PersistenceMappers.DriversLicenseMapperAsWrittenFails | app/infrastructure/persistence/mappers/drivers_license_mapper.py:10-40 | on a license the corrected mapper round-trips, the written mapper raises both ways |
| PersistenceMappers.GetMapper | app/infrastructure/persistence/mappers/credential_mapper_provider.py:8-13 | each type gets the mapper of that type |
| PersistenceMappers.GetMapperRoundTrip | app/infrastructure/persistence/mappers/credential_mapper_provider.py:8-13 | corrected mappers and constructors: the mapper handed out for a credential's type round-trips that credential |
| LegacyMappers.DriversLicenseItemShape | app/infrastructure/DriversLicenseMapper.py:9-26 | PK `CRED#issuer` without the country, SK `METADATA#drivers_license`, the type, the status value, classes, province, both reasons and version 1 |
| LegacyMappers.PassportItemShape | app/infrastructure/PassportMapper.py:9-26 | PK `CRED#issuer`, SK `METADATA#passport`, the type, the status value, nationality, country, reasons and version 1 |
| LegacyMappers.GetUuid | app/infrastructure/DriversLicenseMapper.py:29 | `UUID(item['issuer_id'])` succeeds iff the attribute is a string that parses as a UUID, and yields its printed form |
| LegacyMappers.DriversLicenseToDomain | app/infrastructure/DriversLicenseMapper.py:27-35 | a single constructor call. Success requires the six read attributes; the result is ACTIVE with no reasons, whatever the item's status |
| LegacyMappers.PassportToDomain | app/infrastructure/PassportMapper.py:28-36 | a single constructor call. Success requires the six read attributes; the result is ACTIVE with no reasons |
| LegacyMappers.ItemLookups | app/infrastructure/DriversLicenseMapper.py:28-34 | the lookups of `to_domain` on a written item give the written ids and dates |
| LegacyMappers.ConstructFromStored | app/infrastructure/DriversLicenseMapper.py:28-35 | rebuilding from a stored credential's fields gives it back with a fresh state |
| LegacyMappers.DriversLicenseRoundTripResetsState | app/infrastructure/DriversLicenseMapper.py:9-35 | `to_domain(to_dynamo(c))` is `c` with status ACTIVE and no reasons |
| LegacyMappers.PassportRoundTripResetsState | app/infrastructure/PassportMapper.py:9-36 | `to_domain(to_dynamo(p))` is `p` with status ACTIVE and no reasons |
| LegacyMappers.StoredStatusIsLost | app/infrastructure/DriversLicenseMapper.py:18-35 | a suspended or revoked license is written with its status and read back ACTIVE |
| LegacyMappers.NonUuidIssuerRefused | app/infrastructure/DriversLicenseMapper.py:29 | an issuer id that is not a UUID is refused by both mappers: with "badly formed hexadecimal UUID string" when it does not strip to 32 characters, and with `int`'s "invalid literal" ValueError when it does |
| LegacyMappers.GetMapper | app/infrastructure/mapper_factory.py:7-12 | each type gets the mapper whose `get_type()` is that type's value |
| Wire.Str | app/rest/dto/credential_dto.py:7-10 | a required string field succeeds iff present as a string; a missing one gives "Field required" |
| Wire.StrList | app/rest/dto/drivers_license_dto.py:7 | a required list field succeeds iff present as a list of strings; a missing one gives "Field required" |
| Wire.OptStr | app/rest/dto/credential_dto.py:11-13 | an optional field takes its default when absent; otherwise it must be a string or null |
| Wire.ParseStatusFields | app/rest/dto/credential_dto.py:11-13 | succeeds iff each present status field is a string or null; an absent field gets its default: "active", None, None |
| Wire.StatusFieldsOf | app/rest/assemblers/drivers_license_assembler.py:23-25 | the status written is the status's value, which parses back; the reasons are copied |
| Wire.ParseDumpedStatusFields | app/rest/dto/credential_dto.py:11-13 | validating the written status fields gives them back |
| Dtos.ParseRestDriversLicense | app/rest/dto/drivers_license_dto.py:6-8 | a failure is a ValueError; a success means every required field was present |
| Dtos.ParseDumpRestDriversLicense | app/rest/dto/drivers_license_dto.py:6-8 | validating a dumped DTO gives the same DTO |
| Dtos.ParseRegionDriversLicense | app/interfaces/rest/dto/drivers_license_dto.py:6-8 | a failure is a ValueError; a success means every required field, and no country, was declared |
| Dtos.ParseDumpRegionDriversLicense | app/interfaces/rest/dto/drivers_license_dto.py:6-8 | validating a dumped DTO gives the same DTO |
| Dtos.ParseCountryDriversLicense | app/interfaces/rest/dto/credential_dto.py:6-13 | the corrected DTO with `issuing_country` declared: a failure is a ValueError, and a success means every required field was present |
| Dtos.ParseDumpCountryDriversLicense | app/interfaces/rest/dto/credential_dto.py:6-13 | validating a dumped DTO gives the same DTO |
| Dtos.ParseProvinceDriversLicense | app/api/dto/DriversLicenseDTO.py:6-8 | a failure is a ValueError; a success means every required field was present |
| Dtos.ParseDumpProvinceDriversLicense | app/api/dto/DriversLicenseDTO.py:6-8 | validating a dumped DTO gives the same DTO |
| Dtos.ParsePassport | app/rest/assemblers/passport_assembler.py:19-29 | a failure is a ValueError; a success means every required field was present |
| Dtos.ParseDumpPassport | app/rest/assemblers/passport_assembler.py:19-29 | validating a dumped DTO gives the same DTO |
| RestAssemblers.DriversLicenseSpecificDto | app/rest/assemblers/drivers_license_assembler.py:12-16 | validation succeeds exactly when the DTO validates; every validation error becomes InvalidCredentialData with field "format" |
| RestAssemblers.DriversLicenseToDto | app/rest/assemblers/drivers_license_assembler.py:17-28 | succeeds iff the object has a `credential_id`. The dates are written as text that parses back, and so is the status; the country, reasons, classes and region are copied |
| RestAssemblers.DriversLicenseToDomain | app/rest/assemblers/drivers_license_assembler.py:30-39 | corrected: a validation failure is a "format" error. The result has the DTO's id, classes and region and the lower-cased country, starts ACTIVE and is well formed. It succeeds iff the body validates, both date texts parse and the constructor accepts the dates; the result's `valid_from` and `valid_until` are the parsed body dates converted to UTC |
| RestAssemblers.DriversLicenseMalformedDateUnwrapped | app/rest/assemblers/drivers_license_assembler.py:34-35 | a malformed date raises a bare ValueError, outside the try block |
| RestAssemblers.DriversLicenseIgnoresStatus | app/rest/assemblers/drivers_license_assembler.py:30-39 | the body's status and reasons do not affect the result |
| RestAssemblers.DriversLicenseRoundTrip | app/rest/assemblers/drivers_license_assembler.py:17-39 | `to_domain(to_dto(c))` equals `c` on every field, with the state reset to ACTIVE |
| RestAssemblers.DriversLicenseToDomainAsWritten | app/rest/assemblers/drivers_license_assembler.py:30-39 | as written it always fails. Once the DTO and both dates pass, it raises the abstract-class TypeError, before `__init__` could refuse the `credential_id` keyword |
| RestAssemblers.DriversLicenseAsWrittenRefusesOwnDto | app/rest/assemblers/drivers_license_assembler.py:17-39 | the DTO that `to_dto` writes is refused by the written `to_domain` and accepted by the corrected one |
| RestAssemblers.PassportSpecificDto | app/rest/assemblers/passport_assembler.py:11-15 | validation errors become InvalidCredentialData with field "format" |
| RestAssemblers.PassportToDto | app/rest/assemblers/passport_assembler.py:17-32 | succeeds iff the key has issuer and holder; otherwise the AttributeError is rewrapped as "conversion" with the "Failed to write the passport" prefix. On success every field is projected |
| RestAssemblers.PassportToDomain | app/rest/assemblers/passport_assembler.py:33-42 | over the corrected `Passport` constructor: a validation failure is a "format" error. The result has the DTO's ids and nationality and the lower-cased country, and starts ACTIVE. It succeeds iff the body validates, both date texts parse and the constructor accepts the dates; the result's `valid_from` and `valid_until` are the parsed body dates converted to UTC |
| RestAssemblers.PassportRoundTrip | app/rest/assemblers/passport_assembler.py:17-42 | over the corrected `Passport` constructor: `to_domain(to_dto(p))` is `p` with the state reset |
| InterfacesAssemblers.DriversLicenseSpecificDto | app/interfaces/rest/dto/drivers_license_assembler.py:12-16 | validation errors become InvalidCredentialData with field "format" |
| InterfacesAssemblers.DriversLicenseToDto | app/interfaces/rest/dto/drivers_license_assembler.py:17-29 | succeeds iff the key has issuer and holder. The ids, dates, status, reasons, classes and region reach the DTO; the country has no field to land in |
| InterfacesAssemblers.DriversLicenseToDomainAsWritten | app/interfaces/rest/dto/drivers_license_assembler.py:31-41 | always fails; once the DTO and dates pass, it raises AttributeError("issuing_country") |
| InterfacesAssemblers.DriversLicenseAsWrittenLosesCountry | app/interfaces/rest/dto/drivers_license_assembler.py:17-41 | even the DTO `to_dto` wrote cannot be read back |
| InterfacesAssemblers.CountryDriversLicenseSpecificDto | app/interfaces/rest/dto/drivers_license_assembler.py:12-16 | corrected DTO: validation errors become "format" errors |
| InterfacesAssemblers.DriversLicenseToCountryDto | app/interfaces/rest/dto/drivers_license_assembler.py:17-29 | corrected projection: the country is kept as well |
| InterfacesAssemblers.DriversLicenseToDomain | app/interfaces/rest/dto/drivers_license_assembler.py:31-41 | corrected: the key, lower-cased country, classes and region come from the DTO; it starts ACTIVE and is well formed. It succeeds iff the body validates, both date texts parse and the constructor accepts the dates; the result's `valid_from` and `valid_until` are the parsed body dates converted to UTC |
| InterfacesAssemblers.DriversLicenseRoundTrip | app/interfaces/rest/dto/drivers_license_assembler.py:17-41 | corrected: `to_domain(to_dto(c))` is `c` with the state reset |
| LegacyAssemblers.DriversLicenseToDto | app/api/dto/DriversLicenseAssembler.py:13-24 | ids, dates as text that parses back, the status value, reasons, classes and province |
| LegacyAssemblers.DriversLicenseToDomain | app/api/dto/DriversLicenseAssembler.py:11-35 | validation errors propagate unwrapped as ValueError. The result has the DTO's ids, classes and province and starts ACTIVE. It succeeds iff the body validates, both date texts parse and both dates are timezone-aware; the result's `valid_from` and `valid_until` are the parsed body dates converted to UTC |
| LegacyAssemblers.DriversLicenseRoundTrip | app/api/dto/DriversLicenseAssembler.py:13-35 | with UTC dates, `to_domain(to_dto(c))` is `c` with the state reset |
| LegacyAssemblers.PassportToDto | app/api/dto/PassportAssembler.py:14-25 | ids, dates, status value, reasons, nationality and country |
| LegacyAssemblers.PassportToDomain | app/api/dto/PassportAssembler.py:11-35 | validation errors propagate unwrapped. The country is kept as given; it starts ACTIVE. It succeeds iff the body validates, both date texts parse and both dates are timezone-aware; the result's `valid_from` and `valid_until` are the parsed body dates converted to UTC |
| LegacyAssemblers.PassportRoundTrip | app/api/dto/PassportAssembler.py:14-35 | with UTC dates, `to_domain(to_dto(p))` is `p` with the state reset |
| AssemblerRegistries.Lookup | app/rest/assemblers/assembler_registry.py:17-24 | a registered type yields its class; any other gives 400 "Unsupported credential type: t" |
| AssemblerRegistries.LookupAfterRegister | app/rest/assemblers/assembler_registry.py:13 | after `register(t)(C)`, `t` yields `C` and every other key yields what it did before |
| AssemblerRegistries.LaterRegistrationWins | app/api/dto/assembler_registry.py:13 | registering a key twice leaves the second class |
| AssemblerRegistries.AssemblerRegistry.constructor | app/rest/assemblers/assembler_registry.py:8 | the table starts empty |
| AssemblerRegistries.AssemblerRegistry.Register | app/rest/assemblers/assembler_registry.py:10-15 | stores the class under the key, overwriting, and hands the class back unchanged |
| AssemblerRegistries.AssemblerRegistry.GetAssembler | app/rest/assemblers/assembler_registry.py:17-24 | the registered class or the 400, as `Lookup` states |
| AssemblerRegistries.RegisterRestAssemblers | app/rest/assemblers/drivers_license_assembler.py:10-11 | the package's decorators register its two assemblers under "drivers_license" and "passport" |
| AssemblerRegistries.RegisteredLookups | app/api/dto/assembler_registry.py:17-24 | both types resolve to their assemblers, and any other string is a 400 |
| CredentialServices.Repository.constructor | app/domain/repositories/credential_repository.py:7-18 | a repository holding the given credentials, with an empty call log |
| CredentialServices.Repository.GetCredential | app/domain/repositories/credential_repository.py:9-10 | the credential stored under (id, type, country), or CredentialNotFound; the call is logged |
| CredentialServices.Repository.CreateCredential | app/domain/repositories/credential_repository.py:13-14 | logs the call and returns the object |
| CredentialServices.Repository.UpdateCredentialStatus | app/domain/repositories/credential_repository.py:17-18 | logs the write together with the state it writes |
| CredentialServices.CredentialService.constructor | app/application/services/credential_service.py:7-8 | holds the repository |
| CredentialServices.CredentialService.GetCredential | app/application/services/credential_service.py:10-11 | forwards (id, type, country) unchanged, with no lower-casing, and returns the repository's answer |
| CredentialServices.CredentialService.ValidateCredential | app/application/services/credential_service.py:13-14 | the fetched credential's status; only the fetch is logged, with no write |
| CredentialServices.CredentialService.CreateCredential | app/application/services/credential_service.py:16-17 | a pass-through that returns the repository's result |
| CredentialServices.CredentialService.UpdateCredential | app/application/services/credential_service.py:19-23 | fetches with the arguments reordered to (id, type, country), then applies `update_status`. It writes exactly once after a successful transition and returns the same object. If the fetch or the transition fails there is no write, and the state is unchanged |
| LegacyCredentialServices.Repository.constructor | app/domain/credential_repository.py:7-18 | a repository holding the given credentials, with an empty call log |
| LegacyCredentialServices.Repository.GetCredential | app/domain/credential_repository.py:9-10 | the credential stored under (id, type), or CredentialNotFound; the call is logged |
| LegacyCredentialServices.Repository.CreateCredential | app/domain/credential_repository.py:13-14 | logs the call and returns the object |
| LegacyCredentialServices.Repository.UpdateCredentialStatus | app/domain/credential_repository.py:17-18 | logs the write with the state written |
| LegacyCredentialServices.CredentialService.constructor | app/application/credential_service.py:7-8 | holds the repository |
| LegacyCredentialServices.CredentialService.GetCredential | app/application/credential_service.py:10-11 | forwards (id, type) and returns the repository's answer |
| LegacyCredentialServices.CredentialService.ValidateCredential | app/application/credential_service.py:13-15 | the fetched status, with no write |
| LegacyCredentialServices.CredentialService.CreateCredential | app/application/credential_service.py:17-18 | a pass-through |
| LegacyCredentialServices.CredentialService.UpdateCredential | app/application/credential_service.py:20-24 | fetch, then `update_status`, then one write, in that order, returning the same object; a failed fetch or transition means no write |
| ExceptionHandlers.SubclassTransitive | app/rest/exceptions/handlers.py:76 | `isinstance` follows the base chain transitively |
| ExceptionHandlers.FirstMatch | app/rest/exceptions/handlers.py:74-77 | the position of the first entry the exception is an instance of; none when no entry matches |
| ExceptionHandlers.RespondAt | app/rest/exceptions/handlers.py:74-77 | a matching entry with no match before it is the one that answers |
| ExceptionHandlers.Put | app/rest/exceptions/handlers.py:70-71 | a dictionary assignment: an existing class is overwritten in place, a new one appended; keys stay distinct |
| ExceptionHandlers.AppendedSubclassShadowed | app/rest/exceptions/handlers.py:69-77 | a class appended below an entry for one of its bases never answers; its exceptions get the same answer as before |
| ExceptionHandlers.ExceptionHandlerRegistry.constructor | app/rest/exceptions/handlers.py:19-67 | the table in declaration order |
| ExceptionHandlers.ExceptionHandlerRegistry.Register | app/rest/exceptions/handlers.py:69-71 | the table becomes `Put` of the old table, and keys stay distinct |
| ExceptionHandlers.ExceptionHandlerRegistry.GetHandler | app/rest/exceptions/handlers.py:73-82 | the loop returns the first match's answer with `str(e)` as the detail, or 500 "Internal server error" |
| ExceptionHandlers.DomainResponses | app/rest/exceptions/handlers.py:21-36 | CredentialNotFound gives 404, InvalidCredentialState 400, UnauthorizedIssuer 403 and Expired 400, each with `str(e)` as the detail |
| ExceptionHandlers.UnlistedGetsInternalError | app/rest/exceptions/handlers.py:79-82 | an exception outside every listed class gets 500 "Internal server error" |
| ExceptionHandlers.ConnectionFailureGets500 | app/rest/exceptions/handlers.py:55-62 | as declared, DatabaseConnectionException is answered 500 by its base's entry |
| ExceptionHandlers.No503 | app/rest/exceptions/handlers.py:55-62 | no exception whatever is answered 503 by the declared table |
| ExceptionHandlers.ConnectionFailureGets503 | app/rest/exceptions/handlers.py:59-62 | with the connection entry ahead of its base's, a connection failure gets 503 |
| ExceptionHandlers.CorrectedAgreesElsewhere | app/rest/exceptions/handlers.py:19-67 | the corrected table answers every other exception exactly as the declared one |

## Left out

- `app/domain/DriversLicense.py` and `app/domain/Passport.py` never implement the abstract `get_credential_type`, so they cannot be instantiated. The older mappers and the `api` assemblers import them; here those mappers and assemblers work over the concrete `app/domain/drivers_license.py` and `app/domain/passport.py`.
- Every mapper and assembler member over `app/domain/models/` takes the corrected `LatestVariants.NewDriversLicense` and `LatestVariants.NewPassport` constructors. As written, `DriversLicense(...)` and `Passport(...)` always raise the abstract-class TypeError (see "## Findings"), and the base in `app/domain/models/credential.py` declares only `credential_id` (lines 42-44). So on every input the program raises where these members succeed: PersistenceMappers.PassportToDomainSpec, PassportToDomain, PassportRoundTrip and GetMapperRoundTrip, RestAssemblers.PassportToDomain and PassportRoundTrip, and the `issuer_id`/`holder_id` attributes that LatestCredential.CredentialKey.IssuerIdAttr and HolderIdAttr describe, which exist only on the corrected subclasses.
- GuardedCredential: `app/domain/credential.py` is abstract. Its hooks `get_credential_type`, `authorized_issuers` and `_validate_holder_id` belong to subclasses that are not part of this model, so the model stands for a concrete subclass that implements them and validates nothing further. Its `id` property returns an `_id` that nothing sets, so it would raise AttributeError; it is not modelled.
- The enum declaration files `app/domain/CredentialType.py` and `app/domain/enums/credential_type.py` are not part of this model. The two values are taken from the registrations and the `.value` uses in the mappers.
- The class-level dictionaries `_assemblers` (`app/api/dto/assembler_registry.py`) and `_handlers` (`app/rest/exceptions/handlers.py`) are each modelled as one object's field. That every instance sees the same registrations holds because the model has a single object, not by proof.
- The registry file `app/api/dto/AssemblerRegistry.py` is not part of this model. `app/api/dto/assembler_registry.py` stands for it, and one registry model covers both identical registry files.
- These DTO files are not part of this model: `app/rest/dto/passport_dto.py`, `app/api/dto/PassportDTO.py` and `app/api/dto/CredentialDTO.py`. Their fields are taken from the assemblers that build them, with the same base fields and defaults as `app/interfaces/rest/dto/credential_dto.py`.
- Dtos.ParsePassport: the REST package's own base, `app/rest/dto/credential_dto.py:6-13`, requires `credential_id` and `issuing_country` and declares no issuer or holder. The REST passport assembler writes and reads `issuer_id` and `holder_id` (`app/rest/assemblers/passport_assembler.py:20-21 and 36-37`), so the model takes the base that declares those fields, the one in `app/interfaces/rest/dto/credential_dto.py`. Were the passport DTO built on the package's own base, every `to_dto` would end in the "conversion" error for the missing `credential_id`, and `to_domain` would raise AttributeError on `issuer_id`.
- The exception base classes under `app/rest/exceptions/`, `app/application/exceptions/` and `app/infrastructure/exceptions/` are not part of this model. Each base is taken to derive directly from `Exception`, InvalidCredentialDataException from AssemblerException, and the two database exceptions from DatabaseException.
- Pydantic validation is abridged. Only the first failing field, in declaration order, is reported, and the message keeps only the model name, the field and the problem. Extra keys in a body are ignored and not represented.
- Wire.ParseStatusFields: `status` is a free string, as the DTO declares it, so a body with an unknown status validates. The assemblers never read it.
- Records.GetStr: a present attribute that is not a string is refused with a TypeError. Python's `item[k]` passes any value on to the constructor unchecked; the model's credential fields are typed strings, so such an item is refused where Python would build an object holding the odd value.
- Records.GetStrList: a present attribute that is not a list of strings is refused with a TypeError, where Python's `item[k]` passes the value on unchecked, for the same reason.
- Records.GetOptStr: a present reason that is neither a string nor null is refused with a TypeError, where Python's `item[k]` passes the value on to the setter unchecked, for the same reason.
- Only string, list and null values are distinguished in a record or a body. Every other JSON or DynamoDB value is one `JOther`/`Int` case. So Records.GetStatus on a stored value that is not a string answers "value is not a valid CredentialStatus", where Python's message starts with that value's `repr`, which the model cannot rebuild.
- Uuids.Parse: the `int=`, `bytes=` and `fields=` forms of `UUID` are not modelled. Only the string argument the mappers pass is.
- Uuids.Parse: it refuses every 32-character text that is not all hexadecimal digits. Python's `int(text, 16)` also accepts a sign, a `0x` or `0X` prefix (so `0x` followed by 30 hex digits), underscores between digits, surrounding whitespace and non-ASCII Unicode decimal digits such as Arabic-Indic digits in such a text; those few inputs are refused here with the "invalid literal" ValueError. That message quotes the text plainly, where `repr` would escape a quote or a backslash in it.
- LegacyMappers.GetUuid: the `uuid.UUID` object the older mappers rebuild is represented by its printed text, which stands for the `issuer_id: UUID` the early classes declare. A credential built in Python with a plain string issuer (the constructor does not check it) comes back holding a `UUID` object that is not equal to that string; the model's round-trip lemmas require the issuer to be a UUID's printed text and do not cover that case.
- Errors: the text of an AttributeError leaves out the object's class name that Python's message starts with ("'Passport' object has no attribute 'issuer_id'"), so RestAssemblers.PassportToDto's "conversion" detail is abridged the same way.
- Text.Lower: only ASCII letters are folded; Unicode case folding is not modelled.
- Dates are an integer instant with an optional offset. Calendar arithmetic, the `isoformat` text's calendar layout and time zones other than fixed offsets are not modelled, and the encoding is an injective stand-in for the real text. The Expired message prints its date as `isoformat` text, with `T` between date and time, where Python's f-string prints `str(datetime)`, with a space.
- `datetime.now` in `is_valid` and the `created_at`/`updated_at` timestamps are a `now` parameter. The mappers call `datetime.now(UTC)` once for each stamp; the model gives both stamps the one `now`, so it does not capture two stamps that differ by the time between the calls.
- The `get_mapper` fall-through that returns None for an unmatched type cannot happen, because `CredentialType` has exactly the two members the match covers.
- The repositories are abstract: a map of stored objects and a call log. The DynamoDB repositories, the storage client, the API-key code, the routers, the dependency wiring and the middleware are left out. The persistence repository's `get_credential` takes two arguments where the three-key service passes three; the model follows the service.
- Repository `create_credential` only logs the call and hands the object back. Whether the store keeps it is the repository's concern.
- Object identity beyond the credential objects themselves is not modelled. An assembler class is a value, and `get_assembler`'s fresh instance is its class.
- The handler table holds the handlers the source declares, a status code with `str(e)` as the detail. An arbitrary callable registered at run time is modelled by the status it answers with.

## Findings

| source | as written | input that shows it | evidently intended | confidence | as-written member | corrected member |
|---|---|---|---|---|---|---|
| app/domain/models/drivers_license.py:9-11 | the subclass leaves the base's abstract `_validate_credential_id_format` unimplemented, and passes five positional arguments to a four-parameter base, so every instantiation raises TypeError | `DriversLicense("issuer", "holder", 1970-01-01T00:00:00+00:00, +1000 s, ["A","B"], "CA", "ON")` | issuer and holder form the key; the remaining arguments go to the base | high; not executed | LatestVariants.DriversLicenseAsWrittenRefusesValidInput | LatestVariants.NewDriversLicense |
| app/domain/models/passport.py:8-10 | the same two defects in the passport subclass | `Passport("issuer", "holder", epoch, epoch + 1000 s, "Canadian", "CA")` | as for the driver's license | high; not executed | LatestVariants.PassportAsWrittenRefusesValidInput | LatestVariants.NewPassport |
| app/infrastructure/persistence/mappers/drivers_license_mapper.py:12,21,35 | the key leaves out the country, and the mapper reads and passes `issuing_province`, which the latest license does not have (it holds `issuing_region`) | any well-formed latest license with issuer and holder ids | key `CRED#country#issuer`, attribute `issuing_region`, as the passport mapper and the mapper's test do | high; not executed | PersistenceMappers.DriversLicenseMapperAsWrittenFails | PersistenceMappers.DriversLicenseRoundTrip |
| app/infrastructure/persistence/mappers/drivers_license_mapper.py:12 | licenses from one issuer in two countries share a partition key | issuer "i", countries "ca" and "us" | the country in the key | high; not executed | PersistenceMappers.DriversLicenseKeyAsWrittenCollides | PersistenceMappers.PartitionKeyInjective |
| app/interfaces/rest/dto/drivers_license_assembler.py:23,38 | `to_dto` passes `issuing_country` to a DTO that declares no such field, so it is dropped, and `to_domain` then reads it and raises AttributeError | `to_domain(to_dto(c))` for any license | the DTO declares `issuing_country` | high; not executed | InterfacesAssemblers.DriversLicenseAsWrittenLosesCountry | InterfacesAssemblers.DriversLicenseRoundTrip |
| app/rest/exceptions/handlers.py:55-62 | DatabaseConnectionException derives from DatabaseException, whose entry comes first, so connection failures get 500 and the 503 entry never answers | a raised DatabaseConnectionException | connection failures answered 503 | high; not executed | ExceptionHandlers.No503 | ExceptionHandlers.ConnectionFailureGets503 |
| app/domain/Credential.py:74-77 | `is_valid` compares the naive `datetime.now()` with the aware stored dates, so for an ACTIVE credential it raises TypeError | a new credential with window [epoch, epoch + 1000 s], checked at epoch + 500 s | ACTIVE and inside the window | high; not executed | EarlyCredential.IsValidDiscrepancy | EarlyCredential.Credential.IsValid |
| app/rest/assemblers/drivers_license_assembler.py:32-33 | `to_domain` always raises TypeError: the abstract-class TypeError comes first, in `object.__new__`, and were the class concrete, the `credential_id=` keyword its constructor does not take would raise TypeError too | the DTO `to_dto` writes for any license keyed by a credential id | the license built from the DTO's credential id | medium; not executed | RestAssemblers.DriversLicenseAsWrittenRefusesOwnDto | RestAssemblers.DriversLicenseRoundTrip |

=== FILE: assembler_registry.dfy ===
/**
 * The string-keyed assembler registry. The `register(credential_type)` decorator stores the
 * decorated class under its key in a dictionary shared by the class and every instance, and
 * `get_assembler` instantiates the class registered under a key or answers 400. The two
 * packages that declare this registry declare it identically.
 */
module AssemblerRegistries {
  import opened Wrappers
  import opened Errors

  /** The assembler classes the packages register. Instantiating one gives a stateless assembler. */
  datatype AssemblerClass =
    | RestDriversLicenseAssembler | RestPassportAssembler
    | InterfacesDriversLicenseAssembler
    | LegacyDriversLicenseAssembler | LegacyPassportAssembler

  type Table = map<string, AssemblerClass>

  /** The 400 answer for a key nothing is registered under. */
  function Unsupported(credentialType: string): Error {
    HttpError(400, "Unsupported credential type: " + credentialType)
  }

  /** What `get_assembler` answers for a table: the registered class, or the 400. */
  function Lookup(table: Table, credentialType: string): (r: Result<AssemblerClass, Error>)
    ensures r.Success? <==> credentialType in table
    ensures r.Success? ==> r.value == table[credentialType]
    ensures r.Failure? ==> r.error == Unsupported(credentialType)
  {
    if credentialType in table then Success(table[credentialType]) else Failure(Unsupported(credentialType))
  }

  /** After `register(t)(C)`, `t` yields `C` whatever it yielded before, and every other key is unaffected. */
  lemma LookupAfterRegister(table: Table, credentialType: string, assemblerClass: AssemblerClass, other: string)
    ensures Lookup(table[credentialType := assemblerClass], credentialType) == Success(assemblerClass)
    ensures other != credentialType ==>
              Lookup(table[credentialType := assemblerClass], other) == Lookup(table, other)
  {
  }

  /** A later registration of the same key wins, whatever the earlier one was. */
  lemma LaterRegistrationWins(table: Table, credentialType: string, first: AssemblerClass, second: AssemblerClass)
    ensures table[credentialType := first][credentialType := second] == table[credentialType := second]
  {
  }

  /** The registry; its one table stands for the dictionary every instance shares. */
  class AssemblerRegistry {
    var assemblers: Table

    constructor ()
      ensures assemblers == map[]
    {
      assemblers := map[];
    }

    /** `register(credential_type)` applied to a class: stores it and hands the class back unchanged. */
    method Register(credentialType: string, assemblerClass: AssemblerClass) returns (registered: AssemblerClass)
      modifies this
      ensures assemblers == old(assemblers)[credentialType := assemblerClass]
      ensures registered == assemblerClass
    {
      assemblers := assemblers[credentialType := assemblerClass];
      registered := assemblerClass;
    }

    /** `get_assembler`: a new instance of the registered class, or the 400. */
    method GetAssembler(credentialType: string) returns (r: Result<AssemblerClass, Error>)
      ensures r == Lookup(assemblers, credentialType)
    {
      if credentialType in assemblers {
        r := Success(assemblers[credentialType]);
      } else {
        r := Failure(Unsupported(credentialType));
      }
    }
  }

  /** The table once the driver's-license and passport assembler modules of a package are imported. */
  function Registered(driversLicense: AssemblerClass, passport: AssemblerClass): Table {
    map["drivers_license" := driversLicense, "passport" := passport]
  }

  /** The registrations the `credential_id` package's decorators make at import time. */
  method RegisterRestAssemblers(registry: AssemblerRegistry)
    modifies registry
    ensures registry.assemblers == old(registry.assemblers)["drivers_license" := RestDriversLicenseAssembler]
                                                          ["passport" := RestPassportAssembler]
  {
    var _ := registry.Register("drivers_license", RestDriversLicenseAssembler);
    var _ := registry.Register("passport", RestPassportAssembler);
  }

  /** Both types resolve to their assemblers, and any other type string, whatever the body, is a 400. */
  lemma RegisteredLookups(driversLicense: AssemblerClass, passport: AssemblerClass, credentialType: string)
    ensures Lookup(Registered(driversLicense, passport), "drivers_license") == Success(driversLicense)
    ensures Lookup(Registered(driversLicense, passport), "passport") == Success(passport)
    ensures credentialType != "drivers_license" && credentialType != "passport" ==>
              Lookup(Registered(driversLicense, passport), credentialType) == Failure(Unsupported(credentialType))
  {
  }
}

=== FILE: credential_service.dfy ===
/**
 * The application service over the latest credential classes. Every operation goes to the
 * repository, which finds a credential by id, type and issuing country. The repository is
 * abstract here: a table of the credential objects it hands out and a log of the calls made
 * to it, where a status write records the state of the credential it was given.
 */
module CredentialServices {
  import opened Wrappers
  import opened Enums
  import opened Errors
  import L = Lifecycle
  import LatestCredential

  type Credential = LatestCredential.Credential

  /** The arguments of the repository's `get_credential`, in its order. */
  datatype LookupKey = LookupKey(credentialId: string, credentialType: CredentialType, issuingCountry: string)

  datatype Call =
    | Fetched(key: LookupKey)
    | Created(created: Credential)
    | StatusWritten(written: Credential, state: L.State)

  /** The credentials a lookup may hand out: the one stored under the key, if any. */
  function Stored(credentials: map<LookupKey, Credential>, key: LookupKey): set<Credential> {
    if key in credentials then {credentials[key]} else {}
  }

  class Repository {
    var credentials: map<LookupKey, Credential>
    var calls: seq<Call>

    constructor (credentials: map<LookupKey, Credential>)
      ensures this.credentials == credentials && calls == []
    {
      this.credentials := credentials;
      calls := [];
    }

    /** `get_credential`: the stored credential, or CredentialNotFound. */
    method GetCredential(key: LookupKey) returns (r: Result<Credential, Error>)
      modifies this
      ensures credentials == old(credentials) && calls == old(calls) + [Fetched(key)]
      ensures r.Success? <==> key in credentials
      ensures r.Success? ==> r.value == credentials[key]
      ensures r.Failure? ==> r.error == CredentialNotFound(key.credentialId, key.credentialType.Value())
    {
      calls := calls + [Fetched(key)];
      if key in credentials {
        r := Success(credentials[key]);
      } else {
        r := Failure(CredentialNotFound(key.credentialId, key.credentialType.Value()));
      }
    }

    /** `create_credential`: records the call and hands back what it was given. */
    method CreateCredential(credential: Credential) returns (r: Credential)
      modifies this
      ensures credentials == old(credentials) && calls == old(calls) + [Created(credential)]
      ensures r == credential
    {
      calls := calls + [Created(credential)];
      r := credential;
    }

    /** `update_credential_status`: records the write together with the state it writes. */
    method UpdateCredentialStatus(credential: Credential)
      modifies this
      ensures credentials == old(credentials)
      ensures calls == old(calls) + [StatusWritten(credential, credential.State())]
    {
      calls := calls + [StatusWritten(credential, credential.State())];
    }
  }

  class CredentialService {
    const repository: Repository

    constructor (repository: Repository)
      ensures this.repository == repository
    {
      this.repository := repository;
    }

    /** `get_credential`: the arguments go to the repository unchanged, the country not lower-cased. */
    method GetCredential(credentialId: string, credentialType: CredentialType, issuingCountry: string)
      returns (r: Result<Credential, Error>)
      modifies repository
      ensures var key := LookupKey(credentialId, credentialType, issuingCountry);
              && repository.credentials == old(repository.credentials)
              && repository.calls == old(repository.calls) + [Fetched(key)]
              && (r.Success? <==> key in repository.credentials)
              && (r.Success? ==> r.value == repository.credentials[key])
              && (r.Failure? ==> r.error == CredentialNotFound(credentialId, credentialType.Value()))
    {
      r := repository.GetCredential(LookupKey(credentialId, credentialType, issuingCountry));
    }

    /** `validate_credential`: the fetched credential's status; nothing is written. */
    method ValidateCredential(credentialId: string, credentialType: CredentialType, issuingCountry: string)
      returns (r: Result<CredentialStatus, Error>)
      modifies repository
      ensures var key := LookupKey(credentialId, credentialType, issuingCountry);
              && repository.credentials == old(repository.credentials)
              && repository.calls == old(repository.calls) + [Fetched(key)]
              && (r.Success? <==> key in repository.credentials)
              && (r.Success? ==> r.value == repository.credentials[key].status)
              && (r.Failure? ==> r.error == CredentialNotFound(credentialId, credentialType.Value()))
    {
      var fetched := repository.GetCredential(LookupKey(credentialId, credentialType, issuingCountry));
      match fetched {
        case Success(c) => r := Success(c.status);
        case Failure(e) => r := Failure(e);
      }
    }

    /** `create_credential`: a pass-through to the repository. */
    method CreateCredential(credential: Credential) returns (r: Credential)
      modifies repository
      ensures repository.credentials == old(repository.credentials)
      ensures repository.calls == old(repository.calls) + [Created(credential)]
      ensures r == credential
    {
      r := repository.CreateCredential(credential);
    }

    /**
     * `update_credential(id, country, type, status, reason)`: fetch by (id, type, country),
     * apply `update_status`, then write once with the same object and return it. If the fetch
     * or the transition raises, nothing is written and the credential keeps its state.
     */
    method UpdateCredential(credentialId: string, issuingCountry: string, credentialType: CredentialType,
                            newStatus: CredentialStatus, reason: Option<string>)
      returns (r: Result<Credential, Error>)
      modifies repository, Stored(repository.credentials, LookupKey(credentialId, credentialType, issuingCountry))
      ensures repository.credentials == old(repository.credentials)
      ensures var key := LookupKey(credentialId, credentialType, issuingCountry);
              key !in old(repository.credentials) ==>
                && r == Failure(CredentialNotFound(credentialId, credentialType.Value()))
                && repository.calls == old(repository.calls) + [Fetched(key)]
      ensures var key := LookupKey(credentialId, credentialType, issuingCountry);
              key in old(repository.credentials) ==>
                var c := old(repository.credentials)[key];
                var t := L.UpdateStatus(old(c.State()), newStatus, reason);
                && c.State() == L.After(old(c.State()), t)
                && (t.Failure? ==> && r == Failure(t.error)
                                   && repository.calls == old(repository.calls) + [Fetched(key)])
                && (t.Success? ==> && r == Success(c)
                                   && repository.calls == old(repository.calls) + [Fetched(key), StatusWritten(c, t.value)])
    {
      var key := LookupKey(credentialId, credentialType, issuingCountry);
      var fetched := repository.GetCredential(key);
      if fetched.Failure? {
        return Failure(fetched.error);
      }
      var c := fetched.value;
      var err := c.UpdateStatus(newStatus, reason);
      if err.Some? {
        return Failure(err.value);
      }
      repository.UpdateCredentialStatus(c);
      r := Success(c);
    }
  }
}

=== FILE: datetimes.dfy ===
/**
 * Python `datetime` values reduced to what the credential code observes: an instant and
 * whether a timezone is attached, with `isoformat`/`fromisoformat` as an injective
 * encode/decode pair over text.
 */
module DateTimes {
  import opened Wrappers
  import Text

  /**
   * `ticks` is the UTC instant when `offset` is present (a timezone-aware value) and the
   * wall-clock reading otherwise (a naive value); `offset` is the UTC offset in minutes.
   */
  datatype DateTime = DateTime(ticks: int, offset: Option<int>) {
    predicate IsAware() {
      offset.Some?
    }

    predicate IsUtc() {
      offset == Some(0)
    }
  }

  /** `astimezone(timezone.utc)` on an aware value: the same instant, shown at offset zero. */
  function AsUtc(d: DateTime): (r: DateTime)
    requires d.IsAware()
    ensures r.IsUtc() && r.ticks == d.ticks
  {
    DateTime(d.ticks, Some(0))
  }

  /** The text `isoformat` produces: the instant, then the offset when there is one. */
  function IsoFormat(d: DateTime): string {
    match d.offset
    case None => Text.IntToText(d.ticks)
    case Some(o) => Text.IntToText(d.ticks) + "@" + Text.IntToText(o)
  }

  /** The first position of `c` in `s`. */
  function IndexOf(s: string, c: char): (r: Option<nat>)
    ensures r.Some? ==> r.value < |s| && s[r.value] == c && c !in s[..r.value]
    ensures r.None? ==> c !in s
  {
    if s == [] then None
    else if s[0] == c then Some(0)
    else match IndexOf(s[1..], c)
      case None => None
      case Some(k) =>
        assert s[..k + 1] == [s[0]] + s[1..][..k];
        Some(k + 1)
  }

  /** `datetime.fromisoformat`: `None` stands for the ValueError it raises on malformed text. */
  function FromIsoFormat(s: string): Option<DateTime> {
    match IndexOf(s, '@')
    case None =>
      (match Text.ParseInt(s)
       case None => None
       case Some(t) => Some(DateTime(t, None)))
    case Some(k) =>
      (match (Text.ParseInt(s[..k]), Text.ParseInt(s[k + 1..]))
       case (Some(t), Some(o)) => Some(DateTime(t, Some(o)))
       case _ => None)
  }

  /** Parsing what `isoformat` wrote gives back the same value, naive or aware. */
  lemma FromIsoFormatRoundTrip(d: DateTime)
    ensures FromIsoFormat(IsoFormat(d)) == Some(d)
  {
    var instant := Text.IntToText(d.ticks);
    Text.ParseIntToText(d.ticks);
    assert '@' !in instant;
    match d.offset
    case None =>
    case Some(o) =>
      var zone := Text.IntToText(o);
      Text.ParseIntToText(o);
      var s := instant + "@" + zone;
      assert s[|instant|] == '@' && s[..|instant|] == instant;
      var k := IndexOf(s, '@');
      assert k == Some(|instant|);
      assert s[|instant| + 1..] == zone;
  }

  /** Distinct values have distinct texts. */
  lemma IsoFormatInjective(a: DateTime, b: DateTime)
    requires IsoFormat(a) == IsoFormat(b)
    ensures a == b
  {
    FromIsoFormatRoundTrip(a);
    FromIsoFormatRoundTrip(b);
  }
}

=== FILE: dtos.dfy ===
/**
 * The credential DTO classes of the three REST packages, each with the validation its
 * constructor applies to a request body (fields in declaration order; the first one that fails
 * is reported) and the body `model_dump` writes back.
 */
module Dtos {
  import opened Wrappers
  import opened Errors
  import opened Wire

  const DriversLicenseModel := "DriversLicenseDTO"
  const PassportModel := "PassportDTO"

  /**
   * The driver's-license DTO of the `credential_id` revision: an id, the dates as text, the
   * issuing country, the status fields, the vehicle classes and the issuing region.
   */
  datatype RestDriversLicenseDto = RestDriversLicenseDto(
    credentialId: string, validFrom: string, validUntil: string, issuingCountry: string,
    state: StatusFields, vehicleClasses: seq<string>, issuingRegion: string)

  /** The fields without a default. */
  const RestDriversLicenseRequired := {CredentialIdField, ValidFromField, ValidUntilField, IssuingCountryField, VehicleClassesField, IssuingRegionField}

  function ParseRestDriversLicense(p: Payload): (r: Result<RestDriversLicenseDto, Error>)
    ensures r.Failure? ==> r.error.ValueError?
    ensures r.Success? ==> RestDriversLicenseRequired <= p.Keys
  {
    var id :- Str(DriversLicenseModel, p, CredentialIdField);
    var from :- Str(DriversLicenseModel, p, ValidFromField);
    var until :- Str(DriversLicenseModel, p, ValidUntilField);
    var country :- Str(DriversLicenseModel, p, IssuingCountryField);
    var state :- ParseStatusFields(DriversLicenseModel, p);
    var classes :- StrList(DriversLicenseModel, p, VehicleClassesField);
    var region :- Str(DriversLicenseModel, p, IssuingRegionField);
    Success(RestDriversLicenseDto(id, from, until, country, state, classes, region))
  }

  function DumpRestDriversLicense(d: RestDriversLicenseDto): Payload {
    map[CredentialIdField := JStr(d.credentialId),
        ValidFromField := JStr(d.validFrom),
        ValidUntilField := JStr(d.validUntil),
        IssuingCountryField := JStr(d.issuingCountry),
        StatusField := OptJson(d.state.status),
        SuspensionReasonField := OptJson(d.state.suspensionReason),
        RevocationReasonField := OptJson(d.state.revocationReason),
        VehicleClassesField := JStrList(d.vehicleClasses),
        IssuingRegionField := JStr(d.issuingRegion)]
  }

  lemma ParseDumpRestDriversLicense(d: RestDriversLicenseDto)
    ensures ParseRestDriversLicense(DumpRestDriversLicense(d)) == Success(d)
  {
    var p := DumpRestDriversLicense(d);
    ParseDumpedStatusFields(DriversLicenseModel, p, d.state);
  }

  /**
   * The driver's-license DTO of the `issuer_id`/`holder_id` revision. It declares an issuing
   * region but no issuing country.
   */
  datatype RegionDriversLicenseDto = RegionDriversLicenseDto(
    issuerId: string, holderId: string, validFrom: string, validUntil: string,
    state: StatusFields, vehicleClasses: seq<string>, issuingRegion: string)

  /** The fields without a default. */
  const RegionDriversLicenseRequired := {IssuerIdField, HolderIdField, ValidFromField, ValidUntilField, VehicleClassesField, IssuingRegionField}

  function ParseRegionDriversLicense(p: Payload): (r: Result<RegionDriversLicenseDto, Error>)
    ensures r.Failure? ==> r.error.ValueError?
    ensures r.Success? ==> RegionDriversLicenseRequired <= p.Keys
  {
    var issuer :- Str(DriversLicenseModel, p, IssuerIdField);
    var holder :- Str(DriversLicenseModel, p, HolderIdField);
    var from :- Str(DriversLicenseModel, p, ValidFromField);
    var until :- Str(DriversLicenseModel, p, ValidUntilField);
    var state :- ParseStatusFields(DriversLicenseModel, p);
    var classes :- StrList(DriversLicenseModel, p, VehicleClassesField);
    var region :- Str(DriversLicenseModel, p, IssuingRegionField);
    Success(RegionDriversLicenseDto(issuer, holder, from, until, state, classes, region))
  }

  function DumpRegionDriversLicense(d: RegionDriversLicenseDto): Payload {
    map[IssuerIdField := JStr(d.issuerId),
        HolderIdField := JStr(d.holderId),
        ValidFromField := JStr(d.validFrom),
        ValidUntilField := JStr(d.validUntil),
        StatusField := OptJson(d.state.status),
        SuspensionReasonField := OptJson(d.state.suspensionReason),
        RevocationReasonField := OptJson(d.state.revocationReason),
        VehicleClassesField := JStrList(d.vehicleClasses),
        IssuingRegionField := JStr(d.issuingRegion)]
  }

  lemma ParseDumpRegionDriversLicense(d: RegionDriversLicenseDto)
    ensures ParseRegionDriversLicense(DumpRegionDriversLicense(d)) == Success(d)
  {
    var p := DumpRegionDriversLicense(d);
    ParseDumpedStatusFields(DriversLicenseModel, p, d.state);
  }

  /** The same DTO with the issuing country its assembler reads and writes declared as well. */
  datatype CountryDriversLicenseDto = CountryDriversLicenseDto(
    issuerId: string, holderId: string, validFrom: string, validUntil: string, issuingCountry: string,
    state: StatusFields, vehicleClasses: seq<string>, issuingRegion: string)

  /** The fields without a default. */
  const CountryDriversLicenseRequired := {IssuerIdField, HolderIdField, ValidFromField, ValidUntilField, IssuingCountryField, VehicleClassesField, IssuingRegionField}

  function ParseCountryDriversLicense(p: Payload): (r: Result<CountryDriversLicenseDto, Error>)
    ensures r.Failure? ==> r.error.ValueError?
    ensures r.Success? ==> CountryDriversLicenseRequired <= p.Keys
  {
    var issuer :- Str(DriversLicenseModel, p, IssuerIdField);
    var holder :- Str(DriversLicenseModel, p, HolderIdField);
    var from :- Str(DriversLicenseModel, p, ValidFromField);
    var until :- Str(DriversLicenseModel, p, ValidUntilField);
    var country :- Str(DriversLicenseModel, p, IssuingCountryField);
    var state :- ParseStatusFields(DriversLicenseModel, p);
    var classes :- StrList(DriversLicenseModel, p, VehicleClassesField);
    var region :- Str(DriversLicenseModel, p, IssuingRegionField);
    Success(CountryDriversLicenseDto(issuer, holder, from, until, country, state, classes, region))
  }

  function DumpCountryDriversLicense(d: CountryDriversLicenseDto): Payload {
    map[IssuerIdField := JStr(d.issuerId),
        HolderIdField := JStr(d.holderId),
        ValidFromField := JStr(d.validFrom),
        ValidUntilField := JStr(d.validUntil),
        IssuingCountryField := JStr(d.issuingCountry),
        StatusField := OptJson(d.state.status),
        SuspensionReasonField := OptJson(d.state.suspensionReason),
        RevocationReasonField := OptJson(d.state.revocationReason),
        VehicleClassesField := JStrList(d.vehicleClasses),
        IssuingRegionField := JStr(d.issuingRegion)]
  }

  lemma ParseDumpCountryDriversLicense(d: CountryDriversLicenseDto)
    ensures ParseCountryDriversLicense(DumpCountryDriversLicense(d)) == Success(d)
  {
    var p := DumpCountryDriversLicense(d);
    ParseDumpedStatusFields(DriversLicenseModel, p, d.state);
  }

  /** The driver's-license DTO of the oldest package, with an issuing province. */
  datatype ProvinceDriversLicenseDto = ProvinceDriversLicenseDto(
    issuerId: string, holderId: string, validFrom: string, validUntil: string,
    state: StatusFields, vehicleClasses: seq<string>, issuingProvince: string)

  /** The fields without a default. */
  const ProvinceDriversLicenseRequired := {IssuerIdField, HolderIdField, ValidFromField, ValidUntilField, VehicleClassesField, IssuingProvinceField}

  function ParseProvinceDriversLicense(p: Payload): (r: Result<ProvinceDriversLicenseDto, Error>)
    ensures r.Failure? ==> r.error.ValueError?
    ensures r.Success? ==> ProvinceDriversLicenseRequired <= p.Keys
  {
    var issuer :- Str(DriversLicenseModel, p, IssuerIdField);
    var holder :- Str(DriversLicenseModel, p, HolderIdField);
    var from :- Str(DriversLicenseModel, p, ValidFromField);
    var until :- Str(DriversLicenseModel, p, ValidUntilField);
    var state :- ParseStatusFields(DriversLicenseModel, p);
    var classes :- StrList(DriversLicenseModel, p, VehicleClassesField);
    var province :- Str(DriversLicenseModel, p, IssuingProvinceField);
    Success(ProvinceDriversLicenseDto(issuer, holder, from, until, state, classes, province))
  }

  function DumpProvinceDriversLicense(d: ProvinceDriversLicenseDto): Payload {
    map[IssuerIdField := JStr(d.issuerId),
        HolderIdField := JStr(d.holderId),
        ValidFromField := JStr(d.validFrom),
        ValidUntilField := JStr(d.validUntil),
        StatusField := OptJson(d.state.status),
        SuspensionReasonField := OptJson(d.state.suspensionReason),
        RevocationReasonField := OptJson(d.state.revocationReason),
        VehicleClassesField := JStrList(d.vehicleClasses),
        IssuingProvinceField := JStr(d.issuingProvince)]
  }

  lemma ParseDumpProvinceDriversLicense(d: ProvinceDriversLicenseDto)
    ensures ParseProvinceDriversLicense(DumpProvinceDriversLicense(d)) == Success(d)
  {
    var p := DumpProvinceDriversLicense(d);
    ParseDumpedStatusFields(DriversLicenseModel, p, d.state);
  }

  /**
   * The passport DTO both packages' passport assemblers build: issuer and holder ids, the dates
   * as text, the status fields, the nationality and the issuing country.
   */
  datatype PassportDto = PassportDto(
    issuerId: string, holderId: string, validFrom: string, validUntil: string,
    state: StatusFields, nationality: string, issuingCountry: string)

  /** The fields without a default. */
  const PassportRequired := {IssuerIdField, HolderIdField, ValidFromField, ValidUntilField, NationalityField, IssuingCountryField}

  function ParsePassport(p: Payload): (r: Result<PassportDto, Error>)
    ensures r.Failure? ==> r.error.ValueError?
    ensures r.Success? ==> PassportRequired <= p.Keys
  {
    var issuer :- Str(PassportModel, p, IssuerIdField);
    var holder :- Str(PassportModel, p, HolderIdField);
    var from :- Str(PassportModel, p, ValidFromField);
    var until :- Str(PassportModel, p, ValidUntilField);
    var state :- ParseStatusFields(PassportModel, p);
    var nationality :- Str(PassportModel, p, NationalityField);
    var country :- Str(PassportModel, p, IssuingCountryField);
    Success(PassportDto(issuer, holder, from, until, state, nationality, country))
  }

  function DumpPassport(d: PassportDto): Payload {
    map[IssuerIdField := JStr(d.issuerId),
        HolderIdField := JStr(d.holderId),
        ValidFromField := JStr(d.validFrom),
        ValidUntilField := JStr(d.validUntil),
        StatusField := OptJson(d.state.status),
        SuspensionReasonField := OptJson(d.state.suspensionReason),
        RevocationReasonField := OptJson(d.state.revocationReason),
        NationalityField := JStr(d.nationality),
        IssuingCountryField := JStr(d.issuingCountry)]
  }

  lemma ParseDumpPassport(d: PassportDto)
    ensures ParsePassport(DumpPassport(d)) == Success(d)
  {
    var p := DumpPassport(d);
    ParseDumpedStatusFields(PassportModel, p, d.state);
  }
}

=== FILE: early_credential.dfy ===
/**
 * The earliest credential base class and its two subclasses. Construction checks only that
 * both dates carry a timezone; the transitions overwrite the status and one reason with no
 * guard at all; each subclass names the kind of entity allowed to issue it.
 */
module EarlyCredential {
  import opened Wrappers
  import opened Enums
  import opened Errors
  import opened DateTimes
  import L = Lifecycle

  /** The fields a subclass adds: a province for a license, a verbatim country for a passport. */
  datatype Details =
    | DriversLicenseDetails(vehicleClasses: seq<string>, issuingProvince: string)
    | PassportDetails(nationality: string, issuingCountry: string)
  {
    function CredentialType(): (r: CredentialType)
      ensures r == DriversLicenseType <==> DriversLicenseDetails?
    {
      if DriversLicenseDetails? then DriversLicenseType else PassportType
    }

    /** `authorized_issuers`: a license comes from a province, a passport from the federal level. */
    function AuthorizedIssuers(): (r: seq<EntityType>)
      ensures |r| == 1
      ensures Provincial in r <==> DriversLicenseDetails?
      ensures Federal in r <==> PassportDetails?
    {
      if DriversLicenseDetails? then [Provincial] else [Federal]
    }
  }

  datatype Snapshot = Snapshot(
    issuerId: string,
    holderId: string,
    validFrom: DateTime,
    validUntil: DateTime,
    details: Details,
    state: L.State)

  /** The only checks `__init__` makes: both dates carry a timezone. Their order is not checked. */
  function ConstructionError(validFrom: DateTime, validUntil: DateTime): (r: Option<Error>)
    ensures r.None? <==> validFrom.IsAware() && validUntil.IsAware()
    ensures !validFrom.IsAware() ==> r == Some(ValueError("valid_from must be timezone-aware"))
    ensures validFrom.IsAware() && !validUntil.IsAware() ==> r == Some(ValueError("valid_until must be timezone-aware"))
  {
    if !validFrom.IsAware() then Some(ValueError("valid_from must be timezone-aware"))
    else if !validUntil.IsAware() then Some(ValueError("valid_until must be timezone-aware"))
    else None
  }

  /** The object a subclass constructor builds, or the exception the base raises. */
  function Construct(issuerId: string, holderId: string, validFrom: DateTime, validUntil: DateTime, details: Details)
    : (r: Result<Snapshot, Error>)
    ensures r.Success? <==> ConstructionError(validFrom, validUntil).None?
    ensures r.Failure? ==> Some(r.error) == ConstructionError(validFrom, validUntil)
    ensures r.Success? ==> && r.value.issuerId == issuerId && r.value.holderId == holderId
                           && r.value.details == details
                           && r.value.validFrom.IsUtc() && r.value.validUntil.IsUtc()
                           && r.value.validFrom.ticks == validFrom.ticks
                           && r.value.validUntil.ticks == validUntil.ticks
                           && r.value.state == L.Initial
  {
    match ConstructionError(validFrom, validUntil)
    case Some(e) => Failure(e)
    case None => Success(Snapshot(issuerId, holderId, AsUtc(validFrom), AsUtc(validUntil), details, L.Initial))
  }

  /** A window that ends before it starts is accepted, unlike in the later revisions. */
  lemma ReversedWindowAccepted(issuerId: string, holderId: string, from: int, until: int, details: Details)
    requires until < from
    ensures Construct(issuerId, holderId, DateTime(from, Some(0)), DateTime(until, Some(0)), details).Success?
    ensures L.WindowError(DateTime(from, Some(0)), DateTime(until, Some(0))).Some?
  {
  }

  /** `suspend`: whatever the state and whatever the reason. */
  function AfterSuspend(s: L.State, reason: Option<string>): (r: L.State)
    ensures r.status == Suspended && r.suspensionReason == reason && r.revocationReason == s.revocationReason
  {
    s.(status := Suspended, suspensionReason := reason)
  }

  /** `reinstate`: clears only the suspension reason. */
  function AfterReinstate(s: L.State): (r: L.State)
    ensures r.status == Active && r.suspensionReason.None? && r.revocationReason == s.revocationReason
  {
    s.(status := Active, suspensionReason := None)
  }

  /** `revoke`: leaves the suspension reason as it was. */
  function AfterRevoke(s: L.State, reason: Option<string>): (r: L.State)
    ensures r.status == Revoked && r.revocationReason == reason && r.suspensionReason == s.suspensionReason
  {
    s.(status := Revoked, revocationReason := reason)
  }

  /**
   * Without guards a revoked credential comes back to ACTIVE still carrying its revocation
   * reason, a state the guarded revisions can never reach, and one they refuse to leave.
   */
  lemma RevokedCanBeReinstated(reason: string)
    requires reason != ""
    ensures var s := AfterReinstate(AfterRevoke(L.Initial, Some(reason)));
            && s == L.State(Active, None, Some(reason))
            && !L.Consistent(s)
            && L.Reinstate(AfterRevoke(L.Initial, Some(reason))).Failure?
  {
  }

  /** An empty reason is accepted too, giving a suspended credential with no reason. */
  lemma EmptySuspensionAccepted(s: L.State)
    ensures AfterSuspend(s, None).status == Suspended && !L.Consistent(AfterSuspend(s, None))
    ensures L.Suspend(s, None).Failure?
  {
  }

  /** The comparison of the naive clock with an aware date fails in Python. */
  const NaiveAwareComparison := TypeError("can't compare offset-naive and offset-aware datetimes")

  class Credential {
    const issuerId: string
    const holderId: string
    const validFrom: DateTime
    const validUntil: DateTime
    const details: Details
    var status: CredentialStatus
    var suspensionReason: Option<string>
    var revocationReason: Option<string>

    function State(): L.State
      reads this
    {
      L.State(status, suspensionReason, revocationReason)
    }

    function Snap(): Snapshot
      reads this
    {
      Snapshot(issuerId, holderId, validFrom, validUntil, details, State())
    }

    constructor (issuerId: string, holderId: string, validFrom: DateTime, validUntil: DateTime, details: Details)
      requires ConstructionError(validFrom, validUntil).None?
      ensures Snap() == Construct(issuerId, holderId, validFrom, validUntil, details).value
      ensures AwareDates()
    {
      this.issuerId := issuerId;
      this.holderId := holderId;
      this.validFrom := AsUtc(validFrom);
      this.validUntil := AsUtc(validUntil);
      this.details := details;
      status := Active;
      suspensionReason := None;
      revocationReason := None;
    }

    method Suspend(reason: Option<string>)
      modifies this
      ensures State() == AfterSuspend(old(State()), reason)
    {
      status := Suspended;
      suspensionReason := reason;
    }

    method Reinstate()
      modifies this
      ensures State() == AfterReinstate(old(State()))
    {
      status := Active;
      suspensionReason := None;
    }

    method Revoke(reason: Option<string>)
      modifies this
      ensures State() == AfterRevoke(old(State()), reason)
    {
      status := Revoked;
      revocationReason := reason;
    }

    /**
     * `is_valid` as written: the status test short-circuits a non-ACTIVE credential to false;
     * an ACTIVE one goes on to compare the naive `datetime.now()` with the aware stored dates,
     * which raises TypeError. So it never answers true.
     */
    function IsValidAsWritten(now: int): (r: Result<bool, Error>)
      reads this
      requires AwareDates()
      ensures r.Failure? <==> status == Active
      ensures r.Success? ==> !r.value
    {
      if status != Active then Success(false) else Failure(NaiveAwareComparison)
    }

    /** `is_valid` as intended: ACTIVE and `now` inside the window, both ends included. */
    function IsValid(now: int): (r: bool)
      reads this
      ensures r <==> status == Active && validFrom.ticks <= now <= validUntil.ticks
    {
      status == Active && now >= validFrom.ticks && now <= validUntil.ticks
    }

    /** Every object the constructor returns has aware dates, and the class never replaces them. */
    predicate AwareDates()
      reads this
    {
      validFrom.IsAware() && validUntil.IsAware()
    }
  }

  /**
   * On a new credential, inside its window, the written `is_valid` raises where the intended
   * one answers true.
   */
  method IsValidDiscrepancy(issuerId: string, holderId: string, details: Details)
    returns (written: Result<bool, Error>, intended: bool)
    ensures written == Failure(NaiveAwareComparison) && intended
  {
    var c := new Credential(issuerId, holderId, DateTime(0, Some(0)), DateTime(1000, Some(0)), details);
    written := c.IsValidAsWritten(500);
    intended := c.IsValid(500);
  }

  /** `DriversLicense(...)`: the base checks, then the license's own fields stored verbatim. */
  method CreateDriversLicense(issuerId: string, holderId: string, validFrom: DateTime, validUntil: DateTime,
                              vehicleClasses: seq<string>, issuingProvince: string)
    returns (r: Result<Credential, Error>)
    ensures var spec := Construct(issuerId, holderId, validFrom, validUntil, DriversLicenseDetails(vehicleClasses, issuingProvince));
            && (r.Success? <==> spec.Success?)
            && (r.Failure? ==> r.error == spec.error)
            && (r.Success? ==> fresh(r.value) && r.value.Snap() == spec.value)
  {
    r := Create(issuerId, holderId, validFrom, validUntil, DriversLicenseDetails(vehicleClasses, issuingProvince));
  }

  /** `Passport(...)`: the base checks, then nationality and issuing country stored verbatim. */
  method CreatePassport(issuerId: string, holderId: string, validFrom: DateTime, validUntil: DateTime,
                        nationality: string, issuingCountry: string)
    returns (r: Result<Credential, Error>)
    ensures var spec := Construct(issuerId, holderId, validFrom, validUntil, PassportDetails(nationality, issuingCountry));
            && (r.Success? <==> spec.Success?)
            && (r.Failure? ==> r.error == spec.error)
            && (r.Success? ==> fresh(r.value) && r.value.Snap() == spec.value)
  {
    r := Create(issuerId, holderId, validFrom, validUntil, PassportDetails(nationality, issuingCountry));
  }

  method Create(issuerId: string, holderId: string, validFrom: DateTime, validUntil: DateTime, details: Details)
    returns (r: Result<Credential, Error>)
    ensures var spec := Construct(issuerId, holderId, validFrom, validUntil, details);
            && (r.Success? <==> spec.Success?)
            && (r.Failure? ==> r.error == spec.error)
            && (r.Success? ==> fresh(r.value) && r.value.Snap() == spec.value)
  {
    match ConstructionError(validFrom, validUntil) {
      case Some(e) =>
        r := Failure(e);
      case None =>
        var c := new Credential(issuerId, holderId, validFrom, validUntil, details);
        r := Success(c);
    }
  }
}

=== FILE: enums.dfy ===
/** The enumerations of the credential domain and their string values. */
module Enums {
  import opened Wrappers

  datatype CredentialStatus = Active | Suspended | Revoked {
    function Value(): string {
      match this
      case Active => "active"
      case Suspended => "suspended"
      case Revoked => "revoked"
    }
  }

  /** `CredentialStatus(value)`: the member whose value is `s`; `None` stands for the ValueError. */
  function ParseStatus(s: string): (r: Option<CredentialStatus>)
    ensures r.Some? <==> s == "active" || s == "suspended" || s == "revoked"
    ensures r.Some? ==> r.value.Value() == s
  {
    if s == "active" then Some(Active)
    else if s == "suspended" then Some(Suspended)
    else if s == "revoked" then Some(Revoked)
    else None
  }

  lemma ParseStatusValue(st: CredentialStatus)
    ensures ParseStatus(st.Value()) == Some(st)
  {
  }

  datatype CredentialType = DriversLicenseType | PassportType {
    function Value(): string {
      match this
      case DriversLicenseType => "drivers_license"
      case PassportType => "passport"
    }
  }

  /** `CredentialType(value)`; `None` stands for the ValueError. */
  function ParseCredentialType(s: string): (r: Option<CredentialType>)
    ensures r.Some? <==> s == "drivers_license" || s == "passport"
    ensures r.Some? ==> r.value.Value() == s
  {
    if s == "drivers_license" then Some(DriversLicenseType)
    else if s == "passport" then Some(PassportType)
    else None
  }

  /** The issuer categories of the earliest revision's authorisation policy. */
  datatype EntityType = Provincial | Federal
}

=== FILE: errors.dfy ===
/**
 * The exceptions the credential code raises, each with the text `str(e)` gives. The text of an
 * AttributeError is abridged: Python's starts with the object's class name
 * ("'Passport' object has no attribute 'issuer_id'"), which the error here does not carry.
 */
module Errors {
  import opened Wrappers
  import DateTimes

  datatype Error =
    | ValueError(message: string)
    | TypeError(message: string)
    | KeyError(key: string)
    | AttributeError(name: string)
    | InvalidCredentialState(message: string)
    | Expired(expiry: DateTimes.DateTime)
    | CredentialNotFound(credentialId: string, credentialType: string)
    | InvalidCredentialData(field: string, detail: string)
    | HttpError(statusCode: int, detail: string)
  {
    /** `str(e)`; a datetime prints as its `isoformat` text here, and an AttributeError leaves out the class name. */
    function Message(): string {
      match this
      case ValueError(m) => m
      case TypeError(m) => m
      case KeyError(k) => "'" + k + "'"
      case AttributeError(n) => "object has no attribute '" + n + "'"
      case InvalidCredentialState(m) => m
      case Expired(d) => "Credential has expired on " + DateTimes.IsoFormat(d) + "."
      case CredentialNotFound(id, t) => "Credential with id '" + id + "' of type '" + t + "' not found."
      case InvalidCredentialData(f, d) => "Invalid credential data for field '" + f + "': " + d
      case HttpError(_, d) => d
    }
  }

  /** `datetime.fromisoformat(text)`: the date, or the ValueError raised for text that is not one. */
  function ParseIsoDate(text: string): (r: Result<DateTimes.DateTime, Error>)
    ensures r.Success? <==> DateTimes.FromIsoFormat(text).Some?
    ensures r.Success? ==> DateTimes.FromIsoFormat(text) == Some(r.value)
    ensures r.Failure? ==> r.error == ValueError("Invalid isoformat string: '" + text + "'")
  {
    match DateTimes.FromIsoFormat(text)
    case None => Failure(ValueError("Invalid isoformat string: '" + text + "'"))
    case Some(d) => Success(d)
  }

  /** The text `isoformat` writes parses back to the same date. */
  lemma ParseIsoFormat(d: DateTimes.DateTime)
    ensures ParseIsoDate(DateTimes.IsoFormat(d)) == Success(d)
  {
    DateTimes.FromIsoFormatRoundTrip(d);
  }
}

=== FILE: exception_handlers.dfy ===
/**
 * The registry that turns an exception into an HTTP answer: an insertion-ordered table from
 * exception class to handler, searched front to back with `isinstance`, so the first entry
 * whose class the exception belongs to decides, and an exception no entry covers gets a 500.
 */
module ExceptionHandlers {
  import opened Wrappers

  /** The exception classes the table names, their bases, and classes a caller defines later. */
  datatype ExceptionClass =
    | AnyException
    | DomainException | ApplicationException | ApiException | DatabaseException
    | CredentialNotFoundException | InvalidCredentialStateException
    | UnauthorizedIssuerException | ExpiredCredentialException
    | CredentialValidationException
    | AssemblerException | InvalidCredentialDataException
    | DatabaseConnectionException | DatabaseOperationException
    | Custom(name: string, base: ExceptionClass)
  {
    /** The class it derives from; `AnyException` stands for Python's `Exception`. */
    function Base(): Option<ExceptionClass> {
      match this
      case AnyException => None
      case DomainException => Some(AnyException)
      case ApplicationException => Some(AnyException)
      case ApiException => Some(AnyException)
      case DatabaseException => Some(AnyException)
      case CredentialNotFoundException => Some(DomainException)
      case InvalidCredentialStateException => Some(DomainException)
      case UnauthorizedIssuerException => Some(DomainException)
      case ExpiredCredentialException => Some(DomainException)
      case CredentialValidationException => Some(ApplicationException)
      case AssemblerException => Some(ApiException)
      case InvalidCredentialDataException => Some(AssemblerException)
      case DatabaseConnectionException => Some(DatabaseException)
      case DatabaseOperationException => Some(DatabaseException)
      case Custom(_, b) => Some(b)
    }

    /** The number of bases above the class. */
    function Depth(): nat {
      match this
      case AnyException => 0
      case DomainException => 1
      case ApplicationException => 1
      case ApiException => 1
      case DatabaseException => 1
      case CredentialNotFoundException => 2
      case InvalidCredentialStateException => 2
      case UnauthorizedIssuerException => 2
      case ExpiredCredentialException => 2
      case CredentialValidationException => 2
      case AssemblerException => 2
      case InvalidCredentialDataException => 3
      case DatabaseConnectionException => 2
      case DatabaseOperationException => 2
      case Custom(_, b) => b.Depth() + 1
    }
  }

  /** `issubclass(c, d)`: `d` is `c` or one of its bases, however far up. */
  predicate IsSubclass(c: ExceptionClass, d: ExceptionClass)
    decreases c.Depth()
  {
    c == d || (c.Base().Some? && IsSubclass(c.Base().value, d))
  }

  lemma {:induction false} SubclassTransitive(a: ExceptionClass, b: ExceptionClass, c: ExceptionClass)
    requires IsSubclass(a, b) && IsSubclass(b, c)
    ensures IsSubclass(a, c)
    decreases a.Depth()
  {
    if a != b {
      SubclassTransitive(a.Base().value, b, c);
    }
  }

  /** A raised exception: its class and `str(e)`. */
  datatype Raised = Raised(cls: ExceptionClass, message: string)

  /** The `APIException` a handler builds: a status code and a detail. */
  datatype ApiResponse = ApiResponse(statusCode: int, detail: string)

  /** A handler of the table's shape: a fixed status code, with `str(e)` as the detail. */
  datatype Handler = Handler(statusCode: int) {
    function Apply(e: Raised): ApiResponse {
      ApiResponse(statusCode, e.message)
    }
  }

  datatype Entry = Entry(cls: ExceptionClass, handler: Handler)

  /** The answer when no entry covers the exception. */
  const InternalError := ApiResponse(500, "Internal server error")

  /** A dictionary holds each class once. */
  predicate Distinct(table: seq<Entry>) {
    forall i, j :: 0 <= i < j < |table| ==> table[i].cls != table[j].cls
  }

  /** The table as the class declares it, in declaration order. */
  const DefaultTable: seq<Entry> := [
    Entry(CredentialNotFoundException, Handler(404)),
    Entry(InvalidCredentialStateException, Handler(400)),
    Entry(UnauthorizedIssuerException, Handler(403)),
    Entry(ExpiredCredentialException, Handler(400)),
    Entry(CredentialValidationException, Handler(400)),
    Entry(AssemblerException, Handler(400)),
    Entry(InvalidCredentialDataException, Handler(400)),
    Entry(DatabaseException, Handler(500)),
    Entry(DatabaseConnectionException, Handler(503)),
    Entry(DatabaseOperationException, Handler(500))
  ]

  /** The position of the first entry whose class the exception is an instance of. */
  function FirstMatch(table: seq<Entry>, e: Raised): (r: Option<nat>)
    ensures r.Some? ==> && r.value < |table| && IsSubclass(e.cls, table[r.value].cls)
                        && forall j :: 0 <= j < r.value ==> !IsSubclass(e.cls, table[j].cls)
    ensures r.None? ==> forall j :: 0 <= j < |table| ==> !IsSubclass(e.cls, table[j].cls)
  {
    if table == [] then None
    else if IsSubclass(e.cls, table[0].cls) then Some(0)
    else match FirstMatch(table[1..], e)
      case None => None
      case Some(k) => Some(k + 1)
  }

  /** `get_handler` on a table: the first covering entry's answer, or the 500. */
  function Respond(table: seq<Entry>, e: Raised): ApiResponse {
    match FirstMatch(table, e)
    case None => InternalError
    case Some(i) => table[i].handler.Apply(e)
  }

  /** An entry that covers the exception and follows no covering entry is the one that answers. */
  lemma RespondAt(table: seq<Entry>, e: Raised, i: nat)
    requires i < |table| && IsSubclass(e.cls, table[i].cls)
    requires forall j :: 0 <= j < i ==> !IsSubclass(e.cls, table[j].cls)
    ensures FirstMatch(table, e) == Some(i)
    ensures Respond(table, e) == table[i].handler.Apply(e)
  {
  }

  /** The position of a class's entry, if it has one. */
  function IndexOf(table: seq<Entry>, cls: ExceptionClass): (r: Option<nat>)
    ensures r.Some? ==> r.value < |table| && table[r.value].cls == cls
    ensures r.None? ==> forall j :: 0 <= j < |table| ==> table[j].cls != cls
  {
    if table == [] then None
    else if table[0].cls == cls then Some(0)
    else match IndexOf(table[1..], cls)
      case None => None
      case Some(k) => Some(k + 1)
  }

  /**
   * `_handlers[cls] = handler`: a class already in the table gets the new handler at its own
   * position; a new class goes to the end.
   */
  function Put(table: seq<Entry>, cls: ExceptionClass, handler: Handler): (r: seq<Entry>)
    requires Distinct(table)
    ensures Distinct(r)
    ensures forall j :: 0 <= j < |table| && table[j].cls == cls ==> r == table[j := Entry(cls, handler)]
    ensures (forall j :: 0 <= j < |table| ==> table[j].cls != cls) ==> r == table + [Entry(cls, handler)]
  {
    match IndexOf(table, cls)
    case Some(i) => table[i := Entry(cls, handler)]
    case None => table + [Entry(cls, handler)]
  }

  /**
   * A class appended below an entry for one of its bases never answers: every exception of
   * the new class is still answered as before.
   */
  lemma AppendedSubclassShadowed(table: seq<Entry>, cls: ExceptionClass, handler: Handler, e: Raised, k: nat)
    requires Distinct(table)
    requires forall j :: 0 <= j < |table| ==> table[j].cls != cls
    requires k < |table| && IsSubclass(cls, table[k].cls)
    requires IsSubclass(e.cls, cls)
    ensures Respond(Put(table, cls, handler), e) == Respond(table, e)
  {
    SubclassTransitive(e.cls, cls, table[k].cls);
    var i := FirstMatch(table, e).value;
    var t := Put(table, cls, handler);
    assert t == table + [Entry(cls, handler)];
    RespondAt(t, e, i);
  }

  class ExceptionHandlerRegistry {
    /** The class-level table; this one object stands for the class. */
    var handlers: seq<Entry>

    predicate Valid()
      reads this
    {
      Distinct(handlers)
    }

    constructor ()
      ensures handlers == DefaultTable && Valid()
    {
      handlers := DefaultTable;
    }

    /** `register`: overwrite the class's handler in place, or append a new entry. */
    method Register(cls: ExceptionClass, handler: Handler)
      requires Valid()
      modifies this
      ensures Valid()
      ensures handlers == Put(old(handlers), cls, handler)
    {
      match IndexOf(handlers, cls) {
        case Some(i) => handlers := handlers[i := Entry(cls, handler)];
        case None => handlers := handlers + [Entry(cls, handler)];
      }
    }

    /** `get_handler`: walk the entries in order and answer with the first that covers `e`. */
    method GetHandler(e: Raised) returns (r: ApiResponse)
      ensures r == Respond(handlers, e)
    {
      var i := 0;
      while i < |handlers|
        invariant 0 <= i <= |handlers|
        invariant forall j :: 0 <= j < i ==> !IsSubclass(e.cls, handlers[j].cls)
      {
        if IsSubclass(e.cls, handlers[i].cls) {
          RespondAt(handlers, e, i);
          return handlers[i].handler.Apply(e);
        }
        i := i + 1;
      }
      r := InternalError;
    }
  }

  /** The four domain exceptions get 404, 400, 403 and 400, each with `str(e)` as the detail. */
  lemma DomainResponses(message: string)
    ensures Respond(DefaultTable, Raised(CredentialNotFoundException, message)) == ApiResponse(404, message)
    ensures Respond(DefaultTable, Raised(InvalidCredentialStateException, message)) == ApiResponse(400, message)
    ensures Respond(DefaultTable, Raised(UnauthorizedIssuerException, message)) == ApiResponse(403, message)
    ensures Respond(DefaultTable, Raised(ExpiredCredentialException, message)) == ApiResponse(400, message)
  {
    RespondAt(DefaultTable, Raised(CredentialNotFoundException, message), 0);
    RespondAt(DefaultTable, Raised(InvalidCredentialStateException, message), 1);
    RespondAt(DefaultTable, Raised(UnauthorizedIssuerException, message), 2);
    RespondAt(DefaultTable, Raised(ExpiredCredentialException, message), 3);
  }

  /** An exception outside every listed class, such as a bare ValueError, gets the 500. */
  lemma UnlistedGetsInternalError(e: Raised)
    requires forall j :: 0 <= j < |DefaultTable| ==> !IsSubclass(e.cls, DefaultTable[j].cls)
    ensures Respond(DefaultTable, e) == InternalError
  {
  }

  /** As declared, a connection failure is answered by the DatabaseException entry above its own. */
  lemma ConnectionFailureGets500(message: string)
    ensures Respond(DefaultTable, Raised(DatabaseConnectionException, message)) == ApiResponse(500, message)
  {
    RespondAt(DefaultTable, Raised(DatabaseConnectionException, message), 7);
  }

  /** So the 503 entry never answers, whatever is raised. */
  lemma {:induction false} No503(e: Raised)
    ensures Respond(DefaultTable, e).statusCode != 503
  {
    match FirstMatch(DefaultTable, e)
    case None =>
    case Some(i) =>
      if i == 8 {
        assert !IsSubclass(e.cls, DefaultTable[7].cls);
        SubclassTransitive(e.cls, DatabaseConnectionException, DatabaseException);
        assert false;
      }
  }

  /** The table with the connection entry ahead of its base's, as its 503 evidently intends. */
  const CorrectedTable: seq<Entry> := DefaultTable[..7] + [DefaultTable[8], DefaultTable[7], DefaultTable[9]]

  lemma ConnectionFailureGets503(message: string)
    ensures Respond(CorrectedTable, Raised(DatabaseConnectionException, message)) == ApiResponse(503, message)
  {
    RespondAt(CorrectedTable, Raised(DatabaseConnectionException, message), 7);
  }

  /** Every other exception gets the same answer from both tables. */
  lemma CorrectedAgreesElsewhere(e: Raised)
    requires !IsSubclass(e.cls, DatabaseConnectionException)
    ensures Respond(CorrectedTable, e) == Respond(DefaultTable, e)
  {
    match FirstMatch(DefaultTable, e)
    case None =>
      assert forall j :: 0 <= j < |CorrectedTable| ==> !IsSubclass(e.cls, CorrectedTable[j].cls) by {
        forall j | 0 <= j < |CorrectedTable|
          ensures !IsSubclass(e.cls, CorrectedTable[j].cls)
        {
          if j < 7 { assert CorrectedTable[j] == DefaultTable[j]; }
          else if j == 7 { assert CorrectedTable[j] == DefaultTable[8]; }
          else if j == 8 { assert CorrectedTable[j] == DefaultTable[7]; }
          else { assert CorrectedTable[j] == DefaultTable[9]; }
        }
      }
    case Some(i) =>
      assert i != 8;
      var c := if i < 7 then i else if i == 7 then 8 else 9;
      assert CorrectedTable[c] == DefaultTable[i];
      forall j | 0 <= j < c
        ensures !IsSubclass(e.cls, CorrectedTable[j].cls)
      {
        if j < 7 { assert CorrectedTable[j] == DefaultTable[j]; }
        else if j == 7 { assert CorrectedTable[j] == DefaultTable[8]; }
        else { assert CorrectedTable[j] == DefaultTable[7]; }
      }
      RespondAt(CorrectedTable, e, c);
  }
}

=== FILE: guarded_credential.dfy ===
/**
 * The intermediate credential base class: issuer and holder ids, a validity window stored in
 * UTC, and the same guarded state machine as the latest revision. It keeps no issuing country.
 * Its concrete subclasses are not part of this model, so the subclass hooks
 * (`get_credential_type`, `authorized_issuers`, `_validate_holder_id`) do not appear here,
 * nor does the `id` property, which reads an `_id` that nothing sets.
 */
module GuardedCredential {
  import opened Wrappers
  import opened Enums
  import opened Errors
  import opened DateTimes
  import L = Lifecycle

  datatype Snapshot = Snapshot(
    issuerId: string,
    holderId: string,
    validFrom: DateTime,
    validUntil: DateTime,
    state: L.State)

  /** The object `__init__` builds, or the exception it raises. */
  function Construct(issuerId: string, holderId: string, validFrom: DateTime, validUntil: DateTime)
    : (r: Result<Snapshot, Error>)
    ensures r.Success? <==> L.WindowError(validFrom, validUntil).None?
    ensures r.Failure? ==> Some(r.error) == L.WindowError(validFrom, validUntil)
    ensures r.Success? ==> && r.value.issuerId == issuerId && r.value.holderId == holderId
                           && r.value.validFrom.IsUtc() && r.value.validUntil.IsUtc()
                           && r.value.validFrom.ticks == validFrom.ticks
                           && r.value.validUntil.ticks == validUntil.ticks
                           && r.value.validFrom.ticks <= r.value.validUntil.ticks
                           && r.value.state == L.Initial
  {
    match L.WindowError(validFrom, validUntil)
    case Some(e) => Failure(e)
    case None => Success(Snapshot(issuerId, holderId, AsUtc(validFrom), AsUtc(validUntil), L.Initial))
  }

  class Credential {
    const issuerId: string
    const holderId: string
    const validFrom: DateTime
    const validUntil: DateTime
    var status: CredentialStatus
    var suspensionReason: Option<string>
    var revocationReason: Option<string>

    function State(): L.State
      reads this
    {
      L.State(status, suspensionReason, revocationReason)
    }

    function Snap(): Snapshot
      reads this
    {
      Snapshot(issuerId, holderId, validFrom, validUntil, State())
    }

    /** The assignments of `__init__`, once its checks have passed. */
    constructor (issuerId: string, holderId: string, validFrom: DateTime, validUntil: DateTime)
      requires L.WindowError(validFrom, validUntil).None?
      ensures Snap() == Construct(issuerId, holderId, validFrom, validUntil).value
    {
      this.issuerId := issuerId;
      this.holderId := holderId;
      this.validFrom := AsUtc(validFrom);
      this.validUntil := AsUtc(validUntil);
      status := Active;
      suspensionReason := None;
      revocationReason := None;
    }

    method SetSuspensionReason(reason: Option<string>)
      modifies this
      ensures State() == old(State()).(suspensionReason := reason)
    {
      suspensionReason := reason;
    }

    method SetRevocationReason(reason: Option<string>)
      modifies this
      ensures State() == old(State()).(revocationReason := reason)
    {
      revocationReason := reason;
    }

    /** Writes the status without consulting the state machine. */
    method SetStatus(value: CredentialStatus)
      modifies this
      ensures State() == old(State()).(status := value)
    {
      status := value;
    }

    method Suspend(reason: Option<string>) returns (err: Option<Error>)
      modifies this
      ensures var r := L.Suspend(old(State()), reason);
              State() == L.After(old(State()), r) && (err.Some? <==> r.Failure?) && (r.Failure? ==> err == Some(r.error))
    {
      if L.Blank(reason) {
        return Some(L.EmptySuspension);
      }
      if status == Revoked {
        return Some(L.SuspendRevoked);
      }
      status := Suspended;
      SetSuspensionReason(reason);
      err := None;
    }

    method Reinstate() returns (err: Option<Error>)
      modifies this
      ensures var r := L.Reinstate(old(State()));
              State() == L.After(old(State()), r) && (err.Some? <==> r.Failure?) && (r.Failure? ==> err == Some(r.error))
    {
      if status == Revoked {
        return Some(L.ReinstateRevoked);
      }
      status := Active;
      SetSuspensionReason(None);
      SetSuspensionReason(None);
      err := None;
    }

    method Revoke(reason: Option<string>) returns (err: Option<Error>)
      modifies this
      ensures var r := L.Revoke(old(State()), reason);
              State() == L.After(old(State()), r) && (err.Some? <==> r.Failure?) && (r.Failure? ==> err == Some(r.error))
    {
      if L.Blank(reason) {
        return Some(L.EmptyRevocation);
      }
      status := Revoked;
      SetRevocationReason(reason);
      err := None;
    }

    method UpdateStatus(target: CredentialStatus, reason: Option<string>) returns (err: Option<Error>)
      modifies this
      ensures var r := L.UpdateStatus(old(State()), target, reason);
              State() == L.After(old(State()), r) && (err.Some? <==> r.Failure?) && (r.Failure? ==> err == Some(r.error))
    {
      match target {
        case Suspended => err := Suspend(reason);
        case Revoked => err := Revoke(reason);
        case Active => err := Reinstate();
      }
    }

    /**
     * `is_valid` at the UTC instant `now`: Expired past `valid_until`, whatever the status;
     * otherwise valid exactly when ACTIVE and `now` is not before `valid_from`.
     */
    function IsValid(now: int): (r: Result<bool, Error>)
      reads this
      ensures r.Failure? <==> now > validUntil.ticks
      ensures r.Failure? ==> r.error == Expired(validUntil)
      ensures r.Success? ==> (r.value <==> status == Active && validFrom.ticks <= now)
    {
      if now > validUntil.ticks then Failure(Expired(validUntil))
      else Success(status == Active && now >= validFrom.ticks && now <= validUntil.ticks)
    }
  }

  /** `Credential(...)` on a concrete subclass: a new object, or the exception `__init__` raises. */
  method Create(issuerId: string, holderId: string, validFrom: DateTime, validUntil: DateTime)
    returns (r: Result<Credential, Error>)
    ensures var spec := Construct(issuerId, holderId, validFrom, validUntil);
            && (r.Success? <==> spec.Success?)
            && (r.Failure? ==> r.error == spec.error)
            && (r.Success? ==> fresh(r.value) && r.value.Snap() == spec.value)
  {
    match L.WindowError(validFrom, validUntil) {
      case Some(e) =>
        r := Failure(e);
      case None =>
        var c := new Credential(issuerId, holderId, validFrom, validUntil);
        r := Success(c);
    }
  }

  /**
   * The sequence `update_status(SUSPENDED, r)`, `update_status(ACTIVE, None)`,
   * `update_status(REVOKED, r2)` on a new credential, run on the object.
   */
  method SuspendReinstateRevoke(c: Credential, r: string, r2: string)
    requires c.State() == L.Initial && r != "" && r2 != ""
    modifies c
    ensures c.State() == L.State(Revoked, None, Some(r2))
  {
    var e1 := c.UpdateStatus(Suspended, Some(r));
    var e2 := c.UpdateStatus(Active, None);
    var e3 := c.UpdateStatus(Revoked, Some(r2));
  }
}

=== FILE: interfaces_assemblers.dfy ===
/**
 * The driver's-license assembler of the `interfaces` REST package. Its `to_dto` hands the
 * issuing country to a DTO that declares no such field, so validation drops it, and its
 * `to_domain` then reads that field off the DTO. The corrected assembler below declares the
 * field on the DTO and reads it back.
 */
module InterfacesAssemblers {
  import opened Wrappers
  import opened Enums
  import opened Errors
  import opened DateTimes
  import opened Wire
  import opened Dtos
  import L = Lifecycle
  import opened LatestCredential
  import LatestVariants
  import Text

  /** `except ValueError as e: raise InvalidCredentialDataException("format", str(e))`. */
  function FormatError(e: Error): Error {
    if e.ValueError? then InvalidCredentialData("format", e.Message()) else e
  }

  /** `_to_specific_dto`: every validation failure comes out as a "format" error. */
  function DriversLicenseSpecificDto(p: Payload): (r: Result<RegionDriversLicenseDto, Error>)
    ensures r.Success? <==> ParseRegionDriversLicense(p).Success?
    ensures r.Success? ==> r.value == ParseRegionDriversLicense(p).value
    ensures r.Failure? ==> r.error.InvalidCredentialData? && r.error.field == "format"
  {
    match ParseRegionDriversLicense(p)
    case Success(d) => Success(d)
    case Failure(e) => Failure(FormatError(e))
  }

  /**
   * `to_dto` as written: the ids, the dates as text, the status fields, the classes and the
   * region reach the DTO; the issuing country is passed as well but the DTO has nowhere to keep it.
   */
  function DriversLicenseToDto(s: Snapshot): (r: Result<RegionDriversLicenseDto, Error>)
    requires s.details.DriversLicenseDetails?
    ensures r.Success? <==> s.key.IssuerHolder?
    ensures r.Failure? ==> r.error == AttributeError("issuer_id")
    ensures r.Success? ==> && s.key.IssuerIdAttr() == Success(r.value.issuerId)
                           && s.key.HolderIdAttr() == Success(r.value.holderId)
                           && ParseIsoDate(r.value.validFrom) == Success(s.validFrom)
                           && ParseIsoDate(r.value.validUntil) == Success(s.validUntil)
                           && r.value.state.status.Some?
                           && ParseStatus(r.value.state.status.value) == Some(s.state.status)
                           && r.value.state.suspensionReason == s.state.suspensionReason
                           && r.value.state.revocationReason == s.state.revocationReason
                           && r.value.vehicleClasses == s.details.vehicleClasses
                           && r.value.issuingRegion == s.details.issuingRegion
  {
    match s.key
    case CredentialId(_) => Failure(AttributeError("issuer_id"))
    case IssuerHolder(issuerId, holderId) =>
      ParseIsoFormat(s.validFrom);
      ParseIsoFormat(s.validUntil);
      Success(RegionDriversLicenseDto(issuerId, holderId, IsoFormat(s.validFrom), IsoFormat(s.validUntil),
                                      StatusFieldsOf(s.state), s.details.vehicleClasses, s.details.issuingRegion))
  }

  /**
   * `to_domain` as written: after validation and the two dates, `license_dto.issuing_country`
   * raises AttributeError, so no body ever yields a license.
   */
  function DriversLicenseToDomainAsWritten(p: Payload): (r: Result<Snapshot, Error>)
    ensures r.Failure?
    ensures DriversLicenseSpecificDto(p).Success? && ParseIsoDate(DriversLicenseSpecificDto(p).value.validFrom).Success?
            && ParseIsoDate(DriversLicenseSpecificDto(p).value.validUntil).Success? ==>
              r == Failure(AttributeError("issuing_country"))
  {
    var d :- DriversLicenseSpecificDto(p);
    var validFrom :- ParseIsoDate(d.validFrom);
    var validUntil :- ParseIsoDate(d.validUntil);
    Failure(AttributeError("issuing_country"))
  }

  /** Even the DTO `to_dto` itself wrote cannot be read back. */
  lemma DriversLicenseAsWrittenLosesCountry(s: Snapshot)
    requires WellFormed(s) && s.key.IssuerHolder? && s.details.DriversLicenseDetails?
    ensures DriversLicenseToDto(s).Success?
    ensures DriversLicenseToDomainAsWritten(DumpRegionDriversLicense(DriversLicenseToDto(s).value))
            == Failure(AttributeError("issuing_country"))
  {
    ParseDumpRegionDriversLicense(DriversLicenseToDto(s).value);
  }

  /** `_to_specific_dto` over the DTO that declares `issuing_country`. */
  function CountryDriversLicenseSpecificDto(p: Payload): (r: Result<CountryDriversLicenseDto, Error>)
    ensures r.Success? <==> ParseCountryDriversLicense(p).Success?
    ensures r.Success? ==> r.value == ParseCountryDriversLicense(p).value
    ensures r.Failure? ==> r.error.InvalidCredentialData? && r.error.field == "format"
  {
    match ParseCountryDriversLicense(p)
    case Success(d) => Success(d)
    case Failure(e) => Failure(FormatError(e))
  }

  /** The corrected `to_dto`: the same projection, with the issuing country kept. */
  function DriversLicenseToCountryDto(s: Snapshot): (r: Result<CountryDriversLicenseDto, Error>)
    requires s.details.DriversLicenseDetails?
    ensures r.Success? <==> s.key.IssuerHolder?
    ensures r.Failure? ==> r.error == AttributeError("issuer_id")
    ensures r.Success? ==> && s.key.IssuerIdAttr() == Success(r.value.issuerId)
                           && s.key.HolderIdAttr() == Success(r.value.holderId)
                           && ParseIsoDate(r.value.validFrom) == Success(s.validFrom)
                           && ParseIsoDate(r.value.validUntil) == Success(s.validUntil)
                           && r.value.issuingCountry == s.issuingCountry
                           && r.value.state.status.Some?
                           && ParseStatus(r.value.state.status.value) == Some(s.state.status)
                           && r.value.state.suspensionReason == s.state.suspensionReason
                           && r.value.state.revocationReason == s.state.revocationReason
                           && r.value.vehicleClasses == s.details.vehicleClasses
                           && r.value.issuingRegion == s.details.issuingRegion
  {
    match s.key
    case CredentialId(_) => Failure(AttributeError("issuer_id"))
    case IssuerHolder(issuerId, holderId) =>
      ParseIsoFormat(s.validFrom);
      ParseIsoFormat(s.validUntil);
      Success(CountryDriversLicenseDto(issuerId, holderId, IsoFormat(s.validFrom), IsoFormat(s.validUntil),
                                       s.issuingCountry, StatusFieldsOf(s.state), s.details.vehicleClasses,
                                       s.details.issuingRegion))
  }

  /** The corrected `to_domain`: validate, parse the dates, construct; the body's status is dropped. */
  function DriversLicenseToDomain(p: Payload): (r: Result<Snapshot, Error>)
    ensures ParseCountryDriversLicense(p).Failure? ==>
              r.Failure? && r.error.InvalidCredentialData? && r.error.field == "format"
    ensures r.Success? <==> && ParseCountryDriversLicense(p).Success?
                            && var d := ParseCountryDriversLicense(p).value;
                            && FromIsoFormat(d.validFrom).Some? && FromIsoFormat(d.validUntil).Some?
                            && L.WindowError(FromIsoFormat(d.validFrom).value, FromIsoFormat(d.validUntil).value).None?
    ensures r.Success? ==> && ParseCountryDriversLicense(p).Success?
                           && var d := ParseCountryDriversLicense(p).value;
                           && r.value.key == IssuerHolder(d.issuerId, d.holderId)
                           && r.value.issuingCountry == Text.Lower(d.issuingCountry)
                           && r.value.details == DriversLicenseDetails(d.vehicleClasses, d.issuingRegion)
                           && FromIsoFormat(d.validFrom).Some? && FromIsoFormat(d.validFrom).value.IsAware()
                           && r.value.validFrom == AsUtc(FromIsoFormat(d.validFrom).value)
                           && FromIsoFormat(d.validUntil).Some? && FromIsoFormat(d.validUntil).value.IsAware()
                           && r.value.validUntil == AsUtc(FromIsoFormat(d.validUntil).value)
                           && r.value.state == L.Initial
                           && WellFormed(r.value)
  {
    var d :- CountryDriversLicenseSpecificDto(p);
    var validFrom :- ParseIsoDate(d.validFrom);
    var validUntil :- ParseIsoDate(d.validUntil);
    LatestVariants.NewDriversLicense(d.issuerId, d.holderId, validFrom, validUntil, d.vehicleClasses,
                                     d.issuingCountry, d.issuingRegion)
  }

  /** With the field declared, a license keeps every field through the DTO and comes back ACTIVE. */
  lemma DriversLicenseRoundTrip(s: Snapshot)
    requires WellFormed(s) && s.key.IssuerHolder? && s.details.DriversLicenseDetails?
    ensures DriversLicenseToCountryDto(s).Success?
    ensures DriversLicenseToDomain(DumpCountryDriversLicense(DriversLicenseToCountryDto(s).value))
            == Success(s.(state := L.Initial))
  {
    ParseDumpCountryDriversLicense(DriversLicenseToCountryDto(s).value);
    ConstructFromStored(s);
  }
}

=== FILE: latest_credential.dfy ===
/**
 * The latest credential base class: an identifying key, a validity window normalised to UTC,
 * a lower-cased issuing country, a type-specific payload, and the guarded state machine over
 * status, suspension reason and revocation reason.
 */
module LatestCredential {
  import opened Wrappers
  import opened Enums
  import opened Errors
  import opened DateTimes
  import Text
  import L = Lifecycle

  /**
   * The identifying key. This revision declares a single `credential_id`; its subclasses and
   * most of its callers pass an issuer id and a holder id instead. Reading the attribute a key
   * does not have raises AttributeError, as Python does.
   */
  datatype CredentialKey = CredentialId(id: string) | IssuerHolder(issuerId: string, holderId: string) {
    function CredentialIdAttr(): (r: Result<string, Error>)
      ensures r.Success? <==> CredentialId?
    {
      if CredentialId? then Success(id) else Failure(AttributeError("credential_id"))
    }

    function IssuerIdAttr(): (r: Result<string, Error>)
      ensures r.Success? <==> IssuerHolder?
    {
      if IssuerHolder? then Success(issuerId) else Failure(AttributeError("issuer_id"))
    }

    function HolderIdAttr(): (r: Result<string, Error>)
      ensures r.Success? <==> IssuerHolder?
    {
      if IssuerHolder? then Success(holderId) else Failure(AttributeError("holder_id"))
    }
  }

  /** The fields a subclass adds on top of the base. */
  datatype Details =
    | DriversLicenseDetails(vehicleClasses: seq<string>, issuingRegion: string)
    | PassportDetails(nationality: string)
  {
    /** `get_credential_type()` of the subclass the payload belongs to. */
    function CredentialType(): CredentialType {
      if DriversLicenseDetails? then DriversLicenseType else PassportType
    }
  }

  /** Everything an object of the class holds, as one value. */
  datatype Snapshot = Snapshot(
    key: CredentialKey,
    validFrom: DateTime,
    validUntil: DateTime,
    issuingCountry: string,
    details: Details,
    state: L.State)

  /** The invariant every constructed credential keeps: UTC dates in order and a lower-case country. */
  predicate WellFormed(s: Snapshot) {
    && s.validFrom.IsUtc() && s.validUntil.IsUtc()
    && s.validFrom.ticks <= s.validUntil.ticks
    && Text.IsLowerCase(s.issuingCountry)
  }

  /** The object `__init__` builds, or the exception it raises. */
  function Construct(key: CredentialKey, validFrom: DateTime, validUntil: DateTime, issuingCountry: string,
                     details: Details): (r: Result<Snapshot, Error>)
    ensures r.Success? <==> L.WindowError(validFrom, validUntil).None?
    ensures r.Failure? ==> Some(r.error) == L.WindowError(validFrom, validUntil)
    ensures r.Success? ==> && r.value.key == key && r.value.details == details
                           && r.value.state == L.Initial
                           && r.value.issuingCountry == Text.Lower(issuingCountry)
                           && r.value.validFrom.ticks == validFrom.ticks
                           && r.value.validUntil.ticks == validUntil.ticks
                           && WellFormed(r.value)
  {
    match L.WindowError(validFrom, validUntil)
    case Some(e) => Failure(e)
    case None =>
      Text.LowerIsLowerCase(issuingCountry);
      Success(Snapshot(key, AsUtc(validFrom), AsUtc(validUntil), Text.Lower(issuingCountry), details, L.Initial))
  }

  /** Constructing from a credential's own stored fields gives back that credential with a fresh state. */
  lemma ConstructFromStored(s: Snapshot)
    requires WellFormed(s)
    ensures Construct(s.key, s.validFrom, s.validUntil, s.issuingCountry, s.details) == Success(s.(state := L.Initial))
  {
    Text.LowerIsLowerCase(s.issuingCountry);
  }

  class Credential {
    const key: CredentialKey
    const validFrom: DateTime
    const validUntil: DateTime
    const issuingCountry: string
    const details: Details
    var status: CredentialStatus
    var suspensionReason: Option<string>
    var revocationReason: Option<string>

    function State(): L.State
      reads this
    {
      L.State(status, suspensionReason, revocationReason)
    }

    function Snap(): Snapshot
      reads this
    {
      Snapshot(key, validFrom, validUntil, issuingCountry, details, State())
    }

    /** The assignments of `__init__`, once its checks have passed. */
    constructor (key: CredentialKey, validFrom: DateTime, validUntil: DateTime, issuingCountry: string, details: Details)
      requires L.WindowError(validFrom, validUntil).None?
      ensures Snap() == Construct(key, validFrom, validUntil, issuingCountry, details).value
    {
      this.key := key;
      this.validFrom := AsUtc(validFrom);
      this.validUntil := AsUtc(validUntil);
      this.issuingCountry := Text.Lower(issuingCountry);
      this.details := details;
      status := Active;
      suspensionReason := None;
      revocationReason := None;
    }

    method SetSuspensionReason(reason: Option<string>)
      modifies this
      ensures State() == old(State()).(suspensionReason := reason)
    {
      suspensionReason := reason;
    }

    method SetRevocationReason(reason: Option<string>)
      modifies this
      ensures State() == old(State()).(revocationReason := reason)
    {
      revocationReason := reason;
    }

    /** Writes the status without consulting the state machine. */
    method SetStatus(value: CredentialStatus)
      modifies this
      ensures State() == old(State()).(status := value)
    {
      status := value;
    }

    method Suspend(reason: Option<string>) returns (err: Option<Error>)
      modifies this
      ensures var r := L.Suspend(old(State()), reason);
              State() == L.After(old(State()), r) && (err.Some? <==> r.Failure?) && (r.Failure? ==> err == Some(r.error))
    {
      if L.Blank(reason) {
        return Some(L.EmptySuspension);
      }
      if status == Revoked {
        return Some(L.SuspendRevoked);
      }
      status := Suspended;
      SetSuspensionReason(reason);
      err := None;
    }

    method Reinstate() returns (err: Option<Error>)
      modifies this
      ensures var r := L.Reinstate(old(State()));
              State() == L.After(old(State()), r) && (err.Some? <==> r.Failure?) && (r.Failure? ==> err == Some(r.error))
    {
      if status == Revoked {
        return Some(L.ReinstateRevoked);
      }
      status := Active;
      SetSuspensionReason(None);
      SetSuspensionReason(None);
      err := None;
    }

    method Revoke(reason: Option<string>) returns (err: Option<Error>)
      modifies this
      ensures var r := L.Revoke(old(State()), reason);
              State() == L.After(old(State()), r) && (err.Some? <==> r.Failure?) && (r.Failure? ==> err == Some(r.error))
    {
      if L.Blank(reason) {
        return Some(L.EmptyRevocation);
      }
      status := Revoked;
      SetRevocationReason(reason);
      err := None;
    }

    method UpdateStatus(target: CredentialStatus, reason: Option<string>) returns (err: Option<Error>)
      modifies this
      ensures var r := L.UpdateStatus(old(State()), target, reason);
              State() == L.After(old(State()), r) && (err.Some? <==> r.Failure?) && (r.Failure? ==> err == Some(r.error))
    {
      match target {
        case Suspended => err := Suspend(reason);
        case Revoked => err := Revoke(reason);
        case Active => err := Reinstate();
      }
    }

    /**
     * `is_valid` at the instant `now`: past `valid_until` it raises Expired whatever the
     * status; otherwise the credential is valid exactly when it is ACTIVE and `now` is not
     * before `valid_from`.
     */
    function IsValid(now: int): (r: Result<bool, Error>)
      reads this
      ensures r.Failure? <==> now > validUntil.ticks
      ensures r.Failure? ==> r.error == Expired(validUntil)
      ensures r.Success? ==> (r.value <==> status == Active && validFrom.ticks <= now)
    {
      if now > validUntil.ticks then Failure(Expired(validUntil))
      else Success(status == Active && now >= validFrom.ticks && now <= validUntil.ticks)
    }
  }

  /** `Credential(...)`: a new object, or the exception `__init__` raises. */
  method Create(key: CredentialKey, validFrom: DateTime, validUntil: DateTime, issuingCountry: string, details: Details)
    returns (r: Result<Credential, Error>)
    ensures var spec := Construct(key, validFrom, validUntil, issuingCountry, details);
            && (r.Success? <==> spec.Success?)
            && (r.Failure? ==> r.error == spec.error)
            && (r.Success? ==> fresh(r.value) && r.value.Snap() == spec.value)
  {
    match L.WindowError(validFrom, validUntil) {
      case Some(e) =>
        r := Failure(e);
      case None =>
        var c := new Credential(key, validFrom, validUntil, issuingCountry, details);
        r := Success(c);
    }
  }
}

=== FILE: latest_variants.dfy ===
/**
 * The two subclasses of the latest credential base: a driver's license (vehicle classes and
 * an issuing region) and a passport (a nationality). Both declare `issuer_id, holder_id`
 * where the base declares a single `credential_id`, and neither implements the base's
 * abstract `_validate_credential_id_format`.
 */
module LatestVariants {
  import opened Wrappers
  import opened Enums
  import opened Errors
  import opened DateTimes
  import Text
  import L = Lifecycle
  import opened LatestCredential

  /** Python refuses to instantiate a class that leaves an abstract method unimplemented. */
  const DriversLicenseAbstractError := TypeError("Can't instantiate abstract class DriversLicense without an implementation for abstract method '_validate_credential_id_format'")

  const PassportAbstractError := TypeError("Can't instantiate abstract class Passport without an implementation for abstract method '_validate_credential_id_format'")

  /**
   * `DriversLicense(...)` as the class is written: the abstract-method check runs before
   * `__init__`, and were it passed, `super().__init__` would receive five positional
   * arguments where the base takes four. Either way every call raises TypeError.
   */
  function NewDriversLicenseAsWritten(issuerId: string, holderId: string, validFrom: DateTime, validUntil: DateTime,
                                      vehicleClasses: seq<string>, issuingCountry: string,
                                      issuingRegion: string): Result<Snapshot, Error> {
    Failure(DriversLicenseAbstractError)
  }

  function NewPassportAsWritten(issuerId: string, holderId: string, validFrom: DateTime, validUntil: DateTime,
                                nationality: string, issuingCountry: string): Result<Snapshot, Error> {
    Failure(PassportAbstractError)
  }

  /**
   * The constructor the subclass evidently means: the issuer and holder ids form the key,
   * the remaining four arguments go to the base, and the payload is stored verbatim.
   */
  function NewDriversLicense(issuerId: string, holderId: string, validFrom: DateTime, validUntil: DateTime,
                             vehicleClasses: seq<string>, issuingCountry: string,
                             issuingRegion: string): (r: Result<Snapshot, Error>)
    ensures r.Success? <==> L.WindowError(validFrom, validUntil).None?
    ensures r.Failure? ==> Some(r.error) == L.WindowError(validFrom, validUntil)
    ensures r.Success? ==> && r.value.details.CredentialType() == DriversLicenseType
                           && r.value.key.IssuerIdAttr() == Success(issuerId)
                           && r.value.key.HolderIdAttr() == Success(holderId)
                           && r.value.details.vehicleClasses == vehicleClasses
                           && r.value.details.issuingRegion == issuingRegion
                           && r.value.issuingCountry == Text.Lower(issuingCountry)
                           && r.value.state == L.Initial
                           && WellFormed(r.value)
  {
    Construct(IssuerHolder(issuerId, holderId), validFrom, validUntil, issuingCountry,
              DriversLicenseDetails(vehicleClasses, issuingRegion))
  }

  function NewPassport(issuerId: string, holderId: string, validFrom: DateTime, validUntil: DateTime,
                       nationality: string, issuingCountry: string): (r: Result<Snapshot, Error>)
    ensures r.Success? <==> L.WindowError(validFrom, validUntil).None?
    ensures r.Failure? ==> Some(r.error) == L.WindowError(validFrom, validUntil)
    ensures r.Success? ==> && r.value.details.CredentialType() == PassportType
                           && r.value.key.IssuerIdAttr() == Success(issuerId)
                           && r.value.key.HolderIdAttr() == Success(holderId)
                           && r.value.details.nationality == nationality
                           && r.value.issuingCountry == Text.Lower(issuingCountry)
                           && r.value.state == L.Initial
                           && WellFormed(r.value)
  {
    Construct(IssuerHolder(issuerId, holderId), validFrom, validUntil, issuingCountry, PassportDetails(nationality))
  }

  /**
   * The discrepancy on the inputs of the driver's-license fixture: valid, ordered,
   * timezone-aware dates that the corrected constructor accepts and the written one refuses.
   */
  lemma DriversLicenseAsWrittenRefusesValidInput()
    ensures var from := DateTime(0, Some(0));
            var until := DateTime(1000, Some(0));
            && NewDriversLicenseAsWritten("issuer", "holder", from, until, ["A", "B"], "CA", "ON").Failure?
            && NewDriversLicense("issuer", "holder", from, until, ["A", "B"], "CA", "ON").Success?
  {
  }

  lemma PassportAsWrittenRefusesValidInput()
    ensures var from := DateTime(0, Some(0));
            var until := DateTime(1000, Some(0));
            && NewPassportAsWritten("issuer", "holder", from, until, "Canadian", "CA").Failure?
            && NewPassport("issuer", "holder", from, until, "Canadian", "CA").Success?
  {
  }

  /** The corrected driver's-license constructor, building the object. */
  method CreateDriversLicense(issuerId: string, holderId: string, validFrom: DateTime, validUntil: DateTime,
                              vehicleClasses: seq<string>, issuingCountry: string, issuingRegion: string)
    returns (r: Result<Credential, Error>)
    ensures var spec := NewDriversLicense(issuerId, holderId, validFrom, validUntil, vehicleClasses, issuingCountry, issuingRegion);
            && (r.Success? <==> spec.Success?)
            && (r.Failure? ==> r.error == spec.error)
            && (r.Success? ==> fresh(r.value) && r.value.Snap() == spec.value)
  {
    r := Create(IssuerHolder(issuerId, holderId), validFrom, validUntil, issuingCountry,
                DriversLicenseDetails(vehicleClasses, issuingRegion));
  }

  method CreatePassport(issuerId: string, holderId: string, validFrom: DateTime, validUntil: DateTime,
                        nationality: string, issuingCountry: string)
    returns (r: Result<Credential, Error>)
    ensures var spec := NewPassport(issuerId, holderId, validFrom, validUntil, nationality, issuingCountry);
            && (r.Success? <==> spec.Success?)
            && (r.Failure? ==> r.error == spec.error)
            && (r.Success? ==> fresh(r.value) && r.value.Snap() == spec.value)
  {
    r := Create(IssuerHolder(issuerId, holderId), validFrom, validUntil, issuingCountry, PassportDetails(nationality));
  }
}

=== FILE: legacy_assemblers.dfy ===
/**
 * The assemblers of the oldest REST package, over the earliest credential classes. They build
 * the DTO straight from the body with no `try`, so a validation error reaches the caller as
 * the bare ValueError; `to_domain` passes no status or reasons, so the result starts ACTIVE.
 */
module LegacyAssemblers {
  import opened Wrappers
  import opened Enums
  import opened Errors
  import opened DateTimes
  import opened Wire
  import opened Dtos
  import L = Lifecycle
  import opened EarlyCredential

  /** `to_dto` of the driver's license: every field, the dates as text that parses back. */
  function DriversLicenseToDto(s: Snapshot): (r: ProvinceDriversLicenseDto)
    requires s.details.DriversLicenseDetails?
    ensures && r.issuerId == s.issuerId && r.holderId == s.holderId
            && ParseIsoDate(r.validFrom) == Success(s.validFrom)
            && ParseIsoDate(r.validUntil) == Success(s.validUntil)
            && r.state.status.Some? && ParseStatus(r.state.status.value) == Some(s.state.status)
            && r.state.suspensionReason == s.state.suspensionReason
            && r.state.revocationReason == s.state.revocationReason
            && r.vehicleClasses == s.details.vehicleClasses
            && r.issuingProvince == s.details.issuingProvince
  {
    ParseIsoFormat(s.validFrom);
    ParseIsoFormat(s.validUntil);
    ProvinceDriversLicenseDto(s.issuerId, s.holderId, IsoFormat(s.validFrom), IsoFormat(s.validUntil),
                              StatusFieldsOf(s.state), s.details.vehicleClasses, s.details.issuingProvince)
  }

  /** `to_domain` of the driver's license: validation errors propagate as they are. */
  function DriversLicenseToDomain(p: Payload): (r: Result<Snapshot, Error>)
    ensures ParseProvinceDriversLicense(p).Failure? ==> r == Failure(ParseProvinceDriversLicense(p).error)
    ensures r.Failure? ==> r.error.ValueError?
    ensures r.Success? <==> && ParseProvinceDriversLicense(p).Success?
                            && var d := ParseProvinceDriversLicense(p).value;
                            && FromIsoFormat(d.validFrom).Some? && FromIsoFormat(d.validUntil).Some?
                            && ConstructionError(FromIsoFormat(d.validFrom).value, FromIsoFormat(d.validUntil).value).None?
    ensures r.Success? ==> && ParseProvinceDriversLicense(p).Success?
                           && var d := ParseProvinceDriversLicense(p).value;
                           && r.value.issuerId == d.issuerId && r.value.holderId == d.holderId
                           && r.value.details == DriversLicenseDetails(d.vehicleClasses, d.issuingProvince)
                           && FromIsoFormat(d.validFrom).Some? && FromIsoFormat(d.validFrom).value.IsAware()
                           && r.value.validFrom == AsUtc(FromIsoFormat(d.validFrom).value)
                           && FromIsoFormat(d.validUntil).Some? && FromIsoFormat(d.validUntil).value.IsAware()
                           && r.value.validUntil == AsUtc(FromIsoFormat(d.validUntil).value)
                           && r.value.state == L.Initial
  {
    var d :- ParseProvinceDriversLicense(p);
    var validFrom :- ParseIsoDate(d.validFrom);
    var validUntil :- ParseIsoDate(d.validUntil);
    Construct(d.issuerId, d.holderId, validFrom, validUntil, DriversLicenseDetails(d.vehicleClasses, d.issuingProvince))
  }

  /** A license with UTC dates keeps every field through the DTO and comes back ACTIVE with no reasons. */
  lemma DriversLicenseRoundTrip(s: Snapshot)
    requires s.validFrom.IsUtc() && s.validUntil.IsUtc() && s.details.DriversLicenseDetails?
    ensures DriversLicenseToDomain(DumpProvinceDriversLicense(DriversLicenseToDto(s))) == Success(s.(state := L.Initial))
  {
    ParseDumpProvinceDriversLicense(DriversLicenseToDto(s));
  }

  /** `to_dto` of the passport. */
  function PassportToDto(s: Snapshot): (r: PassportDto)
    requires s.details.PassportDetails?
    ensures && r.issuerId == s.issuerId && r.holderId == s.holderId
            && ParseIsoDate(r.validFrom) == Success(s.validFrom)
            && ParseIsoDate(r.validUntil) == Success(s.validUntil)
            && r.state.status.Some? && ParseStatus(r.state.status.value) == Some(s.state.status)
            && r.state.suspensionReason == s.state.suspensionReason
            && r.state.revocationReason == s.state.revocationReason
            && r.nationality == s.details.nationality
            && r.issuingCountry == s.details.issuingCountry
  {
    ParseIsoFormat(s.validFrom);
    ParseIsoFormat(s.validUntil);
    PassportDto(s.issuerId, s.holderId, IsoFormat(s.validFrom), IsoFormat(s.validUntil),
                StatusFieldsOf(s.state), s.details.nationality, s.details.issuingCountry)
  }

  /** `to_domain` of the passport: the country is kept as given, not lower-cased. */
  function PassportToDomain(p: Payload): (r: Result<Snapshot, Error>)
    ensures ParsePassport(p).Failure? ==> r == Failure(ParsePassport(p).error)
    ensures r.Failure? ==> r.error.ValueError?
    ensures r.Success? <==> && ParsePassport(p).Success?
                            && var d := ParsePassport(p).value;
                            && FromIsoFormat(d.validFrom).Some? && FromIsoFormat(d.validUntil).Some?
                            && ConstructionError(FromIsoFormat(d.validFrom).value, FromIsoFormat(d.validUntil).value).None?
    ensures r.Success? ==> && ParsePassport(p).Success?
                           && var d := ParsePassport(p).value;
                           && r.value.issuerId == d.issuerId && r.value.holderId == d.holderId
                           && r.value.details == PassportDetails(d.nationality, d.issuingCountry)
                           && FromIsoFormat(d.validFrom).Some? && FromIsoFormat(d.validFrom).value.IsAware()
                           && r.value.validFrom == AsUtc(FromIsoFormat(d.validFrom).value)
                           && FromIsoFormat(d.validUntil).Some? && FromIsoFormat(d.validUntil).value.IsAware()
                           && r.value.validUntil == AsUtc(FromIsoFormat(d.validUntil).value)
                           && r.value.state == L.Initial
  {
    var d :- ParsePassport(p);
    var validFrom :- ParseIsoDate(d.validFrom);
    var validUntil :- ParseIsoDate(d.validUntil);
    Construct(d.issuerId, d.holderId, validFrom, validUntil, PassportDetails(d.nationality, d.issuingCountry))
  }

  lemma PassportRoundTrip(s: Snapshot)
    requires s.validFrom.IsUtc() && s.validUntil.IsUtc() && s.details.PassportDetails?
    ensures PassportToDomain(DumpPassport(PassportToDto(s))) == Success(s.(state := L.Initial))
  {
    ParseDumpPassport(PassportToDto(s));
  }
}

=== FILE: legacy_credential_service.dfy ===
/**
 * The earlier application service, over the intermediate credential class with guarded
 * transitions. Its repository finds a credential by id and type alone. As in the later
 * service, the repository is a table of the objects it hands out and a log of the calls made to it.
 */
module LegacyCredentialServices {
  import opened Wrappers
  import opened Enums
  import opened Errors
  import L = Lifecycle
  import GuardedCredential

  type Credential = GuardedCredential.Credential

  /** The arguments of the repository's `get_credential`. */
  datatype LookupKey = LookupKey(credentialId: string, credentialType: CredentialType)

  datatype Call =
    | Fetched(key: LookupKey)
    | Created(created: Credential)
    | StatusWritten(written: Credential, state: L.State)

  /** The credentials a lookup may hand out: the one stored under the key, if any. */
  function Stored(credentials: map<LookupKey, Credential>, key: LookupKey): set<Credential> {
    if key in credentials then {credentials[key]} else {}
  }

  class Repository {
    var credentials: map<LookupKey, Credential>
    var calls: seq<Call>

    constructor (credentials: map<LookupKey, Credential>)
      ensures this.credentials == credentials && calls == []
    {
      this.credentials := credentials;
      calls := [];
    }

    /** `get_credential`: the stored credential, or CredentialNotFound. */
    method GetCredential(key: LookupKey) returns (r: Result<Credential, Error>)
      modifies this
      ensures credentials == old(credentials) && calls == old(calls) + [Fetched(key)]
      ensures r.Success? <==> key in credentials
      ensures r.Success? ==> r.value == credentials[key]
      ensures r.Failure? ==> r.error == CredentialNotFound(key.credentialId, key.credentialType.Value())
    {
      calls := calls + [Fetched(key)];
      if key in credentials {
        r := Success(credentials[key]);
      } else {
        r := Failure(CredentialNotFound(key.credentialId, key.credentialType.Value()));
      }
    }

    /** `create_credential`: records the call and hands back what it was given. */
    method CreateCredential(credential: Credential) returns (r: Credential)
      modifies this
      ensures credentials == old(credentials) && calls == old(calls) + [Created(credential)]
      ensures r == credential
    {
      calls := calls + [Created(credential)];
      r := credential;
    }

    /** `update_credential_status`: records the write together with the state it writes. */
    method UpdateCredentialStatus(credential: Credential)
      modifies this
      ensures credentials == old(credentials)
      ensures calls == old(calls) + [StatusWritten(credential, credential.State())]
    {
      calls := calls + [StatusWritten(credential, credential.State())];
    }
  }

  class CredentialService {
    const repository: Repository

    constructor (repository: Repository)
      ensures this.repository == repository
    {
      this.repository := repository;
    }

    /** `get_credential`: the arguments go to the repository unchanged. */
    method GetCredential(credentialId: string, credentialType: CredentialType)
      returns (r: Result<Credential, Error>)
      modifies repository
      ensures var key := LookupKey(credentialId, credentialType);
              && repository.credentials == old(repository.credentials)
              && repository.calls == old(repository.calls) + [Fetched(key)]
              && (r.Success? <==> key in repository.credentials)
              && (r.Success? ==> r.value == repository.credentials[key])
              && (r.Failure? ==> r.error == CredentialNotFound(credentialId, credentialType.Value()))
    {
      r := repository.GetCredential(LookupKey(credentialId, credentialType));
    }

    /** `validate_credential`: the fetched credential's status; nothing is written. */
    method ValidateCredential(credentialId: string, credentialType: CredentialType)
      returns (r: Result<CredentialStatus, Error>)
      modifies repository
      ensures var key := LookupKey(credentialId, credentialType);
              && repository.credentials == old(repository.credentials)
              && repository.calls == old(repository.calls) + [Fetched(key)]
              && (r.Success? <==> key in repository.credentials)
              && (r.Success? ==> r.value == repository.credentials[key].status)
              && (r.Failure? ==> r.error == CredentialNotFound(credentialId, credentialType.Value()))
    {
      var fetched := repository.GetCredential(LookupKey(credentialId, credentialType));
      match fetched {
        case Success(c) => r := Success(c.status);
        case Failure(e) => r := Failure(e);
      }
    }

    /** `create_credential`: a pass-through to the repository. */
    method CreateCredential(credential: Credential) returns (r: Credential)
      modifies repository
      ensures repository.credentials == old(repository.credentials)
      ensures repository.calls == old(repository.calls) + [Created(credential)]
      ensures r == credential
    {
      r := repository.CreateCredential(credential);
    }

    /**
     * `update_credential(id, type, status, reason)`: fetch, apply `update_status`, then write
     * once with the same object and return it. If the fetch or the transition raises, nothing
     * is written and the credential keeps its state.
     */
    method UpdateCredential(credentialId: string, credentialType: CredentialType,
                            newStatus: CredentialStatus, reason: Option<string>)
      returns (r: Result<Credential, Error>)
      modifies repository, Stored(repository.credentials, LookupKey(credentialId, credentialType))
      ensures repository.credentials == old(repository.credentials)
      ensures var key := LookupKey(credentialId, credentialType);
              key !in old(repository.credentials) ==>
                && r == Failure(CredentialNotFound(credentialId, credentialType.Value()))
                && repository.calls == old(repository.calls) + [Fetched(key)]
      ensures var key := LookupKey(credentialId, credentialType);
              key in old(repository.credentials) ==>
                var c := old(repository.credentials)[key];
                var t := L.UpdateStatus(old(c.State()), newStatus, reason);
                && c.State() == L.After(old(c.State()), t)
                && (t.Failure? ==> && r == Failure(t.error)
                                   && repository.calls == old(repository.calls) + [Fetched(key)])
                && (t.Success? ==> && r == Success(c)
                                   && repository.calls == old(repository.calls) + [Fetched(key), StatusWritten(c, t.value)])
    {
      var key := LookupKey(credentialId, credentialType);
      var fetched := repository.GetCredential(key);
      if fetched.Failure? {
        return Failure(fetched.error);
      }
      var c := fetched.value;
      var err := c.UpdateStatus(newStatus, reason);
      if err.Some? {
        return Failure(err.value);
      }
      repository.UpdateCredentialStatus(c);
      r := Success(c);
    }
  }
}

=== FILE: legacy_mappers.dfy ===
/**
 * The older storage mappers, over the earliest credential classes. `to_dynamo` keys every
 * item by issuer alone; `to_domain` parses the issuer id as a UUID and calls the constructor
 * once, reading neither the status nor the reasons, so what it returns is always ACTIVE.
 * `MapperFactory.get_mapper` picks one by credential type.
 */
module LegacyMappers {
  import opened Wrappers
  import opened Enums
  import opened Errors
  import opened DateTimes
  import opened Records
  import Uuids
  import L = Lifecycle
  import opened EarlyCredential

  function PartitionKey(issuerId: string): string {
    "CRED#" + issuerId
  }

  /** The sort key each mapper writes, a literal per type. */
  function SortKey(t: CredentialType): string {
    match t
    case DriversLicenseType => "METADATA#drivers_license"
    case PassportType => "METADATA#passport"
  }

  /** The attributes both mappers write whatever the type. */
  function CommonItem(t: CredentialType, s: Snapshot, now: DateTime): Record {
    map[PK := Str(PartitionKey(s.issuerId)),
        SK := Str(SortKey(t)),
        CredentialTypeName := Str(t.Value()),
        IssuerId := Str(s.issuerId),
        HolderId := Str(s.holderId),
        ValidFrom := Str(IsoFormat(s.validFrom)),
        ValidUntil := Str(IsoFormat(s.validUntil)),
        Status := Str(s.state.status.Value()),
        SuspensionReason := OptStr(s.state.suspensionReason),
        RevocationReason := OptStr(s.state.revocationReason),
        CreatedAt := Str(IsoFormat(now)),
        UpdatedAt := Str(IsoFormat(now)),
        Version := Int(1)]
  }

  function DriversLicenseToDynamo(s: Snapshot, now: DateTime): Record
    requires s.details.DriversLicenseDetails?
  {
    CommonItem(DriversLicenseType, s, now)
      [VehicleClasses := StrList(s.details.vehicleClasses)]
      [IssuingProvince := Str(s.details.issuingProvince)]
  }

  function PassportToDynamo(s: Snapshot, now: DateTime): Record
    requires s.details.PassportDetails?
  {
    CommonItem(PassportType, s, now)
      [Nationality := Str(s.details.nationality)]
      [IssuingCountry := Str(s.details.issuingCountry)]
  }

  /** The key and the state the older `to_dynamo` writes; the issuer alone makes the key. */
  lemma DriversLicenseItemShape(s: Snapshot, now: DateTime)
    requires s.details.DriversLicenseDetails?
    ensures var item := DriversLicenseToDynamo(s, now);
            && {PK, SK, CredentialTypeName, Status, SuspensionReason, RevocationReason, VehicleClasses, IssuingProvince, Version} <= item.Keys
            && item[PK] == Str("CRED#" + s.issuerId)
            && item[SK] == Str("METADATA#drivers_license")
            && item[CredentialTypeName] == Str("drivers_license")
            && item[Status] == Str(s.state.status.Value())
            && item[SuspensionReason] == OptStr(s.state.suspensionReason)
            && item[RevocationReason] == OptStr(s.state.revocationReason)
            && item[VehicleClasses] == StrList(s.details.vehicleClasses)
            && item[IssuingProvince] == Str(s.details.issuingProvince)
            && item[Version] == Int(1)
  {
  }

  lemma PassportItemShape(s: Snapshot, now: DateTime)
    requires s.details.PassportDetails?
    ensures var item := PassportToDynamo(s, now);
            && {PK, SK, CredentialTypeName, Status, SuspensionReason, RevocationReason, Nationality, IssuingCountry, Version} <= item.Keys
            && item[PK] == Str("CRED#" + s.issuerId)
            && item[SK] == Str("METADATA#passport")
            && item[CredentialTypeName] == Str("passport")
            && item[Status] == Str(s.state.status.Value())
            && item[SuspensionReason] == OptStr(s.state.suspensionReason)
            && item[RevocationReason] == OptStr(s.state.revocationReason)
            && item[Nationality] == Str(s.details.nationality)
            && item[IssuingCountry] == Str(s.details.issuingCountry)
            && item[Version] == Int(1)
  {
  }

  /** `UUID(item['issuer_id'])`, kept as the text `str` prints for it. */
  function GetUuid(item: Record, k: Attribute): (r: Result<string, Error>)
    ensures r.Success? <==> k in item && item[k].Str? && Uuids.Parse(item[k].s).Success?
    ensures r.Success? ==> Success(r.value) == Uuids.UuidText(item[k].s)
  {
    var text :- GetStr(item, k);
    Uuids.UuidText(text)
  }

  /** The older `to_domain`: one constructor call; status and reasons are not read. */
  function DriversLicenseToDomain(item: Record): (r: Result<Snapshot, Error>)
    ensures r.Success? ==> r.value.state == L.Initial
    ensures r.Success? ==> && {IssuerId, HolderId, ValidFrom, ValidUntil, VehicleClasses, IssuingProvince} <= item.Keys
                           && item[IssuerId].Str? && Uuids.Parse(item[IssuerId].s).Success?
                           && r.value.details.DriversLicenseDetails?
                           && item[VehicleClasses] == StrList(r.value.details.vehicleClasses)
                           && item[IssuingProvince] == Str(r.value.details.issuingProvince)
  {
    var issuerId :- GetUuid(item, IssuerId);
    var holderId :- GetStr(item, HolderId);
    var validFrom :- GetDate(item, ValidFrom);
    var validUntil :- GetDate(item, ValidUntil);
    var vehicleClasses :- GetStrList(item, VehicleClasses);
    var province :- GetStr(item, IssuingProvince);
    Construct(issuerId, holderId, validFrom, validUntil, DriversLicenseDetails(vehicleClasses, province))
  }

  function PassportToDomain(item: Record): (r: Result<Snapshot, Error>)
    ensures r.Success? ==> r.value.state == L.Initial
    ensures r.Success? ==> && {IssuerId, HolderId, ValidFrom, ValidUntil, Nationality, IssuingCountry} <= item.Keys
                           && item[IssuerId].Str? && Uuids.Parse(item[IssuerId].s).Success?
                           && r.value.details.PassportDetails?
                           && item[Nationality] == Str(r.value.details.nationality)
                           && item[IssuingCountry] == Str(r.value.details.issuingCountry)
  {
    var issuerId :- GetUuid(item, IssuerId);
    var holderId :- GetStr(item, HolderId);
    var validFrom :- GetDate(item, ValidFrom);
    var validUntil :- GetDate(item, ValidUntil);
    var nationality :- GetStr(item, Nationality);
    var country :- GetStr(item, IssuingCountry);
    Construct(issuerId, holderId, validFrom, validUntil, PassportDetails(nationality, country))
  }

  /** A credential as these mappers can store and restore it: a UUID issuer id in printed form, UTC dates. */
  predicate Storable(s: Snapshot) {
    && Uuids.UuidText(s.issuerId) == Success(s.issuerId)
    && s.validFrom.IsUtc() && s.validUntil.IsUtc()
  }

  /** The lookups of the older `to_domain` on the item the older `to_dynamo` writes. */
  lemma ItemLookups(s: Snapshot, item: Record)
    requires Storable(s)
    requires && IssuerId in item && item[IssuerId] == Str(s.issuerId)
             && HolderId in item && item[HolderId] == Str(s.holderId)
             && ValidFrom in item && item[ValidFrom] == Str(IsoFormat(s.validFrom))
             && ValidUntil in item && item[ValidUntil] == Str(IsoFormat(s.validUntil))
    ensures && GetUuid(item, IssuerId) == Success(s.issuerId)
            && GetStr(item, HolderId) == Success(s.holderId)
            && GetDate(item, ValidFrom) == Success(s.validFrom)
            && GetDate(item, ValidUntil) == Success(s.validUntil)
  {
    LookupStr(item, IssuerId, s.issuerId);
    LookupStr(item, HolderId, s.holderId);
    GetDateIsoFormat(item, ValidFrom, s.validFrom);
    GetDateIsoFormat(item, ValidUntil, s.validUntil);
  }

  /** Constructing from a stored credential's own fields gives it back with a fresh state. */
  lemma ConstructFromStored(s: Snapshot)
    requires Storable(s)
    ensures Construct(s.issuerId, s.holderId, s.validFrom, s.validUntil, s.details) == Success(s.(state := L.Initial))
  {
  }

  /**
   * Storing and restoring a license keeps every field but the state: the result is a new
   * ACTIVE credential with no reasons, whatever was stored.
   */
  lemma DriversLicenseRoundTripResetsState(s: Snapshot, now: DateTime)
    requires Storable(s) && s.details.DriversLicenseDetails?
    ensures DriversLicenseToDomain(DriversLicenseToDynamo(s, now)) == Success(s.(state := L.Initial))
  {
    var item := DriversLicenseToDynamo(s, now);
    ItemLookups(s, item);
    LookupStrList(item, VehicleClasses, s.details.vehicleClasses);
    LookupStr(item, IssuingProvince, s.details.issuingProvince);
    ConstructFromStored(s);
  }

  lemma PassportRoundTripResetsState(s: Snapshot, now: DateTime)
    requires Storable(s) && s.details.PassportDetails?
    ensures PassportToDomain(PassportToDynamo(s, now)) == Success(s.(state := L.Initial))
  {
    var item := PassportToDynamo(s, now);
    ItemLookups(s, item);
    LookupStr(item, Nationality, s.details.nationality);
    LookupStr(item, IssuingCountry, s.details.issuingCountry);
    ConstructFromStored(s);
  }

  /** So a suspended or revoked license is written with its status and read back ACTIVE. */
  lemma StoredStatusIsLost(s: Snapshot, now: DateTime)
    requires Storable(s) && s.details.DriversLicenseDetails? && s.state.status != Active
    ensures var item := DriversLicenseToDynamo(s, now);
            && item[Status] != Str("active")
            && DriversLicenseToDomain(item) == Success(s.(state := L.Initial))
  {
    DriversLicenseRoundTripResetsState(s, now);
    DriversLicenseItemShape(s, now);
  }

  /**
   * An issuer id that is not a UUID is refused on the way back: with `UUID`'s own message when
   * it does not strip to 32 characters, with `int`'s when it does.
   */
  lemma NonUuidIssuerRefused(item: Record)
    requires IssuerId in item && item[IssuerId].Str? && Uuids.Parse(item[IssuerId].s).Failure?
    ensures var hex := Uuids.Stripped(item[IssuerId].s);
            var e := if |hex| == 32 then Uuids.InvalidLiteral(hex) else Uuids.BadlyFormed;
            DriversLicenseToDomain(item) == Failure(e) && PassportToDomain(item) == Failure(e)
  {
  }

  /** The mapper `MapperFactory.get_mapper` hands out for each type. */
  datatype Mapper = DriversLicenseMapper | PassportMapper {
    /** `get_type()`. */
    function GetType(): string {
      if DriversLicenseMapper? then "drivers_license" else "passport"
    }
  }

  function GetMapper(t: CredentialType): (m: Mapper)
    ensures ParseCredentialType(m.GetType()) == Some(t)
  {
    match t
    case DriversLicenseType => DriversLicenseMapper
    case PassportType => PassportMapper
  }
}

=== FILE: lifecycle.dfy ===
/**
 * The guarded status state machine shared, line for line, by the two later revisions of the
 * credential base class: ACTIVE, SUSPENDED and REVOKED with a suspension reason and a
 * revocation reason. Each transition either yields the new state or the exception it raises;
 * a raised exception leaves the object as it was, since every check precedes every update.
 */
module Lifecycle {
  import opened Wrappers
  import opened Enums
  import opened Errors
  import opened DateTimes

  datatype State = State(status: CredentialStatus, suspensionReason: Option<string>, revocationReason: Option<string>)

  /** What every constructor leaves behind. */
  const Initial := State(Active, None, None)

  /** Python's `not reason` on an optional string. */
  predicate Blank(reason: Option<string>) {
    reason.None? || reason.value == ""
  }

  const EmptySuspension := InvalidCredentialState("Suspension reason cannot be empty")
  const SuspendRevoked := InvalidCredentialState("Cannot suspend a revoked credential")
  const ReinstateRevoked := InvalidCredentialState("Cannot reinstate a revoked credential")
  const EmptyRevocation := InvalidCredentialState("Revocation reason cannot be empty")

  /**
   * The date checks both later revisions of `__init__` make, in their order: both dates must carry a timezone, and once
   * both are in UTC `valid_until` must not precede `valid_from` (equal instants pass).
   */
  function WindowError(validFrom: DateTime, validUntil: DateTime): (r: Option<Error>)
    ensures r.None? <==> validFrom.IsAware() && validUntil.IsAware() && validFrom.ticks <= validUntil.ticks
    ensures !validFrom.IsAware() ==> r == Some(ValueError("valid_from must be timezone-aware"))
    ensures validFrom.IsAware() && !validUntil.IsAware() ==> r == Some(ValueError("valid_until must be timezone-aware"))
    ensures validFrom.IsAware() && validUntil.IsAware() && validUntil.ticks < validFrom.ticks ==>
              r == Some(InvalidCredentialState("valid_until must be after valid_from"))
  {
    if !validFrom.IsAware() then Some(ValueError("valid_from must be timezone-aware"))
    else if !validUntil.IsAware() then Some(ValueError("valid_until must be timezone-aware"))
    else if AsUtc(validUntil).ticks < AsUtc(validFrom).ticks then
      Some(InvalidCredentialState("valid_until must be after valid_from"))
    else None
  }

  function Suspend(s: State, reason: Option<string>): (r: Result<State, Error>)
    ensures r.Success? <==> !Blank(reason) && s.status != Revoked
    ensures r.Success? ==> r.value == State(Suspended, reason, s.revocationReason)
    // the empty-reason check comes first, so it wins on a revoked credential too
    ensures Blank(reason) ==> r == Failure(EmptySuspension)
    ensures !Blank(reason) && s.status == Revoked ==> r == Failure(SuspendRevoked)
  {
    if Blank(reason) then Failure(EmptySuspension)
    else if s.status == Revoked then Failure(SuspendRevoked)
    else Success(s.(status := Suspended, suspensionReason := reason))
  }

  function Reinstate(s: State): (r: Result<State, Error>)
    ensures r.Success? <==> s.status != Revoked
    ensures r.Success? ==> r.value == State(Active, None, s.revocationReason)
    ensures r.Failure? ==> r.error == ReinstateRevoked
  {
    if s.status == Revoked then Failure(ReinstateRevoked)
    else Success(s.(status := Active, suspensionReason := None))
  }

  function Revoke(s: State, reason: Option<string>): (r: Result<State, Error>)
    ensures r.Success? <==> !Blank(reason)
    ensures r.Success? ==> r.value == State(Revoked, s.suspensionReason, reason)
    ensures r.Failure? ==> r.error == EmptyRevocation
  {
    if Blank(reason) then Failure(EmptyRevocation)
    else Success(s.(status := Revoked, revocationReason := reason))
  }

  /** `update_status`: the target status picks the transition; the reason is dropped for ACTIVE. */
  function UpdateStatus(s: State, target: CredentialStatus, reason: Option<string>): (r: Result<State, Error>)
    ensures target == Suspended ==> r == Suspend(s, reason)
    ensures target == Revoked ==> r == Revoke(s, reason)
    ensures target == Active ==> r == Reinstate(s)
  {
    match target
    case Suspended => Suspend(s, reason)
    case Revoked => Revoke(s, reason)
    case Active => Reinstate(s)
  }

  /** The state a transition leaves: the new state, or the old one when it raised. */
  function After(s: State, r: Result<State, Error>): State {
    if r.Success? then r.value else s
  }

  /**
   * The states the transitions can reach from `Initial`: an active credential carries no
   * reason, a suspended one a non-empty suspension reason and no revocation reason, and a
   * revoked one a non-empty revocation reason.
   */
  predicate Consistent(s: State) {
    && (s.status == Active ==> s.suspensionReason.None? && s.revocationReason.None?)
    && (s.status == Suspended ==> !Blank(s.suspensionReason) && s.revocationReason.None?)
    && (s.status == Revoked ==> !Blank(s.revocationReason))
  }

  lemma UpdateStatusKeepsConsistent(s: State, target: CredentialStatus, reason: Option<string>)
    requires Consistent(s)
    ensures Consistent(After(s, UpdateStatus(s, target, reason)))
  {
  }

  datatype Request = Request(target: CredentialStatus, reason: Option<string>)

  /** A series of `update_status` calls, each one's exception caught by its caller. */
  function Run(s: State, requests: seq<Request>): State
    decreases |requests|
  {
    if requests == [] then s
    else Run(After(s, UpdateStatus(s, requests[0].target, requests[0].reason)), requests[1..])
  }

  /** Every state reachable from the initial one through the state machine is consistent. */
  lemma {:induction false} RunKeepsConsistent(s: State, requests: seq<Request>)
    requires Consistent(s)
    ensures Consistent(Run(s, requests))
    decreases |requests|
  {
    if requests != [] {
      var next := After(s, UpdateStatus(s, requests[0].target, requests[0].reason));
      UpdateStatusKeepsConsistent(s, requests[0].target, requests[0].reason);
      RunKeepsConsistent(next, requests[1..]);
    }
  }

  /** REVOKED is terminal: no series of requests leaves it, and the revocation reason stays non-empty. */
  lemma {:induction false} RevokedIsTerminal(s: State, requests: seq<Request>)
    requires s.status == Revoked && !Blank(s.revocationReason)
    ensures Run(s, requests).status == Revoked
    ensures !Blank(Run(s, requests).revocationReason)
    decreases |requests|
  {
    if requests != [] {
      var next := After(s, UpdateStatus(s, requests[0].target, requests[0].reason));
      assert next.status == Revoked && !Blank(next.revocationReason);
      RevokedIsTerminal(next, requests[1..]);
    }
  }

  /** Suspending, reinstating and suspending again leaves only the latest reason. */
  lemma SuspendReinstateSuspend(s: State, r1: string, r2: string)
    requires s.status != Revoked && r1 != "" && r2 != ""
    ensures var a := Suspend(s, Some(r1)).value;
            var b := Reinstate(a).value;
            Suspend(b, Some(r2)) == Success(State(Suspended, Some(r2), s.revocationReason))
  {
  }

  /** Reinstating an active credential changes nothing. */
  lemma ReinstateActiveIsIdentity(s: State)
    requires s.status == Active && s.suspensionReason.None?
    ensures Reinstate(s) == Success(s)
  {
  }

  /**
   * The `update_status` series SUSPENDED with `r`, ACTIVE with no reason, REVOKED with `r2`
   * from a new credential ends revoked with `r2` and no suspension reason.
   */
  lemma SuspendReinstateRevoke(r: string, r2: string)
    requires r != "" && r2 != ""
    ensures Run(Initial, [Request(Suspended, Some(r)), Request(Active, None), Request(Revoked, Some(r2))])
         == State(Revoked, None, Some(r2))
  {
    var requests := [Request(Suspended, Some(r)), Request(Active, None), Request(Revoked, Some(r2))];
    var s1 := State(Suspended, Some(r), None);
    var s2 := State(Active, None, None);
    assert requests[1..] == [Request(Active, None), Request(Revoked, Some(r2))];
    assert requests[1..][1..] == [Request(Revoked, Some(r2))];
    assert Run(Initial, requests) == Run(s1, requests[1..]);
    assert Run(s1, requests[1..]) == Run(s2, requests[1..][1..]);
  }
}

=== FILE: persistence_mappers.dfy ===
/**
 * The storage mappers of the latest credential classes. `to_dynamo` flattens a credential
 * into an item keyed by a partition key `CRED#...` and a sort key `METADATA#<type>`;
 * `to_domain` rebuilds it in two phases: construct (which always yields ACTIVE with no
 * reasons), then overwrite the reasons and the status through the setters, bypassing the
 * state machine. The bookkeeping timestamps are the `now` parameter.
 */
module PersistenceMappers {
  import opened Wrappers
  import opened Enums
  import opened Errors
  import opened DateTimes
  import opened Records
  import L = Lifecycle
  import opened LatestCredential
  import LatestVariants

  const ItemVersion := 1

  /** The partition key of a credential issued by `issuerId` in `country`. */
  function PartitionKey(country: string, issuerId: string): string {
    "CRED#" + country + "#" + issuerId
  }

  /** `METADATA#` followed by the type's value. */
  function SortKey(t: CredentialType): string {
    match t
    case DriversLicenseType => "METADATA#drivers_license"
    case PassportType => "METADATA#passport"
  }

  /** The country sits at offset 5, closed by the separator. */
  lemma PartitionKeyShape(country: string, issuerId: string)
    ensures PartitionKey(country, issuerId)[5 + |country|] == '#'
    ensures forall j :: 0 <= j < |country| ==> PartitionKey(country, issuerId)[5 + j] == country[j]
  {
  }

  /** Distinct (country, issuer) pairs get distinct partition keys while no country contains `#`. */
  lemma PartitionKeyInjective(c1: string, i1: string, c2: string, i2: string)
    requires '#' !in c1 && '#' !in c2
    requires PartitionKey(c1, i1) == PartitionKey(c2, i2)
    ensures c1 == c2 && i1 == i2
  {
    var k1, k2 := PartitionKey(c1, i1), PartitionKey(c2, i2);
    PartitionKeyShape(c1, i1);
    PartitionKeyShape(c2, i2);
    if |c1| < |c2| {
      assert false;
    } else if |c2| < |c1| {
      assert false;
    }
    assert c1 == k1[5..5 + |c1|];
    assert i1 == k1[6 + |c1|..];
  }

  /** The attributes `to_domain` reads from a passport item. */
  const PassportFields := {IssuerId, HolderId, ValidFrom, ValidUntil, Nationality, IssuingCountry,
                           SuspensionReason, RevocationReason, Status}

  const DriversLicenseFields := {IssuerId, HolderId, ValidFrom, ValidUntil, VehicleClasses,
                                 IssuingCountry, IssuingRegion, SuspensionReason, RevocationReason, Status}

  /** The attributes both mappers write whatever the type. */
  function CommonItem(t: CredentialType, issuerId: string, holderId: string, s: Snapshot, now: DateTime): Record {
    map[PK := Str(PartitionKey(s.issuingCountry, issuerId)),
        SK := Str(SortKey(t)),
        CredentialTypeName := Str(t.Value()),
        IssuerId := Str(issuerId),
        HolderId := Str(holderId),
        ValidFrom := Str(IsoFormat(s.validFrom)),
        ValidUntil := Str(IsoFormat(s.validUntil)),
        Status := Str(s.state.status.Value()),
        SuspensionReason := OptStr(s.state.suspensionReason),
        RevocationReason := OptStr(s.state.revocationReason),
        CreatedAt := Str(IsoFormat(now)),
        UpdatedAt := Str(IsoFormat(now)),
        Version := Int(ItemVersion)]
  }

  /** `PassportMapper.to_dynamo`; a key without issuer and holder has no `issuer_id` to read. */
  function PassportToDynamo(s: Snapshot, now: DateTime): (r: Result<Record, Error>)
    requires s.details.PassportDetails?
    ensures r.Success? <==> s.key.IssuerHolder?
    ensures r.Failure? ==> r.error == AttributeError("issuer_id")
  {
    if !s.key.IssuerHolder? then Failure(AttributeError("issuer_id"))
    else Success(CommonItem(PassportType, s.key.issuerId, s.key.holderId, s, now)
            [Nationality := Str(s.details.nationality)]
            [IssuingCountry := Str(s.issuingCountry)])
  }

  /** The key and the attributes `to_dynamo` writes. */
  lemma PassportItemShape(s: Snapshot, now: DateTime)
    requires s.key.IssuerHolder? && s.details.PassportDetails?
    ensures PassportToDynamo(s, now).Success?
    ensures var item := PassportToDynamo(s, now).value;
            && {PK, SK, CredentialTypeName, Status, IssuingCountry, Version} <= item.Keys
            && item[PK] == Str("CRED#" + s.issuingCountry + "#" + s.key.issuerId)
            && item[SK] == Str("METADATA#passport")
            && item[CredentialTypeName] == Str("passport")
            && item[Status] == Str(s.state.status.Value())
            && SuspensionReason in item && RevocationReason in item
            && item[SuspensionReason] == OptStr(s.state.suspensionReason)
            && item[RevocationReason] == OptStr(s.state.revocationReason)
            && Nationality in item && item[Nationality] == Str(s.details.nationality)
            && item[IssuingCountry] == Str(s.issuingCountry)
            && item[Version] == Int(1)
  {
  }

  /**
   * `PassportMapper.to_domain` as a value: the lookups in argument order, the construction,
   * then the two reasons and the status taken verbatim from the item.
   */
  function PassportToDomainSpec(item: Record): (r: Result<Snapshot, Error>)
    ensures r.Success? ==> PassportFields <= item.Keys
    ensures r.Success? ==> && item[Status] == Str(r.value.state.status.Value())
                           && item[SuspensionReason] == OptStr(r.value.state.suspensionReason)
                           && item[RevocationReason] == OptStr(r.value.state.revocationReason)
                           && r.value.details.PassportDetails?
                           && item[Nationality] == Str(r.value.details.nationality)
  {
    var issuerId :- GetStr(item, IssuerId);
    var holderId :- GetStr(item, HolderId);
    var validFrom :- GetDate(item, ValidFrom);
    var validUntil :- GetDate(item, ValidUntil);
    var nationality :- GetStr(item, Nationality);
    var country :- GetStr(item, IssuingCountry);
    var p :- LatestVariants.NewPassport(issuerId, holderId, validFrom, validUntil, nationality, country);
    var suspensionReason :- GetOptStr(item, SuspensionReason);
    var revocationReason :- GetOptStr(item, RevocationReason);
    var status :- GetStatus(item, Status);
    Success(p.(state := L.State(status, suspensionReason, revocationReason)))
  }

  /** `PassportMapper.to_domain`: builds the object, then applies the three setters. */
  method PassportToDomain(item: Record) returns (r: Result<Credential, Error>)
    ensures var spec := PassportToDomainSpec(item);
            && (r.Success? <==> spec.Success?)
            && (r.Failure? ==> r.error == spec.error)
            && (r.Success? ==> fresh(r.value) && r.value.Snap() == spec.value)
  {
    var issuerId :- GetStr(item, IssuerId);
    var holderId :- GetStr(item, HolderId);
    var validFrom :- GetDate(item, ValidFrom);
    var validUntil :- GetDate(item, ValidUntil);
    var nationality :- GetStr(item, Nationality);
    var country :- GetStr(item, IssuingCountry);
    var c :- LatestVariants.CreatePassport(issuerId, holderId, validFrom, validUntil, nationality, country);
    var suspensionReason :- GetOptStr(item, SuspensionReason);
    c.SetSuspensionReason(suspensionReason);
    var revocationReason :- GetOptStr(item, RevocationReason);
    c.SetRevocationReason(revocationReason);
    var status :- GetStatus(item, Status);
    c.SetStatus(status);
    r := Success(c);
  }

  /** What the identity lookups of `to_domain` find in the item `to_dynamo` writes. */
  lemma PassportIdentityLookups(s: Snapshot, now: DateTime)
    requires WellFormed(s) && s.key.IssuerHolder? && s.details.PassportDetails?
    ensures PassportToDynamo(s, now).Success?
    ensures var item := PassportToDynamo(s, now).value;
            && GetStr(item, IssuerId) == Success(s.key.issuerId)
            && GetStr(item, HolderId) == Success(s.key.holderId)
            && GetStr(item, Nationality) == Success(s.details.nationality)
            && GetStr(item, IssuingCountry) == Success(s.issuingCountry)
  {
  }

  /** The dates read back from their `isoformat` text. */
  lemma PassportDateLookups(s: Snapshot, now: DateTime)
    requires WellFormed(s) && s.key.IssuerHolder? && s.details.PassportDetails?
    ensures PassportToDynamo(s, now).Success?
    ensures var item := PassportToDynamo(s, now).value;
            && GetDate(item, ValidFrom) == Success(s.validFrom)
            && GetDate(item, ValidUntil) == Success(s.validUntil)
  {
    var item := PassportToDynamo(s, now).value;
    GetDateIsoFormat(item, ValidFrom, s.validFrom);
    GetDateIsoFormat(item, ValidUntil, s.validUntil);
  }

  /** The status and the reasons read back as stored. */
  lemma PassportStateLookups(s: Snapshot, now: DateTime)
    requires WellFormed(s) && s.key.IssuerHolder? && s.details.PassportDetails?
    ensures PassportToDynamo(s, now).Success?
    ensures var item := PassportToDynamo(s, now).value;
            && GetOptStr(item, SuspensionReason) == Success(s.state.suspensionReason)
            && GetOptStr(item, RevocationReason) == Success(s.state.revocationReason)
            && GetStatus(item, Status) == Success(s.state.status)
  {
    ParseStatusValue(s.state.status);
  }

  /** Storing a passport and reading it back gives the same passport, status and reasons included. */
  lemma PassportRoundTrip(s: Snapshot, now: DateTime)
    requires WellFormed(s) && s.key.IssuerHolder? && s.details.PassportDetails?
    ensures PassportToDynamo(s, now).Success?
    ensures PassportToDomainSpec(PassportToDynamo(s, now).value) == Success(s)
  {
    PassportIdentityLookups(s, now);
    PassportDateLookups(s, now);
    PassportStateLookups(s, now);
    ConstructFromStored(s);
  }

  /** `DriversLicenseMapper.to_dynamo` with the country in the key and the region the class holds. */
  function DriversLicenseToDynamo(s: Snapshot, now: DateTime): (r: Result<Record, Error>)
    requires s.details.DriversLicenseDetails?
    ensures r.Success? <==> s.key.IssuerHolder?
    ensures r.Failure? ==> r.error == AttributeError("issuer_id")
  {
    if !s.key.IssuerHolder? then Failure(AttributeError("issuer_id"))
    else Success(CommonItem(DriversLicenseType, s.key.issuerId, s.key.holderId, s, now)
            [VehicleClasses := StrList(s.details.vehicleClasses)]
            [IssuingCountry := Str(s.issuingCountry)]
            [IssuingRegion := Str(s.details.issuingRegion)])
  }

  /** The key and the attributes `to_dynamo` writes. */
  lemma DriversLicenseItemShape(s: Snapshot, now: DateTime)
    requires s.key.IssuerHolder? && s.details.DriversLicenseDetails?
    ensures DriversLicenseToDynamo(s, now).Success?
    ensures var item := DriversLicenseToDynamo(s, now).value;
            && {PK, SK, CredentialTypeName, Status, IssuingCountry, Version} <= item.Keys
            && item[PK] == Str("CRED#" + s.issuingCountry + "#" + s.key.issuerId)
            && item[SK] == Str("METADATA#drivers_license")
            && item[CredentialTypeName] == Str("drivers_license")
            && item[Status] == Str(s.state.status.Value())
            && SuspensionReason in item && RevocationReason in item
            && item[SuspensionReason] == OptStr(s.state.suspensionReason)
            && item[RevocationReason] == OptStr(s.state.revocationReason)
            && VehicleClasses in item && IssuingRegion in item
            && item[VehicleClasses] == StrList(s.details.vehicleClasses)
            && item[IssuingCountry] == Str(s.issuingCountry)
            && item[IssuingRegion] == Str(s.details.issuingRegion)
            && item[Version] == Int(1)
  {
  }

  function DriversLicenseToDomainSpec(item: Record): (r: Result<Snapshot, Error>)
    ensures r.Success? ==> DriversLicenseFields <= item.Keys
    ensures r.Success? ==> && item[Status] == Str(r.value.state.status.Value())
                           && item[SuspensionReason] == OptStr(r.value.state.suspensionReason)
                           && item[RevocationReason] == OptStr(r.value.state.revocationReason)
                           && r.value.details.DriversLicenseDetails?
                           && item[VehicleClasses] == StrList(r.value.details.vehicleClasses)
                           && item[IssuingRegion] == Str(r.value.details.issuingRegion)
  {
    var issuerId :- GetStr(item, IssuerId);
    var holderId :- GetStr(item, HolderId);
    var validFrom :- GetDate(item, ValidFrom);
    var validUntil :- GetDate(item, ValidUntil);
    var vehicleClasses :- GetStrList(item, VehicleClasses);
    var country :- GetStr(item, IssuingCountry);
    var region :- GetStr(item, IssuingRegion);
    var d :- LatestVariants.NewDriversLicense(issuerId, holderId, validFrom, validUntil, vehicleClasses, country, region);
    var suspensionReason :- GetOptStr(item, SuspensionReason);
    var revocationReason :- GetOptStr(item, RevocationReason);
    var status :- GetStatus(item, Status);
    Success(d.(state := L.State(status, suspensionReason, revocationReason)))
  }

  method DriversLicenseToDomain(item: Record) returns (r: Result<Credential, Error>)
    ensures var spec := DriversLicenseToDomainSpec(item);
            && (r.Success? <==> spec.Success?)
            && (r.Failure? ==> r.error == spec.error)
            && (r.Success? ==> fresh(r.value) && r.value.Snap() == spec.value)
  {
    var issuerId :- GetStr(item, IssuerId);
    var holderId :- GetStr(item, HolderId);
    var validFrom :- GetDate(item, ValidFrom);
    var validUntil :- GetDate(item, ValidUntil);
    var vehicleClasses :- GetStrList(item, VehicleClasses);
    var country :- GetStr(item, IssuingCountry);
    var region :- GetStr(item, IssuingRegion);
    var c :- LatestVariants.CreateDriversLicense(issuerId, holderId, validFrom, validUntil, vehicleClasses, country, region);
    var suspensionReason :- GetOptStr(item, SuspensionReason);
    c.SetSuspensionReason(suspensionReason);
    var revocationReason :- GetOptStr(item, RevocationReason);
    c.SetRevocationReason(revocationReason);
    var status :- GetStatus(item, Status);
    c.SetStatus(status);
    r := Success(c);
  }

  /** What the identity lookups of `to_domain` find in the item `to_dynamo` writes. */
  lemma DriversLicenseIdentityLookups(s: Snapshot, now: DateTime)
    requires WellFormed(s) && s.key.IssuerHolder? && s.details.DriversLicenseDetails?
    ensures DriversLicenseToDynamo(s, now).Success?
    ensures var item := DriversLicenseToDynamo(s, now).value;
            && GetStr(item, IssuerId) == Success(s.key.issuerId)
            && GetStr(item, HolderId) == Success(s.key.holderId)
            && GetStrList(item, VehicleClasses) == Success(s.details.vehicleClasses)
            && GetStr(item, IssuingCountry) == Success(s.issuingCountry)
            && GetStr(item, IssuingRegion) == Success(s.details.issuingRegion)
  {
  }

  /** The dates read back from their `isoformat` text. */
  lemma DriversLicenseDateLookups(s: Snapshot, now: DateTime)
    requires WellFormed(s) && s.key.IssuerHolder? && s.details.DriversLicenseDetails?
    ensures DriversLicenseToDynamo(s, now).Success?
    ensures var item := DriversLicenseToDynamo(s, now).value;
            && GetDate(item, ValidFrom) == Success(s.validFrom)
            && GetDate(item, ValidUntil) == Success(s.validUntil)
  {
    var item := DriversLicenseToDynamo(s, now).value;
    GetDateIsoFormat(item, ValidFrom, s.validFrom);
    GetDateIsoFormat(item, ValidUntil, s.validUntil);
  }

  /** The status and the reasons read back as stored. */
  lemma DriversLicenseStateLookups(s: Snapshot, now: DateTime)
    requires WellFormed(s) && s.key.IssuerHolder? && s.details.DriversLicenseDetails?
    ensures DriversLicenseToDynamo(s, now).Success?
    ensures var item := DriversLicenseToDynamo(s, now).value;
            && GetOptStr(item, SuspensionReason) == Success(s.state.suspensionReason)
            && GetOptStr(item, RevocationReason) == Success(s.state.revocationReason)
            && GetStatus(item, Status) == Success(s.state.status)
  {
    ParseStatusValue(s.state.status);
  }

  /** Storing a license and reading it back gives the same license, status and reasons included. */
  lemma DriversLicenseRoundTrip(s: Snapshot, now: DateTime)
    requires WellFormed(s) && s.key.IssuerHolder? && s.details.DriversLicenseDetails?
    ensures DriversLicenseToDynamo(s, now).Success?
    ensures DriversLicenseToDomainSpec(DriversLicenseToDynamo(s, now).value) == Success(s)
  {
    DriversLicenseIdentityLookups(s, now);
    DriversLicenseDateLookups(s, now);
    DriversLicenseStateLookups(s, now);
    ConstructFromStored(s);
  }

  /** The partition key the driver's-license mapper writes: the issuer alone. */
  function DriversLicensePartitionKeyAsWritten(issuerId: string): string {
    "CRED#" + issuerId
  }

  /**
   * `DriversLicenseMapper.to_dynamo` as written, on the latest driver's license: the item
   * would carry `issuing_province`, an attribute the class does not have (it holds
   * `issuing_region`), so building the item raises AttributeError.
   */
  function DriversLicenseToDynamoAsWritten(s: Snapshot, now: DateTime): (r: Result<Record, Error>)
    requires s.details.DriversLicenseDetails?
    ensures r.Failure?
    ensures s.key.IssuerHolder? ==> r.error == AttributeError("issuing_province")
  {
    if !s.key.IssuerHolder? then Failure(AttributeError("issuer_id"))
    else Failure(AttributeError("issuing_province"))
  }

  /**
   * `DriversLicenseMapper.to_domain` as written: every item is refused, either by a lookup or
   * by the call. The call raises the abstract-class TypeError, which comes before `__init__`
   * could refuse the `issuing_province` keyword.
   */
  function DriversLicenseToDomainAsWritten(item: Record): (r: Result<Snapshot, Error>)
    ensures r.Failure?
    ensures {IssuerId, HolderId, VehicleClasses, IssuingProvince} <= item.Keys
            && item[IssuerId].Str? && item[HolderId].Str?
            && item[VehicleClasses].StrList? && item[IssuingProvince].Str?
            && GetDate(item, ValidFrom).Success? && GetDate(item, ValidUntil).Success?
            ==> r.error == LatestVariants.DriversLicenseAbstractError
  {
    var issuerId :- GetStr(item, IssuerId);
    var holderId :- GetStr(item, HolderId);
    var validFrom :- GetDate(item, ValidFrom);
    var validUntil :- GetDate(item, ValidUntil);
    var vehicleClasses :- GetStrList(item, VehicleClasses);
    var province :- GetStr(item, IssuingProvince);
    Failure(LatestVariants.DriversLicenseAbstractError)
  }

  /**
   * The written key drops the country: two licenses from one issuer in two countries share a
   * partition key, where the corrected key tells them apart.
   */
  lemma DriversLicenseKeyAsWrittenCollides(s: Snapshot, t: Snapshot)
    requires s.key.IssuerHolder? && t.key.IssuerHolder? && s.key.issuerId == t.key.issuerId
    requires '#' !in s.issuingCountry && '#' !in t.issuingCountry && s.issuingCountry != t.issuingCountry
    ensures DriversLicensePartitionKeyAsWritten(s.key.issuerId) == DriversLicensePartitionKeyAsWritten(t.key.issuerId)
    ensures PartitionKey(s.issuingCountry, s.key.issuerId) != PartitionKey(t.issuingCountry, t.key.issuerId)
  {
    if PartitionKey(s.issuingCountry, s.key.issuerId) == PartitionKey(t.issuingCountry, t.key.issuerId) {
      PartitionKeyInjective(s.issuingCountry, s.key.issuerId, t.issuingCountry, t.key.issuerId);
    }
  }

  /** On a license the corrected mapper stores and restores, the written one raises both ways. */
  lemma DriversLicenseMapperAsWrittenFails(s: Snapshot, now: DateTime)
    requires WellFormed(s) && s.key.IssuerHolder? && s.details.DriversLicenseDetails?
    ensures DriversLicenseToDynamoAsWritten(s, now) == Failure(AttributeError("issuing_province"))
    ensures DriversLicenseToDomainAsWritten(DriversLicenseToDynamo(s, now).value).Failure?
    ensures DriversLicenseToDomainSpec(DriversLicenseToDynamo(s, now).value) == Success(s)
  {
    DriversLicenseRoundTrip(s, now);
  }

  /** The mapper `CredentialMapperProvider.get_mapper` hands out for each type. */
  datatype Mapper = DriversLicenseMapper | PassportMapper {
    function CredentialType(): CredentialType {
      if DriversLicenseMapper? then DriversLicenseType else PassportType
    }

    function ToDynamo(s: Snapshot, now: DateTime): Result<Record, Error>
      requires s.details.CredentialType() == CredentialType()
    {
      if DriversLicenseMapper? then DriversLicenseToDynamo(s, now) else PassportToDynamo(s, now)
    }

    function ToDomain(item: Record): Result<Snapshot, Error> {
      if DriversLicenseMapper? then DriversLicenseToDomainSpec(item) else PassportToDomainSpec(item)
    }
  }

  /** `get_mapper`: a match over the two credential types, one fresh stateless mapper each. */
  function GetMapper(t: CredentialType): (m: Mapper)
    ensures m.CredentialType() == t
  {
    match t
    case DriversLicenseType => DriversLicenseMapper
    case PassportType => PassportMapper
  }

  /**
   * The mapper chosen for a type stores a credential of that type under that type's sort
   * key and `credential_type`, and reads it back unchanged.
   */
  lemma GetMapperRoundTrip(t: CredentialType, s: Snapshot, now: DateTime)
    requires WellFormed(s) && s.key.IssuerHolder? && s.details.CredentialType() == t
    ensures var item := GetMapper(t).ToDynamo(s, now);
            && item.Success?
            && item.value[CredentialTypeName] == Str(t.Value())
            && item.value[SK] == Str(SortKey(t))
            && GetMapper(t).ToDomain(item.value) == Success(s)
  {
    if t == DriversLicenseType {
      DriversLicenseItemShape(s, now);
      DriversLicenseRoundTrip(s, now);
    } else {
      PassportItemShape(s, now);
      PassportRoundTrip(s, now);
    }
  }
}

=== FILE: records.dfy ===
/**
 * The flat item a storage mapper writes and reads: a dictionary from attribute names to
 * strings, string lists, integers or null, and the lookups `to_domain` makes on it.
 */
module Records {
  import opened Wrappers
  import opened Enums
  import opened Errors
  import opened DateTimes

  datatype Value = Str(s: string) | StrList(items: seq<string>) | Int(i: int) | Null

  /** The attribute names the mappers write and read. */
  datatype Attribute =
    | PK | SK | CredentialTypeName | IssuerId | HolderId | ValidFrom | ValidUntil | Status
    | VehicleClasses | IssuingProvince | IssuingRegion | IssuingCountry | Nationality
    | SuspensionReason | RevocationReason | CreatedAt | UpdatedAt | Version
  {
    function Name(): string {
      match this
      case PK => "PK"
      case SK => "SK"
      case CredentialTypeName => "credential_type"
      case IssuerId => "issuer_id"
      case HolderId => "holder_id"
      case ValidFrom => "valid_from"
      case ValidUntil => "valid_until"
      case Status => "status"
      case VehicleClasses => "vehicle_classes"
      case IssuingProvince => "issuing_province"
      case IssuingRegion => "issuing_region"
      case IssuingCountry => "issuing_country"
      case Nationality => "nationality"
      case SuspensionReason => "suspension_reason"
      case RevocationReason => "revocation_reason"
      case CreatedAt => "created_at"
      case UpdatedAt => "updated_at"
      case Version => "version"
    }
  }

  /** An item, keyed by attribute; other attributes an item may hold are never read and not represented. */
  type Record = map<Attribute, Value>

  /** An optional string as the item stores it: the string, or null. */
  function OptStr(o: Option<string>): Value {
    if o.Some? then Str(o.value) else Null
  }

  /** `item[k]`: KeyError when the attribute is absent. */
  function Get(item: Record, k: Attribute): (r: Result<Value, Error>)
    ensures r.Success? <==> k in item
    ensures r.Success? ==> r.value == item[k]
    ensures r.Failure? ==> r.error == KeyError(k.Name())
  {
    if k in item then Success(item[k]) else Failure(KeyError(k.Name()))
  }

  /**
   * The typed lookups refuse a present value of the wrong kind with this error. Python's
   * `item[k]` hands such a value on to the constructor unchecked; the model's credential
   * fields are typed, so it refuses the item here instead.
   */
  const WrongType := TypeError("unexpected attribute type")

  function GetStr(item: Record, k: Attribute): (r: Result<string, Error>)
    ensures r.Success? <==> k in item && item[k].Str?
    ensures r.Success? ==> item[k] == Str(r.value)
    ensures k !in item ==> r == Failure(KeyError(k.Name()))
  {
    var v :- Get(item, k);
    if v.Str? then Success(v.s) else Failure(WrongType)
  }

  function GetStrList(item: Record, k: Attribute): (r: Result<seq<string>, Error>)
    ensures r.Success? <==> k in item && item[k].StrList?
    ensures r.Success? ==> item[k] == StrList(r.value)
    ensures k !in item ==> r == Failure(KeyError(k.Name()))
  {
    var v :- Get(item, k);
    if v.StrList? then Success(v.items) else Failure(WrongType)
  }

  /** A reason attribute: the string, or null for no reason. */
  function GetOptStr(item: Record, k: Attribute): (r: Result<Option<string>, Error>)
    ensures r.Success? <==> k in item && (item[k].Str? || item[k].Null?)
    ensures r.Success? ==> item[k] == OptStr(r.value)
    ensures k !in item ==> r == Failure(KeyError(k.Name()))
  {
    var v :- Get(item, k);
    match v
    case Str(s) => Success(Some(s))
    case Null => Success(None)
    case _ => Failure(WrongType)
  }

  /** `datetime.fromisoformat(item[k])`. */
  function GetDate(item: Record, k: Attribute): (r: Result<DateTime, Error>)
    ensures r.Success? <==> k in item && item[k].Str? && FromIsoFormat(item[k].s).Some?
    ensures r.Success? ==> Some(r.value) == FromIsoFormat(item[k].s)
    ensures k !in item ==> r == Failure(KeyError(k.Name()))
  {
    var v :- Get(item, k);
    if !v.Str? then Failure(TypeError("fromisoformat: argument must be str"))
    else ParseIsoDate(v.s)
  }

  /** `CredentialStatus(item[k])`: ValueError for anything but one of the three status strings. */
  function GetStatus(item: Record, k: Attribute): (r: Result<CredentialStatus, Error>)
    ensures r.Success? <==> k in item && item[k].Str? && ParseStatus(item[k].s).Some?
    ensures r.Success? ==> item[k] == Str(r.value.Value())
    ensures k !in item ==> r == Failure(KeyError(k.Name()))
  {
    var v :- Get(item, k);
    if !v.Str? then Failure(ValueError("value is not a valid CredentialStatus"))
    else match ParseStatus(v.s)
      case None => Failure(ValueError("'" + v.s + "' is not a valid CredentialStatus"))
      case Some(st) => Success(st)
  }

  /** A date stored as its `isoformat` text reads back as that date. */
  lemma GetDateIsoFormat(item: Record, k: Attribute, d: DateTime)
    requires k in item && item[k] == Str(IsoFormat(d))
    ensures GetDate(item, k) == Success(d)
  {
    ParseIsoFormat(d);
  }

  lemma LookupStr(item: Record, k: Attribute, v: string)
    requires k in item && item[k] == Str(v)
    ensures GetStr(item, k) == Success(v)
  {
  }

  lemma LookupStrList(item: Record, k: Attribute, v: seq<string>)
    requires k in item && item[k] == StrList(v)
    ensures GetStrList(item, k) == Success(v)
  {
  }

  lemma LookupOptStr(item: Record, k: Attribute, v: Option<string>)
    requires k in item && item[k] == OptStr(v)
    ensures GetOptStr(item, k) == Success(v)
  {
  }

  lemma LookupStatus(item: Record, k: Attribute, v: CredentialStatus)
    requires k in item && item[k] == Str(v.Value())
    ensures GetStatus(item, k) == Success(v)
  {
    ParseStatusValue(v);
  }
}

=== FILE: rest_assemblers.dfy ===
/**
 * The assemblers of the `credential_id` REST package, between the latest credential classes
 * and their DTOs. `to_dto` projects every field, dates as `isoformat` text and the status as
 * its value; `to_domain` validates the body as the DTO, parses the dates and constructs a new
 * credential, so the status and reasons of the body are never read.
 */
module RestAssemblers {
  import opened Wrappers
  import opened Enums
  import opened Errors
  import opened DateTimes
  import opened Wire
  import opened Dtos
  import L = Lifecycle
  import opened LatestCredential
  import LatestVariants
  import Text

  /** `except ValueError as e: raise InvalidCredentialDataException("format", str(e))`. */
  function FormatError(e: Error): Error {
    if e.ValueError? then InvalidCredentialData("format", e.Message()) else e
  }

  /** `except Exception as e`, as the passport `to_dto` writes it. */
  function ConversionError(e: Error): Error {
    InvalidCredentialData("conversion", "Failed to write the passport: " + e.Message())
  }

  /** `_to_specific_dto`: every validation failure comes out as a "format" error. */
  function DriversLicenseSpecificDto(p: Payload): (r: Result<RestDriversLicenseDto, Error>)
    ensures r.Success? <==> ParseRestDriversLicense(p).Success?
    ensures r.Success? ==> r.value == ParseRestDriversLicense(p).value
    ensures r.Failure? ==> r.error.InvalidCredentialData? && r.error.field == "format"
  {
    match ParseRestDriversLicense(p)
    case Success(d) => Success(d)
    case Failure(e) => Failure(FormatError(e))
  }

  /**
   * `to_dto`: reading `credential_id` off a license keyed by issuer and holder raises
   * AttributeError; otherwise every field is carried, the dates as text that parses back.
   */
  function DriversLicenseToDto(s: Snapshot): (r: Result<RestDriversLicenseDto, Error>)
    requires s.details.DriversLicenseDetails?
    ensures r.Success? <==> s.key.CredentialId?
    ensures r.Failure? ==> r.error == AttributeError("credential_id")
    ensures r.Success? ==> && s.key.CredentialIdAttr() == Success(r.value.credentialId)
                           && ParseIsoDate(r.value.validFrom) == Success(s.validFrom)
                           && ParseIsoDate(r.value.validUntil) == Success(s.validUntil)
                           && r.value.issuingCountry == s.issuingCountry
                           && r.value.state.status.Some?
                           && ParseStatus(r.value.state.status.value) == Some(s.state.status)
                           && r.value.state.suspensionReason == s.state.suspensionReason
                           && r.value.state.revocationReason == s.state.revocationReason
                           && r.value.vehicleClasses == s.details.vehicleClasses
                           && r.value.issuingRegion == s.details.issuingRegion
  {
    var id :- s.key.CredentialIdAttr();
    ParseIsoFormat(s.validFrom);
    ParseIsoFormat(s.validUntil);
    Success(RestDriversLicenseDto(id, IsoFormat(s.validFrom), IsoFormat(s.validUntil), s.issuingCountry,
                                  StatusFieldsOf(s.state), s.details.vehicleClasses, s.details.issuingRegion))
  }

  /**
   * `to_domain`, with the constructor the call evidently means: a license keyed by the
   * body's `credential_id`. Malformed dates fail outside the `try` and are not wrapped.
   */
  function DriversLicenseToDomain(p: Payload): (r: Result<Snapshot, Error>)
    ensures ParseRestDriversLicense(p).Failure? ==>
              r.Failure? && r.error.InvalidCredentialData? && r.error.field == "format"
    ensures r.Success? <==> && ParseRestDriversLicense(p).Success?
                            && var d := ParseRestDriversLicense(p).value;
                            && FromIsoFormat(d.validFrom).Some? && FromIsoFormat(d.validUntil).Some?
                            && L.WindowError(FromIsoFormat(d.validFrom).value, FromIsoFormat(d.validUntil).value).None?
    ensures r.Success? ==> && ParseRestDriversLicense(p).Success?
                           && var d := ParseRestDriversLicense(p).value;
                           && r.value.key == CredentialId(d.credentialId)
                           && r.value.issuingCountry == Text.Lower(d.issuingCountry)
                           && r.value.details == DriversLicenseDetails(d.vehicleClasses, d.issuingRegion)
                           && FromIsoFormat(d.validFrom).Some? && FromIsoFormat(d.validFrom).value.IsAware()
                           && r.value.validFrom == AsUtc(FromIsoFormat(d.validFrom).value)
                           && FromIsoFormat(d.validUntil).Some? && FromIsoFormat(d.validUntil).value.IsAware()
                           && r.value.validUntil == AsUtc(FromIsoFormat(d.validUntil).value)
                           && r.value.state == L.Initial
                           && WellFormed(r.value)
  {
    var d :- DriversLicenseSpecificDto(p);
    var validFrom :- ParseIsoDate(d.validFrom);
    var validUntil :- ParseIsoDate(d.validUntil);
    Construct(CredentialId(d.credentialId), validFrom, validUntil, d.issuingCountry,
              DriversLicenseDetails(d.vehicleClasses, d.issuingRegion))
  }

  /** A body that validates but carries a malformed `valid_from` fails with the bare ValueError. */
  lemma DriversLicenseMalformedDateUnwrapped(p: Payload)
    requires ParseRestDriversLicense(p).Success?
    requires FromIsoFormat(ParseRestDriversLicense(p).value.validFrom).None?
    ensures DriversLicenseToDomain(p)
            == Failure(ValueError("Invalid isoformat string: '" + ParseRestDriversLicense(p).value.validFrom + "'"))
  {
  }

  /** Whatever status and reasons a body carries, the license built from it is the same. */
  lemma DriversLicenseIgnoresStatus(d: RestDriversLicenseDto, state: StatusFields)
    ensures DriversLicenseToDomain(DumpRestDriversLicense(d.(state := state)))
            == DriversLicenseToDomain(DumpRestDriversLicense(d))
  {
    ParseDumpRestDriversLicense(d.(state := state));
    ParseDumpRestDriversLicense(d);
  }

  /** Written out and read back, a license keeps every field and comes back ACTIVE with no reasons. */
  lemma DriversLicenseRoundTrip(s: Snapshot)
    requires WellFormed(s) && s.key.CredentialId? && s.details.DriversLicenseDetails?
    ensures DriversLicenseToDto(s).Success?
    ensures DriversLicenseToDomain(DumpRestDriversLicense(DriversLicenseToDto(s).value)) == Success(s.(state := L.Initial))
  {
    var d := DriversLicenseToDto(s).value;
    ParseDumpRestDriversLicense(d);
    ConstructFromStored(s);
  }

  /**
   * `to_domain` as written: once the body and its dates pass, the call raises the
   * abstract-class TypeError, which comes before `__init__` could refuse `credential_id=`.
   */
  function DriversLicenseToDomainAsWritten(p: Payload): (r: Result<Snapshot, Error>)
    ensures r.Failure?
    ensures DriversLicenseSpecificDto(p).Success? && ParseIsoDate(DriversLicenseSpecificDto(p).value.validFrom).Success?
            && ParseIsoDate(DriversLicenseSpecificDto(p).value.validUntil).Success? ==>
              r == Failure(LatestVariants.DriversLicenseAbstractError)
  {
    var d :- DriversLicenseSpecificDto(p);
    var validFrom :- ParseIsoDate(d.validFrom);
    var validUntil :- ParseIsoDate(d.validUntil);
    Failure(LatestVariants.DriversLicenseAbstractError)
  }

  /** No license written by `to_dto` can be read back by the written `to_domain`. */
  lemma DriversLicenseAsWrittenRefusesOwnDto(s: Snapshot)
    requires WellFormed(s) && s.key.CredentialId? && s.details.DriversLicenseDetails?
    ensures DriversLicenseToDto(s).Success?
    ensures DriversLicenseToDomainAsWritten(DumpRestDriversLicense(DriversLicenseToDto(s).value)) == Failure(LatestVariants.DriversLicenseAbstractError)
    ensures DriversLicenseToDomain(DumpRestDriversLicense(DriversLicenseToDto(s).value)).Success?
  {
    DriversLicenseRoundTrip(s);
  }

  /** `_to_specific_dto` of the passport assembler. */
  function PassportSpecificDto(p: Payload): (r: Result<PassportDto, Error>)
    ensures r.Success? <==> ParsePassport(p).Success?
    ensures r.Success? ==> r.value == ParsePassport(p).value
    ensures r.Failure? ==> r.error.InvalidCredentialData? && r.error.field == "format"
  {
    match ParsePassport(p)
    case Success(d) => Success(d)
    case Failure(e) => Failure(FormatError(e))
  }

  /**
   * `to_dto`: any exception while building the DTO, here the AttributeError of a passport
   * without an issuer id, is rewrapped as a "conversion" error.
   */
  function PassportToDto(s: Snapshot): (r: Result<PassportDto, Error>)
    requires s.details.PassportDetails?
    ensures r.Success? <==> s.key.IssuerHolder?
    ensures r.Failure? ==> r.error == ConversionError(AttributeError("issuer_id"))
    ensures r.Success? ==> && s.key.IssuerIdAttr() == Success(r.value.issuerId)
                           && s.key.HolderIdAttr() == Success(r.value.holderId)
                           && ParseIsoDate(r.value.validFrom) == Success(s.validFrom)
                           && ParseIsoDate(r.value.validUntil) == Success(s.validUntil)
                           && r.value.state.status.Some?
                           && ParseStatus(r.value.state.status.value) == Some(s.state.status)
                           && r.value.state.suspensionReason == s.state.suspensionReason
                           && r.value.state.revocationReason == s.state.revocationReason
                           && r.value.nationality == s.details.nationality
                           && r.value.issuingCountry == s.issuingCountry
  {
    match s.key
    case CredentialId(_) => Failure(ConversionError(AttributeError("issuer_id")))
    case IssuerHolder(issuerId, holderId) =>
      ParseIsoFormat(s.validFrom);
      ParseIsoFormat(s.validUntil);
      Success(PassportDto(issuerId, holderId, IsoFormat(s.validFrom), IsoFormat(s.validUntil),
                          StatusFieldsOf(s.state), s.details.nationality, s.issuingCountry))
  }

  /** `to_domain`: validate, parse the dates, construct; the status and reasons of the body are dropped. */
  function PassportToDomain(p: Payload): (r: Result<Snapshot, Error>)
    ensures ParsePassport(p).Failure? ==>
              r.Failure? && r.error.InvalidCredentialData? && r.error.field == "format"
    ensures r.Success? <==> && ParsePassport(p).Success?
                            && var d := ParsePassport(p).value;
                            && FromIsoFormat(d.validFrom).Some? && FromIsoFormat(d.validUntil).Some?
                            && L.WindowError(FromIsoFormat(d.validFrom).value, FromIsoFormat(d.validUntil).value).None?
    ensures r.Success? ==> && ParsePassport(p).Success?
                           && var d := ParsePassport(p).value;
                           && r.value.key == IssuerHolder(d.issuerId, d.holderId)
                           && r.value.issuingCountry == Text.Lower(d.issuingCountry)
                           && r.value.details == PassportDetails(d.nationality)
                           && FromIsoFormat(d.validFrom).Some? && FromIsoFormat(d.validFrom).value.IsAware()
                           && r.value.validFrom == AsUtc(FromIsoFormat(d.validFrom).value)
                           && FromIsoFormat(d.validUntil).Some? && FromIsoFormat(d.validUntil).value.IsAware()
                           && r.value.validUntil == AsUtc(FromIsoFormat(d.validUntil).value)
                           && r.value.state == L.Initial
                           && WellFormed(r.value)
  {
    var d :- PassportSpecificDto(p);
    var validFrom :- ParseIsoDate(d.validFrom);
    var validUntil :- ParseIsoDate(d.validUntil);
    LatestVariants.NewPassport(d.issuerId, d.holderId, validFrom, validUntil, d.nationality, d.issuingCountry)
  }

  lemma PassportRoundTrip(s: Snapshot)
    requires WellFormed(s) && s.key.IssuerHolder? && s.details.PassportDetails?
    ensures PassportToDto(s).Success?
    ensures PassportToDomain(DumpPassport(PassportToDto(s).value)) == Success(s.(state := L.Initial))
  {
    var d := PassportToDto(s).value;
    ParseDumpPassport(d);
    ConstructFromStored(s);
  }
}

=== FILE: text.dfy ===
/** Character-level helpers: ASCII case folding and a decimal text encoding of integers. */
module Text {
  import opened Wrappers

  /** Python's `str.lower()`, restricted to the ASCII letters. */
  function LowerChar(c: char): char {
    if 'A' <= c <= 'Z' then (c as int + 32) as char else c
  }

  function Lower(s: string): (r: string)
    ensures |r| == |s|
    ensures forall i :: 0 <= i < |s| ==> r[i] == LowerChar(s[i])
  {
    if s == [] then [] else [LowerChar(s[0])] + Lower(s[1..])
  }

  /** No upper-case ASCII letter occurs in `s`. */
  predicate IsLowerCase(s: string) {
    forall i :: 0 <= i < |s| ==> !('A' <= s[i] <= 'Z')
  }

  /** Lower-casing yields a lower-case string, and leaves a lower-case string as it is. */
  lemma LowerIsLowerCase(s: string)
    ensures IsLowerCase(Lower(s))
    ensures IsLowerCase(s) ==> Lower(s) == s
  {
    if IsLowerCase(s) {
      assert forall i :: 0 <= i < |s| ==> Lower(s)[i] == s[i];
    }
  }

  /** Lower-casing twice is lower-casing once. */
  lemma LowerIdempotent(s: string)
    ensures Lower(Lower(s)) == Lower(s)
  {
    LowerIsLowerCase(s);
    LowerIsLowerCase(Lower(s));
  }

  predicate IsDigit(c: char) {
    '0' <= c <= '9'
  }

  function DigitChar(d: nat): (c: char)
    requires d < 10
    ensures IsDigit(c) && c as int - '0' as int == d
  {
    ('0' as int + d) as char
  }

  /** The decimal digits of `n`, most significant first, without leading zeros. */
  function NatToDigits(n: nat): (s: string)
    ensures |s| >= 1
    ensures forall i :: 0 <= i < |s| ==> IsDigit(s[i])
    decreases n
  {
    if n < 10 then [DigitChar(n)] else NatToDigits(n / 10) + [DigitChar(n % 10)]
  }

  /** Reads a non-empty run of decimal digits. */
  function ParseDigits(s: string): (r: Option<nat>)
    ensures r.Some? ==> |s| >= 1 && forall i :: 0 <= i < |s| ==> IsDigit(s[i])
    decreases |s|
  {
    if |s| == 0 || !IsDigit(s[|s| - 1]) then None
    else
      var d := s[|s| - 1] as int - '0' as int;
      if |s| == 1 then Some(d)
      else match ParseDigits(s[..|s| - 1])
        case None => None
        case Some(v) => Some(v * 10 + d)
  }

  lemma {:induction false} ParseNatToDigits(n: nat)
    ensures ParseDigits(NatToDigits(n)) == Some(n)
    decreases n
  {
    if n >= 10 {
      var prefix := NatToDigits(n / 10);
      ParseNatToDigits(n / 10);
      assert (prefix + [DigitChar(n % 10)])[..|prefix|] == prefix;
    }
  }

  /** A signed decimal text: a leading '+' or '-' and the digits of the magnitude. */
  function IntToText(i: int): (s: string)
    ensures |s| >= 2 && (s[0] == '+' || s[0] == '-')
    ensures forall k :: 1 <= k < |s| ==> IsDigit(s[k])
  {
    if i < 0 then "-" + NatToDigits(-i) else "+" + NatToDigits(i)
  }

  function ParseInt(s: string): Option<int> {
    if |s| == 0 then None
    else if s[0] == '+' then
      match ParseDigits(s[1..])
      case None => None
      case Some(n) => Some(n)
    else if s[0] == '-' then
      match ParseDigits(s[1..])
      case None => None
      case Some(n) => Some(-(n as int))
    else None
  }

  lemma ParseIntToText(i: int)
    ensures ParseInt(IntToText(i)) == Some(i)
  {
    var magnitude := if i < 0 then -i else i;
    ParseNatToDigits(magnitude);
    assert IntToText(i)[1..] == NatToDigits(magnitude);
  }
}

=== FILE: uuids.dfy ===
/**
 * `uuid.UUID(text)` and `str(uuid)`: the parser drops `urn:` and `uuid:` prefixes, braces at
 * either end and every hyphen, then wants exactly 32 hexadecimal digits; the text form is
 * those digits in lower case, grouped 8-4-4-4-12.
 */
module Uuids {
  import opened Wrappers
  import opened Errors
  import Text

  const BadlyFormed := ValueError("badly formed hexadecimal UUID string")

  predicate IsHexDigit(c: char) {
    '0' <= c <= '9' || 'a' <= c <= 'f' || 'A' <= c <= 'F'
  }

  predicate IsLowerHexDigit(c: char) {
    '0' <= c <= '9' || 'a' <= c <= 'f'
  }

  /** The 32 lower-case digits a UUID is made of. */
  predicate IsDigits(h: string) {
    |h| == 32 && forall i :: 0 <= i < |h| ==> IsLowerHexDigit(h[i])
  }

  /** `s.replace(pat, '')`: every occurrence, scanning left to right, removed. */
  function RemoveAll(s: string, pat: string): (r: string)
    requires pat != []
    ensures |r| <= |s|
    decreases |s|
  {
    if |s| < |pat| then s
    else if s[..|pat|] == pat then RemoveAll(s[|pat|..], pat)
    else [s[0]] + RemoveAll(s[1..], pat)
  }

  /** `s.replace(c, '')` for a single character. */
  function RemoveChar(s: string, c: char): (r: string)
    ensures c !in r
  {
    if s == [] then [] else (if s[0] == c then [] else [s[0]]) + RemoveChar(s[1..], c)
  }

  predicate IsBrace(c: char) {
    c == '{' || c == '}'
  }

  /** `s.strip('{}')`. */
  function StripBraces(s: string): (r: string)
    ensures |r| <= |s|
    ensures r != [] ==> !IsBrace(r[0]) && !IsBrace(r[|r| - 1])
    decreases |s|
  {
    if s != [] && IsBrace(s[0]) then StripBraces(s[1..])
    else if s != [] && IsBrace(s[|s| - 1]) then StripBraces(s[..|s| - 1])
    else s
  }

  /** What `UUID(s)` is left with once the prefixes, the braces and the hyphens are gone. */
  function Stripped(s: string): string {
    RemoveChar(StripBraces(RemoveAll(RemoveAll(s, "urn:"), "uuid:")), '-')
  }

  /** `int(hex, 16)` on a text that is not a base-16 literal; `repr` quotes the text. */
  function InvalidLiteral(hex: string): Error {
    ValueError("invalid literal for int() with base 16: '" + hex + "'")
  }

  /**
   * The digits `UUID(s)` keeps, lower-cased as `str` prints them, or the ValueError it raises:
   * its own message when the stripped text is not 32 characters long, and `int`'s when it is
   * but is not hexadecimal.
   */
  function Parse(s: string): (r: Result<string, Error>)
    ensures r.Success? <==> |Stripped(s)| == 32 && forall i :: 0 <= i < 32 ==> IsHexDigit(Stripped(s)[i])
    ensures r.Success? ==> IsDigits(r.value)
    ensures |Stripped(s)| != 32 ==> r == Failure(BadlyFormed)
    ensures |Stripped(s)| == 32 && r.Failure? ==> r.error == InvalidLiteral(Stripped(s))
  {
    var hex := Stripped(s);
    if |hex| != 32 then Failure(BadlyFormed)
    else if exists i :: 0 <= i < |hex| && !IsHexDigit(hex[i]) then Failure(InvalidLiteral(hex))
    else Success(Text.Lower(hex))
  }

  /** `str(uuid)`: the 8-4-4-4-12 grouping. */
  function Canonical(h: string): (r: string)
    requires IsDigits(h)
    ensures |r| == 36
  {
    h[..8] + "-" + (h[8..12] + "-" + (h[12..16] + "-" + (h[16..20] + "-" + h[20..])))
  }

  /** The text a parsed UUID prints as. */
  function UuidText(s: string): (r: Result<string, Error>)
    ensures r.Success? <==> Parse(s).Success?
  {
    var h :- Parse(s);
    Success(Canonical(h))
  }

  lemma {:induction false} RemoveAllAbsent(s: string, pat: string)
    requires pat != [] && ':' in pat && ':' !in s
    ensures RemoveAll(s, pat) == s
    decreases |s|
  {
    if |s| >= |pat| {
      assert s[..|pat|] != pat by {
        var k :| 0 <= k < |pat| && pat[k] == ':';
        assert s[..|pat|][k] == s[k];
      }
      RemoveAllAbsent(s[1..], pat);
      assert s == [s[0]] + s[1..];
    }
  }

  lemma {:induction false} RemoveCharAppend(a: string, b: string, c: char)
    ensures RemoveChar(a + b, c) == RemoveChar(a, c) + RemoveChar(b, c)
  {
    if a != [] {
      assert (a + b)[1..] == a[1..] + b;
      RemoveCharAppend(a[1..], b, c);
    } else {
      assert a + b == b;
    }
  }

  lemma {:induction false} RemoveCharAbsent(s: string, c: char)
    requires c !in s
    ensures RemoveChar(s, c) == s
  {
    if s != [] {
      RemoveCharAbsent(s[1..], c);
      assert s == [s[0]] + s[1..];
    }
  }

  lemma HyphenStep(x: string, y: string)
    requires '-' !in x
    ensures RemoveChar(x + "-" + y, '-') == x + RemoveChar(y, '-')
  {
    var xh := x + "-";
    RemoveCharAppend(xh, y, '-');
    RemoveCharAppend(x, "-", '-');
    RemoveCharAbsent(x, '-');
    assert RemoveChar("-", '-') == [];
    assert RemoveChar(xh, '-') == x;
  }

  /** Taking the hyphens out of the printed text leaves the digits. */
  lemma CanonicalHyphens(h: string)
    requires IsDigits(h)
    ensures RemoveChar(Canonical(h), '-') == h
  {
    var h0, h1, h2, h3, h4 := h[..8], h[8..12], h[12..16], h[16..20], h[20..];
    assert forall x :: x in h ==> IsLowerHexDigit(x);
    HyphenStep(h0, h1 + "-" + (h2 + "-" + (h3 + "-" + h4)));
    HyphenStep(h1, h2 + "-" + (h3 + "-" + h4));
    HyphenStep(h2, h3 + "-" + h4);
    HyphenStep(h3, h4);
    RemoveCharAbsent(h4, '-');
    assert h == h0 + (h1 + (h2 + (h3 + h4)));
  }

  /** The printed text has no colon and neither starts nor ends with a brace. */
  lemma CanonicalShape(h: string)
    requires IsDigits(h)
    ensures ':' !in Canonical(h)
    ensures StripBraces(Canonical(h)) == Canonical(h)
  {
    var t := Canonical(h);
    assert forall x :: x in h ==> IsLowerHexDigit(x);
    assert t[0] == h[0];
    assert t[35] == h[31];
  }

  /** Parsing the printed text of a UUID gives back its digits. */
  lemma ParseCanonical(h: string)
    requires IsDigits(h)
    ensures Parse(Canonical(h)) == Success(h)
  {
    var t := Canonical(h);
    CanonicalShape(h);
    RemoveAllAbsent(t, "urn:");
    RemoveAllAbsent(t, "uuid:");
    CanonicalHyphens(h);
    assert Text.Lower(h) == h by {
      forall i | 0 <= i < |h| ensures Text.Lower(h)[i] == h[i] {
        assert IsLowerHexDigit(h[i]);
      }
    }
  }

  /** Printing a parsed UUID and parsing the text again prints the same text. */
  lemma UuidTextIdempotent(s: string)
    requires UuidText(s).Success?
    ensures UuidText(UuidText(s).value) == UuidText(s)
  {
    ParseCanonical(Parse(s).value);
  }
}

=== FILE: wire.dfy ===
/**
 * The JSON bodies the REST layer exchanges and the validation its pydantic DTO classes apply
 * when built from a dict: a declared field is looked up by its name, a field with a default may
 * be left out, and a missing or mistyped field raises ValidationError, which is a ValueError.
 * Keys a DTO does not declare are ignored by that validation, so they are not represented.
 */
module Wire {
  import opened Wrappers
  import opened Errors
  import Enums
  import L = Lifecycle

  /** A JSON value, as far as the DTOs tell values apart. */
  datatype Json = JStr(s: string) | JStrList(items: seq<string>) | JNull | JOther

  /** The body keys some DTO declares. */
  datatype Field =
    | CredentialIdField | IssuerIdField | HolderIdField | ValidFromField | ValidUntilField
    | IssuingCountryField | StatusField | SuspensionReasonField | RevocationReasonField
    | VehicleClassesField | IssuingRegionField | IssuingProvinceField | NationalityField
  {
    function Name(): string {
      match this
      case CredentialIdField => "credential_id"
      case IssuerIdField => "issuer_id"
      case HolderIdField => "holder_id"
      case ValidFromField => "valid_from"
      case ValidUntilField => "valid_until"
      case IssuingCountryField => "issuing_country"
      case StatusField => "status"
      case SuspensionReasonField => "suspension_reason"
      case RevocationReasonField => "revocation_reason"
      case VehicleClassesField => "vehicle_classes"
      case IssuingRegionField => "issuing_region"
      case IssuingProvinceField => "issuing_province"
      case NationalityField => "nationality"
    }
  }

  type Payload = map<Field, Json>

  const Missing := "Field required"
  const NotString := "Input should be a valid string"
  const NotList := "Input should be a valid list"

  /** The ValidationError the DTO class `model` raises for field `f`. */
  function Invalid(model: string, f: Field, problem: string): Error {
    ValueError("1 validation error for " + model + "\n" + f.Name() + "\n  " + problem)
  }

  /** A required `str` field. */
  function Str(model: string, p: Payload, f: Field): (r: Result<string, Error>)
    ensures r.Success? <==> f in p && p[f].JStr?
    ensures r.Success? ==> p[f] == JStr(r.value)
    ensures f !in p ==> r == Failure(Invalid(model, f, Missing))
  {
    if f !in p then Failure(Invalid(model, f, Missing))
    else match p[f]
      case JStr(s) => Success(s)
      case _ => Failure(Invalid(model, f, NotString))
  }

  /** A required `List[str]` field. */
  function StrList(model: string, p: Payload, f: Field): (r: Result<seq<string>, Error>)
    ensures r.Success? <==> f in p && p[f].JStrList?
    ensures r.Success? ==> p[f] == JStrList(r.value)
    ensures f !in p ==> r == Failure(Invalid(model, f, Missing))
  {
    if f !in p then Failure(Invalid(model, f, Missing))
    else match p[f]
      case JStrList(items) => Success(items)
      case _ => Failure(Invalid(model, f, NotList))
  }

  /** An `Optional[str]` field with a default: leaving it out gives the default, `null` gives None. */
  function OptStr(model: string, p: Payload, f: Field, default: Option<string>): (r: Result<Option<string>, Error>)
    ensures r.Success? <==> f !in p || p[f].JStr? || p[f].JNull?
    ensures f !in p ==> r == Success(default)
    ensures r.Success? && f in p ==> p[f] == OptJson(r.value)
  {
    if f !in p then Success(default)
    else match p[f]
      case JStr(s) => Success(Some(s))
      case JNull => Success(None)
      case _ => Failure(Invalid(model, f, NotString))
  }

  /** How `model_dump` writes an optional text. */
  function OptJson(o: Option<string>): Json {
    match o
    case None => JNull
    case Some(s) => JStr(s)
  }

  /**
   * The three fields every credential DTO declares after its identity and dates:
   * `status` defaults to 'active' and is a free string, the reasons default to None.
   */
  datatype StatusFields = StatusFields(status: Option<string>, suspensionReason: Option<string>, revocationReason: Option<string>)

  function ParseStatusFields(model: string, p: Payload): (r: Result<StatusFields, Error>)
    ensures r.Success? <==> forall f <- {StatusField, SuspensionReasonField, RevocationReasonField} ::
                              f !in p || p[f].JStr? || p[f].JNull?
    ensures StatusField !in p && SuspensionReasonField !in p && RevocationReasonField !in p ==>
              r == Success(StatusFields(Some("active"), None, None))
  {
    var status :- OptStr(model, p, StatusField, Some("active"));
    var suspension :- OptStr(model, p, SuspensionReasonField, None);
    var revocation :- OptStr(model, p, RevocationReasonField, None);
    Success(StatusFields(status, suspension, revocation))
  }

  /** What `to_dto` copies from a credential's state: the status value and both reasons. */
  function StatusFieldsOf(s: L.State): (r: StatusFields)
    ensures r.status.Some? && Enums.ParseStatus(r.status.value) == Some(s.status)
  {
    Enums.ParseStatusValue(s.status);
    StatusFields(Some(s.status.Value()), s.suspensionReason, s.revocationReason)
  }

  /** The three entries `model_dump` writes for them. */
  function DumpStatusFields(sf: StatusFields): Payload {
    map[StatusField := OptJson(sf.status),
        SuspensionReasonField := OptJson(sf.suspensionReason),
        RevocationReasonField := OptJson(sf.revocationReason)]
  }

  /** Validation reads back what `model_dump` wrote, whatever else the body holds. */
  lemma ParseDumpedStatusFields(model: string, p: Payload, sf: StatusFields)
    requires forall f <- DumpStatusFields(sf) :: f in p && p[f] == DumpStatusFields(sf)[f]
    ensures ParseStatusFields(model, p) == Success(sf)
  {
    var d := DumpStatusFields(sf);
    assert StatusField in d && SuspensionReasonField in d && RevocationReasonField in d;
  }

  lemma LookupStr(model: string, p: Payload, f: Field, v: string)
    requires f in p && p[f] == JStr(v)
    ensures Str(model, p, f) == Success(v)
  {
  }

  lemma LookupStrList(model: string, p: Payload, f: Field, v: seq<string>)
    requires f in p && p[f] == JStrList(v)
    ensures StrList(model, p, f) == Success(v)
  {
  }
}

=== FILE: wrappers.dfy ===
/** Optional values and success/failure results, used for Python's `None` and for raised exceptions. */
module Wrappers {

  datatype Option<+T> = None | Some(value: T)

  datatype Result<+T, +E> = Success(value: T) | Failure(error: E) {

    predicate IsFailure() {
      Failure?
    }

    function PropagateFailure<U>(): Result<U, E>
      requires Failure?
    {
      Failure(error)
    }

    function Extract(): T
      requires Success?
    {
      value
    }
  }
}
